=== FILE: README.md ===
# imr-engine core, modelled in Dafny

imr-engine is a small C++ immediate-mode 2D engine on OpenGL 3. This project models its
core as pure Dafny functions over immutable state and proves properties about them. The
core covered here is:

- **The renderer context** (`Render`, `StateStack`, `BufferPool`, `Atlas`). It holds:
  - the program registry and the program stack;
  - the viewport and blend-function stacks, which only re-issue a GL state change when
    the value differs;
  - camera begin/end;
  - the array-buffer pool, keyed by size classes rounded with `min_power_of_2` on a 32-bit
    word (`Bits`);
  - atlas uv rectangles.
- **Sprite drawing** (`Sprite`). Draws are either immediate or queued in a "try batch".
  Runs of same-texture draws are flushed as one instanced draw.
- **Instancing and meshes** (`Instancing`, `Mesh`):
  - the 20-float per-instance records in the shared scratch buffer;
  - the mesh context with its 16-bit index rebasing.
- **Text** (`Utf8`, `Text`). The UTF-8 decoding loop of `text`, and the pen logic that
  places glyphs, with the carriage-return rule.
- **Sprite animation** (`Animation`): the animation builder and the frame-stepping player.
- **Game world** (`MemoryPool`, `GameWorld`):
  - the free-list `memory_pool`;
  - the universe with worlds, game objects, components, commands and the frame loop;
  - physics contact bookkeeping.
- **Tweeners** (`Tweeners`): the three play modes, plus the builder.
- **The scene manager** (`Scenes`): scene switching across device loss and reset.
- **Keyboard input** (`Keyboard`): the first-press set.

Side effects are recorded rather than performed:

- GL calls are appended to an effect log (`Render.Effect`).
- Calls into user code are appended to a call log: component hooks, command `run`,
  contact callbacks, system callbacks and scene callbacks.

Pointers become indices or identifiers, with one exception. An animation in the source
keeps pointers into its atlas's sprite table. The model copies the sprite info when the
animation is built, and `Animation.CurrentSpriteInfoIn` reads through the name the way the
pointer does. Where the source iterates a hash map, the model
takes the iteration order as a parameter. Floats are modelled as `real`, `int` bit tricks
as `bv32`, and C++ truncating division is written out explicitly. The one place where an
unguarded float division can meet a zero divisor in the renderer is the uv rectangle of a
texture of size zero. So uv rectangles, and the instance records that carry them, hold
`Geometry.Float`: a finite value, an infinity or NaN, as IEEE 754 division gives.

## Model

| member | source | states |
|---|---|---|
| Results.Succeed | imr_core/imr_core.h:176-179 | a result has succeeded exactly when it has not failed, and the default result has succeeded |
| Results.Failed | imr_core/imr_core.h:181-184 | a result has failed exactly when it is the fail result with its own code and message |
| Results.Propagate | imr_core/imr_core.h:12-16 | the early-return macro yields the failed result itself, and otherwise the rest of the computation |
| Results.ChainFirstFailure | imr_core/imr_core.h:12-16 | a run of steps each guarded by the early-return macro returns its first failed step, or the rest when every step succeeded |
| Geometry.TruncDiv | imr_core/imr_core.h:135 | the quotient times the divisor plus a remainder that takes the dividend's sign gives back the dividend (C++ truncating division) |
| Geometry.Add | imr_core/imr_core.h:131 | subtracting the second operand from the sum gives back the first |
| Geometry.Sub | imr_core/imr_core.h:132 | adding the subtrahend back to the difference gives the minuend |
| Geometry.Mul | imr_core/imr_core.h:133 | a component-wise product divided back, with truncation, by a non-zero component of the second operand gives the first operand's component |
| Geometry.Scale | imr_core/imr_core.h:134 | scaling by k is the product with (k, k), and dividing back by a non-zero k gives the original |
| Geometry.TruncDivExact | imr_core/imr_core.h:135 | a multiple of a non-zero divisor divides back exactly under truncating division |
| Geometry.DivInt | imr_core/imr_core.h:135 | each component of `int2 / int` times the divisor plus its truncating remainder is the original component |
| Geometry.DivIntTruncates | imr_core/imr_core.h:135 | -7/2 gives -3 and 7/-2 gives -3: rounding is toward zero, not Euclidean |
| Geometry.Quotient | imr_core/imr_core.h:145-147 | float division by a divisor converted from an int: finite with quotient times divisor equal to the dividend exactly when the divisor is non-zero; otherwise NaN for 0/0 and an infinity with the dividend's sign |
| Geometry.OneMinus | imr_core_opengl3/imr_opengl3.cpp:49-50 | `1.0f - f` flips a finite value, changes an infinity's sign and keeps NaN |
| Bits.LowestBitTest | imr_core/imr_core.h:315 | the guard `(n & -n) == n` holds exactly for zero and the powers of two |
| Bits.MinPowerOf2 | imr_core/imr_core.h:313-323 | the result is always zero or a power of two on the 32-bit word |
| Bits.MinPowerOf2Fixed | imr_core/imr_core.h:313-323 | zero and powers of two are returned unchanged |
| Bits.MinPowerOf2Rounds | imr_core/imr_core.h:313-323 | any other size up to 2^30 is rounded up to a power of two strictly between n and 2n |
| Bits.MinPowerOf2Least | imr_core/imr_core.h:313-323 | the result is at most any power of two that is at least n: it is the least such power |
| Bits.MinPowerOf2AtLeast | imr_core/imr_core.h:313-323 | a size up to 2^30 never exceeds its rounded class |
| Bits.MinPowerOf2Negative | imr_core/imr_core.h:313-323 | a negative int other than INT_MIN smears to all ones and wraps to 0 |
| StateStack.Push | imr_core_opengl3/imr_opengl3.cpp:794-809 | the value is always pushed; the GL state is set exactly when the stack was empty or the top differs, and then the applied value is the new one |
| StateStack.Pop | imr_core_opengl3/imr_opengl3.cpp:812-824 | the top is dropped; the value underneath is re-applied exactly when it exists and differs from the dropped one |
| StateStack.PushCoherent | imr_core_opengl3/imr_opengl3.cpp:794-809 | push keeps the GL-side value equal to the top of the stack |
| StateStack.PopCoherent | imr_core_opengl3/imr_opengl3.cpp:812-824 | pop keeps the GL-side value equal to the new top |
| StateStack.PushPopRestores | imr_core_opengl3/imr_opengl3.cpp:794-824 | a push followed by a pop restores a non-empty coherent stack exactly, applied value included |
| StateStack.PushPopOnEmpty | imr_core_opengl3/imr_opengl3.cpp:794-824 | pushing onto an empty stack always applies; popping back to empty applies nothing and leaves that value set |
| Atlas.UvRect | imr_core_opengl3/imr_opengl3.cpp:46-50 | on a non-zero texture side, u and v scaled back by the texture size give the pixel rectangle's corners, with both v coordinates flipped to 1 - v; on a zero side the coordinates along it are not finite, NaN exactly where the pixel coordinate is 0 |
| Atlas.AddSpriteInfo | imr_core_opengl3/imr_opengl3.cpp:43-53 | the sprite is stored (or overwritten) with its uv rectangle whatever the texture's size; every other sprite is kept |
| Atlas.RemoveSpriteInfo | imr_core_opengl3/imr_opengl3.cpp:55-60 | exactly the named sprite is removed; the rest are unchanged |
| Atlas.GetSpriteInfo | imr_core/imr_core.h:274-278 | the lookup throws (None) exactly for an unregistered name, and otherwise gives the stored sprite |
| Atlas.AddThenGet | imr_core_opengl3/imr_opengl3.cpp:43-60 | a sprite just added is found with its uv rectangle, and after removing it the lookup throws |
| Atlas.AddThenRemove | imr_core_opengl3/imr_opengl3.cpp:43-60 | adding then removing a fresh name gives back the original atlas |
| Atlas.AtlasExample | imr_core_opengl3/imr_opengl3.cpp:43-53 | a 64x64 sprite at (192,0) of a 256x256 texture gets uv (0.75, 1, 1, 0.75) |
| Atlas.ZeroSizedTextureExample | imr_core_opengl3/imr_opengl3.cpp:43-53 | the same sprite on a 0x0 texture is stored with uv (+inf, NaN, +inf, -inf) |
| BufferPool.WordOfSmall | imr_core_opengl3/imr_opengl3.h:397-399 | a byte size below 2^30 stays in the range where rounding to a size class is exact |
| BufferPool.NewArrayBuffer | imr_core_opengl3/imr_opengl3.h:62-71 | a new buffer's key is the class of its request, and its capacity is at least the requested size |
| BufferPool.GetArrayBuffer | imr_core_opengl3/imr_opengl3.h:397-410 | the top buffer of the request's class is popped, or a new one is created when the class is empty; the lookup creates the class; the pool stays well formed |
| BufferPool.ReleaseArrayBuffer | imr_core_opengl3/imr_opengl3.h:412-416 | the buffer is pushed onto the class named by its own key; other classes are unchanged |
| BufferPool.SubData | imr_core_opengl3/imr_opengl3.h:83-89 | an upload the assertion admits is never clamped |
| BufferPool.CheckoutReturnCheckout | imr_core_opengl3/imr_opengl3.h:397-416 | checkout, return, checkout again yields the same buffer and the same pool as the first checkout |
| BufferPool.CapacityOfClass | imr_core_opengl3/imr_opengl3.h:397-410 | a checked-out buffer, reused or new, has the capacity of its size class |
| BufferPool.CheckoutFits | imr_core_opengl3/imr_opengl3.h:83-89 | a checked-out buffer can take an upload of the requested size |
| BufferPool.CheckoutReturnRestores | imr_core_opengl3/imr_opengl3.h:397-416 | when the class is non-empty, a checkout and return leave the pool as it was |
| Render.Init | imr_core_opengl3/imr_opengl3.h:375-395 | a fresh context has every stack empty, an empty log and a shared scratch buffer of the full size |
| Render.MultiTextures | imr_core_opengl3/imr_opengl3.cpp:14-33 | unit k (1 to 3) gets `BindTexture(k, t)` with its own texture t when one is given, and `UnbindTexture(k)` otherwise, in unit order |
| Render.LookupProgram | imr_core_opengl3/imr_opengl3.cpp:1460-1464 | `programs[name]` returns the stored program, or inserts a null entry for a missing name |
| Render.RegistProgram | imr_core_opengl3/imr_opengl3.cpp:762-770 | fails with code 1 exactly when the name is present; otherwise stores the program and changes nothing else |
| Render.UnregistProgram | imr_core_opengl3/imr_opengl3.cpp:772-781 | fails with code 1 exactly when the name is absent; otherwise destroys the program and erases the name |
| Render.RegistThenUnregist | imr_core_opengl3/imr_opengl3.cpp:762-781 | registering then unregistering a fresh name restores the registry and logs one destroy |
| Render.LookupBlocksRegist | imr_core_opengl3/imr_opengl3.cpp:762-770 | after a lookup of an unregistered name, registering that name fails with "already exist" |
| Render.PushProgram | imr_core_opengl3/imr_opengl3.cpp:783-786 | the name goes on top of the program stack; nothing else changes |
| Render.PopProgram | imr_core_opengl3/imr_opengl3.cpp:788-791 | the top name is removed; nothing else changes |
| Render.PushPopProgram | imr_core_opengl3/imr_opengl3.cpp:783-791 | push then pop restores the context |
| Render.PushViewport | imr_core_opengl3/imr_opengl3.cpp:826-837 | the viewport stack takes the push, and glViewport is logged exactly when push_state applies |
| Render.PopViewport | imr_core_opengl3/imr_opengl3.cpp:839-850 | the viewport stack takes the pop, and the revealed viewport is logged exactly when pop_state re-applies |
| Render.PushBlendFunc | imr_core_opengl3/imr_opengl3.cpp:852-863 | as for the viewport, with glBlendFunc |
| Render.PopBlendFunc | imr_core_opengl3/imr_opengl3.cpp:865-876 | as for the viewport, with glBlendFunc |
| Render.PushAdditive | imr_core_opengl3/imr_opengl3.cpp:1539-1543 | (ONE, ONE) goes on the blend stack, and the GL-side value stays coherent |
| Render.PopBlend | imr_core_opengl3/imr_opengl3.cpp:1545-1549 | the top blend function is removed, and the GL-side value stays coherent |
| Render.CameraBegin | imr_core_opengl3/imr_opengl3.cpp:938-974 | pushes a begun camera, a viewport covering the target and the alpha blend function; the camera/viewport/blend nesting and GL coherence are kept |
| Render.CameraEnd | imr_core_opengl3/imr_opengl3.cpp:976-999 | fails with code 1 exactly when no begun camera is on top; otherwise pops camera, blend function and viewport, keeping nesting and coherence |
| Render.BeginAll | imr_core_opengl3/imr_opengl3.cpp:938-974 | n begins add n cameras and keep the nesting |
| Render.EndN | imr_core_opengl3/imr_opengl3.cpp:976-999 | n ends remove exactly the top n cameras, viewports and blend functions and keep the nesting |
| Render.EndPopsAll | imr_core_opengl3/imr_opengl3.cpp:976-999 | ending a camera of a nested context pops exactly one entry off each of the three stacks |
| Render.BeginAllPushes | imr_core_opengl3/imr_opengl3.cpp:938-974 | n begins push exactly n viewports and blend functions and leave everything below untouched |
| Render.BeginEndShape | imr_core_opengl3/imr_opengl3.cpp:938-999 | one begin and one end restore the camera, viewport and blend stacks |
| Render.BeginsThenEndsRestore | imr_core_opengl3/imr_opengl3.cpp:938-999 | n begins followed by n ends restore the camera, viewport and blend stacks |
| Instancing.Record | imr_core_opengl3/imr_opengl3.cpp:1299-1325 | an instance record is 20 floats |
| Instancing.RecordRoundTrip | imr_core_opengl3/imr_opengl3.cpp:1299-1325 | every field written into a record is read back unchanged at the offsets of the five vec4 attributes (1519-1523), every slot but the uv ones is finite, and the padding slots are zero |
| Instancing.Begin | imr_core_opengl3/imr_opengl3.cpp:1266-1276 | pushes a begun context with count 0 on the given texture, or on white when it is null; lower contexts are kept |
| Instancing.BeginTexture | imr_core_opengl3/imr_opengl3.cpp:1387-1396 | fails with code 1 exactly on a null texture; otherwise behaves as begin |
| Instancing.Write | imr_core_opengl3/imr_opengl3.cpp:1299-1327 | the record lands at slot count*20, the rest of the buffer is untouched, and the count goes up by one |
| Instancing.Instance | imr_core_opengl3/imr_opengl3.cpp:1277-1329 | fails with code 1 exactly when not begun; otherwise writes one record and counts it |
| Instancing.InstanceAnimated | imr_core_opengl3/imr_opengl3.cpp:1342-1385 | code 1 when not begun, code 2 without a sprite; otherwise writes the sprite's size, uv and pivot |
| Instancing.RectUv | imr_core_opengl3/imr_opengl3.cpp:1406-1411 | on a non-zero texture side, scaled back by the texture size the uv rectangle gives the pixel rectangle, with v flipped; on a zero side the coordinates along it are not finite, NaN exactly where the coordinate is 0 |
| Instancing.InstanceRect | imr_core_opengl3/imr_opengl3.cpp:1398-1442 | fails with code 1 exactly when not begun; otherwise writes the pixel rectangle's record, whatever the texture's size |
| Instancing.ZeroSizedRectUv | imr_core_opengl3/imr_opengl3.cpp:1398-1442 | on a 0x0 texture the record's uv slots hold +inf, NaN, +inf, -inf while the color slots hold the color given |
| Instancing.Submit | imr_core_opengl3/imr_opengl3.cpp:1493-1533 | checks out a buffer of count*80 bytes, uploads it and returns it to the pool; the draw carries exactly the buffer's first count records |
| Instancing.End | imr_core_opengl3/imr_opengl3.cpp:1444-1534 | code 1 when not begun; otherwise always pops; an empty context draws nothing; a null program fails with code 2; else the popped context gets exactly the submission: the earlier log kept, then the program, the texture binds, the instanced draw of exactly the records written, and the buffer returned to the pool |
| Instancing.UploadFits | imr_core_opengl3/imr_opengl3.cpp:1506-1509 | the upload of end always fits the buffer it checks out, so sub_data's assertion holds |
| Instancing.SharedBufferClobbers | imr_core_opengl3/imr_opengl3.h:343 | nested contexts share one scratch buffer: the inner context's first record overwrites the outer context's first record |
| Sprite.SetTopCamera | imr_core_opengl3/imr_opengl3.cpp:1072-1077 | replaces the top camera and keeps the ones below |
| Sprite.QuadOf | imr_core_opengl3/imr_opengl3.cpp:1110-1121 | the direct draw uses the sprite's uv, size and pivot when given, else the whole texture at its own size |
| Sprite.DrawDirect | imr_core_opengl3/imr_opengl3.cpp:1107-1162 | the direct path logs one quad draw with the sprite program and changes nothing else |
| Sprite.Records | imr_core_opengl3/imr_opengl3.cpp:1182-1192 | a run of n draws produces n records |
| Sprite.InstanceAll | imr_core_opengl3/imr_opengl3.cpp:1182-1192 | instancing a run counts every draw and touches only the top instancing context and the scratch buffer |
| Sprite.InstanceAllPacks | imr_core_opengl3/imr_opengl3.cpp:1182-1192 | the run's records land right after the records already there, in queue order |
| Sprite.FlushInstanced | imr_core_opengl3/imr_opengl3.cpp:1181-1193 | the instanced flush leaves the camera, instancing and program stacks as they were |
| Sprite.Flush | imr_core_opengl3/imr_opengl3.cpp:1165-1198 | an empty queue changes nothing; one draw is drawn directly; the queue is emptied in every case |
| Sprite.FlushDrawsRun | imr_core_opengl3/imr_opengl3.cpp:1179-1194 | two or more queued draws end in one instanced draw of their records, in queue order |
| Sprite.BeginTryBatch | imr_core_opengl3/imr_opengl3.cpp:1066-1079 | code 1 without a camera, code 2 while draws are queued; otherwise batching is switched on |
| Sprite.Draw | imr_core_opengl3/imr_opengl3.cpp:1083-1163 | fails exactly without a camera; when batching, a draw that keeps the texture is appended to the queue and nothing else changes, and one that changes it flushes first; otherwise the draw is direct |
| Sprite.DrawFlushesFirst | imr_core_opengl3/imr_opengl3.cpp:1092-1105 | a draw that changes the texture is exactly the flush of the queued run, followed by a queue holding the new draw alone |
| Sprite.DrawDrawsQueuedRun | imr_core_opengl3/imr_opengl3.cpp:1092-1105 | on a texture change a queued run of two or more ends in one instanced draw of its records in queue order, and a run of one is drawn directly; the new draw is then queued alone |
| Sprite.EndTryBatch | imr_core_opengl3/imr_opengl3.cpp:1200-1210 | fails with code 1 exactly without a batching camera; otherwise the result is exactly the flush of the queue with batching switched off |
| Sprite.BatchABA | imr_core_opengl3/imr_opengl3.cpp:1092-1105 | draws on textures A, B, A draw the first A and then B directly, leaving only the second A queued |
| Mesh.SetTopMesh | imr_core_opengl3/imr_opengl3.cpp:1566-1570 | replaces the top mesh context and keeps the stack's depth |
| Mesh.Begin | imr_core_opengl3/imr_opengl3.cpp:1566-1570 | pushes a fresh mesh context that uses the camera matrices |
| Mesh.UseProgramNamed | imr_core_opengl3/imr_opengl3.cpp:1572-1586 | code 1 when not begun, code 2 for an unregistered name; otherwise records the program |
| Mesh.SetUseProjectionView | imr_core_opengl3/imr_opengl3.cpp:1588-1596 | fails exactly when not begun; otherwise sets the flag |
| Mesh.Rebase | imr_core_opengl3/imr_opengl3.cpp:1610-1615 | each index is shifted by k, wrapping at 16 bits |
| Mesh.PreviousVertexCount | imr_core_opengl3/imr_opengl3.cpp:1606-1609 | the vertex count is below 2^16, as an unsigned short |
| Mesh.PushMeshes | imr_core_opengl3/imr_opengl3.cpp:1598-1617 | fails exactly when not begun; appends the vertices, and appends each index shifted by the earlier vertex count mod 2^16 |
| Mesh.PushOntoEmpty | imr_core_opengl3/imr_opengl3.cpp:1598-1617 | with no vertices accumulated, indices are stored exactly as given |
| Mesh.PushAfterFour | imr_core_opengl3/imr_opengl3.cpp:1598-1617 | after four vertices of stride 8, indices 0, 1, 2 are stored as 4, 5, 6 |
| Mesh.PushTwoBatches | imr_core_opengl3/imr_opengl3.cpp:1598-1617 | 4 vertices and then 3 vertices with indices 0,1,2 store 4,5,6 for the second batch |
| Mesh.PushRebases | imr_core_opengl3/imr_opengl3.cpp:1598-1617 | without wrap-around a pushed index still names the vertex it named within its own batch |
| Mesh.SetTexture | imr_core_opengl3/imr_opengl3.cpp:1641-1651 | fails exactly when not begun; otherwise records the (possibly null) texture for the unit |
| Mesh.VertexAttribPointer | imr_core_opengl3/imr_opengl3.cpp:1653-1665 | fails exactly when not begun; otherwise records the attribute layout |
| Mesh.SetUniformData | imr_core_opengl3/imr_opengl3.cpp:1619-1639 | fails exactly when not begun; otherwise logs the uniform upload on the mesh program |
| Mesh.BindSlots | imr_core_opengl3/imr_opengl3.cpp:1687-1699 | the texture loop succeeds exactly when no slot is null; it emits, in slot order, one bind of each slot's own texture on that slot's location, and stops at the first null slot |
| Mesh.End | imr_core_opengl3/imr_opengl3.cpp:1667-1746 | code 1 when not begun, or at a null texture, without popping and with the binds before the null slot logged; otherwise draws exactly the accumulated vertices and indices, clears them and pops |
| Mesh.EndBindsFirst | imr_core_opengl3/imr_opengl3.cpp:1687-1699 | a successful end keeps the earlier log and first binds every slot's texture on its own location, in slot order |
| Mesh.Draw | imr_core_opengl3/imr_opengl3.cpp:1554-1564 | fails exactly without a texture, leaving the context pushed; otherwise draws all accumulated vertices and pops |
| Utf8.Width | imr_core/imr_text.cpp:147-175 | the byte length is 1 to 4, and is 1 exactly for ASCII, stray continuation bytes and 0xF8 or above |
| Utf8.Low | imr_core/imr_text.cpp:147-175 | masking keeps a value below the mask's range |
| Utf8.DecodeHead | imr_core/imr_text.cpp:147-175 | a decoded code point is below 2^21 |
| Utf8.CodePoints | imr_core/imr_text.cpp:143-176 | decoding never yields more code points than bytes |
| Utf8.Step | imr_core/imr_text.cpp:143-176 | one loop step decodes the head sequence and carries on after its width |
| Utf8.Decode | imr_core/imr_text.cpp:143-176 | the decoding loop computes exactly the code points of the text |
| Utf8.Encode | imr_core/imr_text.cpp:147-171 | the encoder that inverts the decoder emits 1 to 4 bytes |
| Utf8.DecodeEncode | imr_core/imr_text.cpp:147-171 | decoding an encoded scalar value gives it back, and the lead byte announces the sequence length |
| Utf8.CodePointsAppend | imr_core/imr_text.cpp:143-176 | decoding a complete sequence followed by more text decodes the head, then the rest |
| Utf8.DecodeEncodeAll | imr_core/imr_text.cpp:143-176 | decoding the encoding of any list of scalar values gives back the list |
| Utf8.StrayByte | imr_core/imr_text.cpp:172-175 | a stray continuation byte or a byte of 0xF8 or above is taken as one character, with its high bit dropped |
| Text.Printable | imr_core/imr_text.cpp:177-182 | at most one glyph per code point |
| Text.Placements | imr_core/imr_text.cpp:177-186 | one placement per code point other than a carriage return, each for a code point of the text |
| Text.LineLayout | imr_core/imr_text.cpp:183-186 | within a line the k-th glyph sits at the start pen moved by the advances before it, plus its bearing offset |
| Text.NoBreakAllPrintable | imr_core/imr_text.cpp:177-182 | without carriage returns every code point is drawn |
| Text.LineBreakSplits | imr_core/imr_text.cpp:177-182 | after a carriage return, layout restarts at x = start, y = font height (absolute, not one line down) |
| Text.DoubleBreakIsSingle | imr_core/imr_text.cpp:177-182 | two carriage returns in a row place the same as one: the second does not move down another line |
| Text.Begin | imr_core/imr_text.cpp:119-124 | pushes the font; nothing else changes |
| Text.End | imr_core/imr_text.cpp:194-202 | fails with code 1 exactly on an empty font stack; otherwise pops the font |
| Text.BeginEndRestores | imr_core/imr_text.cpp:119-124 | begin then end restores the context and succeeds |
| Text.Run | imr_core/imr_text.cpp:143-187 | the layout loop counts one instance per printable code point and changes nothing but the scratch buffer and the count |
| Text.RunLaysOut | imr_core/imr_text.cpp:143-187 | the records the loop writes are, slot by slot, the glyph records of the layout |
| Text.LaidOut | imr_core/imr_text.cpp:139-187 | text pushes the text program and an instancing context on the top font's texture, with one instance per printable code point |
| Text.DrawText | imr_core/imr_text.cpp:131-192 | fails with code 1 exactly on an empty font stack; otherwise succeeds and leaves every stack as it was |
| Text.TextDrawsLayout | imr_core/imr_text.cpp:131-192 | a non-empty text ends in one instanced draw with the text program whose k-th record is the k-th laid-out glyph |
| Animation.NewState | imr_core/animation.h:121-126 | a new player has no animation selected |
| Animation.Resolve | imr_core/animation.h:36-41 | throws (None) exactly when some name is unregistered; otherwise the sprite infos are the atlas entries of the names, in order |
| Animation.AddAnimation | imr_core/animation.h:34-44 | throws (None) exactly when some frame names an unregistered sprite; otherwise stores the animation under its name with one resolved sprite per frame, in order, and keeps the other animations; every animation's frames still agree with the atlas when they did before |
| Animation.AddAnimationThrows | imr_core/animation.h:34-44 | an animation whose frames are all registered is added, and one more unregistered frame makes the same call throw |
| Animation.SetAnimation | imr_core/animation.h:73-84 | without reset, an already-playing animation of that name is kept; otherwise the name is selected (a missing one is inserted empty) and playback restarts at frame 0; frames that agreed with the atlas still do |
| Animation.Update | imr_core/animation.h:86-107 | with nothing selected nothing changes; otherwise the frame stays, moves on by one, or wraps to 0 |
| Animation.CurrentSpriteInfo | imr_core/animation.h:114-117 | the current sprite is one of the animation's frames |
| Animation.CurrentSpriteInfoIn | imr_core/animation.h:12 | reading the current frame through the atlas, as the stored pointer does, gives the atlas entry of the frame's name, and nothing when the name has been removed |
| Animation.PointerMatchesCopy | imr_core/animation.h:36-42 | while every frame agrees with the atlas, the read through the atlas and the copy taken at build time are the same sprite info |
| Animation.PointerFollowsAtlas | imr_core_opengl3/imr_opengl3.cpp:43-60 | re-adding the current frame's sprite makes the read give the new info with its uv rectangle; removing it leaves nothing to read |
| Animation.UpdateN | imr_core/animation.h:86-107 | repeated updates keep the player well formed |
| Animation.UpdateAdvances | imr_core/animation.h:92-106 | reaching a slice's time advances exactly one frame, wrapping only when looping, and carries the surplus time over |
| Animation.UpdateWaits | imr_core/animation.h:92-94 | below a slice's time only the time accumulates |
| Animation.NonLoopingStaysAtEnd | imr_core/animation.h:97-101 | a non-looping animation at its last frame stays there over any number of updates |
| Animation.SetAnimationReset | imr_core/animation.h:73-84 | reselecting without reset keeps progress; with reset it rewinds to frame 0 |
| Animation.MissingNameNeverMatches | imr_core/animation.h:75-79 | a missing name inserts an animation named "", so reselecting it without reset still restarts |
| Keyboard.GetKeyState | imr_core/imr_core.h:538 | returns the stored state, or release for an unseen key, which is inserted; no key's state changes |
| Keyboard.SetKeyState | imr_core/imr_core.h:539-546 | stores the state; the key becomes a first press exactly when it goes from release to press |
| Keyboard.ClearFirstStates | imr_core/imr_core.h:547-550 | forgets every first press and keeps the states |
| Keyboard.FirstPressAfterSet | imr_core/imr_core.h:539-551 | is_first_press after set_key_state is yes exactly when the key already was a first press or this call took it from release to press; other keys' answers are unchanged |
| Keyboard.SetAllEffect | imr_core/imr_core.h:539-546 | after setting distinct keys, a read key has its reading's state and an unread key keeps its state; first presses are the old ones plus the keys that went from release to press |
| Keyboard.PollFirstPress | imr_engine/main.cpp:77-83 | after a frame's poll, a key is a first press exactly when it was released before and is read pressed now |
| Keyboard.Poll | imr_engine/main.cpp:77-83 | after a poll, every first press is a key read pressed in that poll |
| Keyboard.FirstPressesRead | imr_engine/main.cpp:77-83 | after setting a run of readings, a first press was one already or is a key read pressed in the run |
| Keyboard.HeldKeyPressesOnce | imr_engine/main.cpp:77-83 | a key held over two polls is a first press only in the first |
| MemoryPool.NewPool | imr_game/memory_pool.h:27-30 | a new pool is empty with room for one slot |
| MemoryPool.Reserve | imr_game/memory_pool.h:95-98 | capacity grows to at least the request and never shrinks; nothing else changes |
| MemoryPool.Create | imr_game/memory_pool.h:32-52 | reuses the most recently freed slot (LIFO), or appends a new slot; the slot was free and is now in use, other slots' use is unchanged |
| MemoryPool.Destroy | imr_game/memory_pool.h:54-69 | runs on_free on the slot, pushes it on the free stack, marks exactly it unused; the use count falls by one and the free count rises by one |
| MemoryPool.UseCountIsLiveSlots | imr_game/memory_pool.h:100-108 | get_use_count (size minus free count) is the number of slots in use |
| MemoryPool.DestroyCreateReuses | imr_game/memory_pool.h:32-69 | destroying a slot and creating again hands back that same slot |
| MemoryPool.FreshSlotsInOrder | imr_game/memory_pool.h:40-45 | with no free slots, creates hand out slots 0, 1, 2 in order |
| MemoryPool.ClearHooksAsWritten | imr_game/memory_pool.h:76-93 | the written walk runs on_free only on slots inside the pool |
| MemoryPool.AsWrittenHooksEveryLiveSlot | imr_game/memory_pool.h:76-93 | the written walk never misses a slot in use |
| MemoryPool.WalkStep | imr_game/memory_pool.h:76-93 | on an ascending free stack, one step of the written walk and of the intended walk hooks the same slots and continues from the same free stack |
| MemoryPool.AsWrittenCorrectWhenSorted | imr_game/memory_pool.h:76-93 | when the free stack pops in ascending order, the written walk is the intended one |
| MemoryPool.ClearHooks | imr_game/memory_pool.h:76-93 | the intended walk hooks exactly the slots that are not free |
| MemoryPool.Clear | imr_game/memory_pool.h:76-93 | clear runs on_free on exactly the slots in use and leaves an empty pool with its capacity |
| MemoryPool.ClearAsWritten | imr_game/memory_pool.h:76-93 | the written clear leaves an empty pool with its capacity |
| MemoryPool.ClearAsWrittenFreesTwice | imr_game/memory_pool.h:76-93 | destroying slots 0 then 1 makes the written clear run on_free on freed slot 0, where the intended clear runs nothing |
| GameWorld.NewUniverse | imr_game/gameworld.h:139-167 | a new universe has no worlds or commands, next id 1 and 30 fixed steps per second |
| GameWorld.WithPool | imr_game/gameworld.h:28-37 | the type's pool is created empty on first use and otherwise left alone |
| GameWorld.PoolCreatedOnce | imr_game/gameworld.h:28-37 | asking for a pool twice is asking once, and a fresh pool has no slot in use |
| GameWorld.CreateWorld | imr_game/gameworld.cpp:81-89 | creates the world only when the id is new; existing worlds are untouched |
| GameWorld.CreateWorldIdempotent | imr_game/gameworld.cpp:81-89 | creating a world twice is creating it once |
| GameWorld.GetGameObject | imr_game/gameworld.h:227-234 | finds exactly the registered ids |
| GameWorld.CreateGameObject | imr_game/gameworld.cpp:224-231 | the new object takes the next id (wrapping at 2^32), is registered in its world and live, no other object's liveness changes, and reused slots come without components |
| GameWorld.IdsIncrease | imr_game/gameworld.cpp:224-231 | two creations give distinct objects with consecutive ids, both findable |
| GameWorld.CreateKeeps | imr_game/gameworld.cpp:224-231 | creating an object leaves every other live object, and every other registered id, as it was |
| GameWorld.GetComponent | imr_game/gameworld.h:330-337 | some component exactly when the object has the type, and it is the stored one |
| GameWorld.HasComponentTracks | imr_game/gameworld.h:339-343 | has_component answers yes after add_component of the type and no after its remove_component; every other type's answer is unchanged |
| GameWorld.AddComponent | imr_game/gameworld.h:290-301 | a pool slot is taken for the component, which becomes in use and owned by the object; the object is indexed under the type; added is logged |
| GameWorld.RemoveComponent | imr_game/gameworld.h:317-328 | detaches the component, returns its slot to the pool, clears the owner, unindexes the object and logs removed |
| GameWorld.AddThenRemove | imr_game/gameworld.h:290-328 | add then remove restores the object, its world's index and the pool's use count |
| GameWorld.OnFree | imr_game/gameworld.h:349-357 | on_free empties the object's components and keeps the sets of worlds and pools |
| GameWorld.OnFreeReleases | imr_game/gameworld.h:349-357 | on_free frees every component slot of the object and unindexes it under those types; in those pools every other slot keeps its use, other types' pools and index entries are untouched, and so are other worlds and the world's ids, queue and flag |
| GameWorld.OnFreeKeepsOtherSlots | imr_game/gameworld.h:349-357 | in the pool of each of the object's own types, every slot other than the object's component has the same use as before |
| GameWorld.OnFreeFreesOwn | imr_game/gameworld.h:349-357 | after on_free none of the object's former components is in use, and the object is indexed under none of their types |
| GameWorld.OnFreeKeepsOthers | imr_game/gameworld.h:349-357 | on_free leaves other worlds, other types' index entries and other types' pools untouched |
| GameWorld.DestroyGameObjectById | imr_game/gameworld.cpp:239-247 | an unknown id changes nothing; otherwise the object's components are removed, its slot is freed and its id is unregistered |
| GameWorld.DestroyKeepsOthers | imr_game/gameworld.cpp:239-247 | destroying by id keeps every other pool slot's use, every other object and its liveness, the world's other ids, queue and flag, and every world other than this one and the object's own |
| GameWorld.Translate | imr_game/gameworld.cpp:277-287 | the object moves from one world's registry and component index to the other's and records its new world |
| GameWorld.TranslateBack | imr_game/gameworld.cpp:277-287 | after moving an object to another world and back, it is in its first world again, findable by id there and not in the other, and indexed under each of its types there and not in the other |
| GameWorld.TranslateBackRestores | imr_game/gameworld.cpp:277-287 | for an object registered only in its own world, the round trip gives back the objects, every world's ids, queue and flag, and the members under every type of both worlds; other worlds are untouched |
| GameWorld.Enable | imr_game/gameworld.cpp:204-211 | sets the world's flag and logs one enable call covering exactly the components of its objects |
| GameWorld.Insert | imr_game/gameworld.cpp:99-100 | adds one party to one fixture's contact set; others are unchanged |
| GameWorld.Erase | imr_game/gameworld.cpp:113-118 | removes one party from one fixture's contact set, dropping the set when it empties |
| GameWorld.BeginContact | imr_game/gameworld.cpp:91-103 | each party records the other under its fixture, nothing else changes, and both callbacks are logged in order |
| GameWorld.EndContact | imr_game/gameworld.cpp:105-121 | each party forgets the other under its fixture, empty sets are dropped, and both callbacks are logged in order |
| GameWorld.ContactRestores | imr_game/gameworld.cpp:91-121 | begin then end of a new contact restores the contact lists |
| GameWorld.ContactRestoresExactly | imr_game/gameworld.cpp:91-121 | when both parties already have contact lists without empty entries, begin then end of a new contact gives back the very same lists |
| GameWorld.AddCommand | imr_game/gameworld.cpp:70-73 | the command is queued last |
| GameWorld.AddWorldCommand | imr_game/gameworld.cpp:213-216 | the command is queued last in its world; other worlds are unchanged |
| GameWorld.RunCommand | imr_game/gameworld.cpp:75-79 | run is logged and the command's slot goes back to its pool; other pools are unchanged |
| GameWorld.RunsInOrder | imr_game/gameworld.cpp:136-143 | draining the queue runs the commands in queue order |
| GameWorld.RunAll | imr_game/gameworld.cpp:136-143 | draining logs one run per command and changes only the pools and the log |
| GameWorld.RunAllReleases | imr_game/gameworld.cpp:136-143 | after draining, a slot is in use exactly when it was before and was not a drained command |
| GameWorld.RunAllAppend | imr_game/gameworld.cpp:136-143 | draining two queues one after the other is draining their concatenation |
| GameWorld.RunAllPoolsOnly | imr_game/gameworld.cpp:136-143 | the pools a drain leaves depend only on the pools it starts from |
| GameWorld.FixedUpdate | imr_game/gameworld.cpp:123-134 | the log gains exactly one fixed-update call, with dt = 1/fixed_fps, per enabled world, in iteration order; nothing else changes |
| GameWorld.WorldUpdate | imr_game/gameworld.cpp:255-265 | a world drains its own commands, then calls its systems' update |
| GameWorld.UpdateWorlds | imr_game/gameworld.cpp:154-160 | exactly the enabled worlds drain their queues; disabled ones keep theirs |
| GameWorld.UpdateWorldsLogsAndRuns | imr_game/gameworld.cpp:154-160 | in iteration order, each enabled world logs the runs of its queued commands and then its systems' update, and the pools end as after draining all those queues in that order |
| GameWorld.WorldCallsUpdate | imr_game/gameworld.cpp:154-160 | a world's systems' update is among the world-pass calls exactly when the world is enabled and iterated |
| GameWorld.Advance | imr_game/gameworld.cpp:136-153 | drains the universe queue, advances time, and takes one fixed step exactly when the accumulated time reaches 1/fixed_fps, carrying over the surplus; the log gains the queue's runs and then, on a fixed step, the fixed-update calls |
| GameWorld.Update | imr_game/gameworld.cpp:136-161 | the log gains the universe queue's runs, then the fixed-update calls when a fixed step is due, then each enabled world's runs and update; the pools end as after draining the universe queue and then the world queues; enabled worlds' queues are emptied |
| GameWorld.FixedStepAtMostOnce | imr_game/gameworld.cpp:123-134 | a fixed step calls each enabled world exactly once and no disabled world |
| GameWorld.Render | imr_game/gameworld.cpp:163-172 | exactly the enabled worlds render |
| GameWorld.Ui | imr_game/gameworld.cpp:174-183 | exactly the enabled worlds draw their UI |
| Tweeners.Rewind | imr_core/tweeners.h:134-142 | every item's time returns to 0, index 0, direction forward; nothing else changes |
| Tweeners.Restart | imr_core/tweeners.h:144-148 | a rewind that also zeroes the loop count |
| Tweeners.FinishedMeans | imr_core/tweeners.h:150-153 | without a loop limit a tweener is finished exactly when it is one-shot and past its last item; a tweener that is not one-shot is finished exactly when its loop limit is reached |
| Tweeners.RestartUnfinished | imr_core/tweeners.h:144-153 | rewinding is idempotent, and a restarted tweener is finished only in ONCE mode with no items |
| Tweeners.Forth | imr_core/tweeners.h:176-183 | time advances by dt; the item completes exactly when it reaches duration + delay, and is then clamped there |
| Tweeners.Back | imr_core/tweeners.h:270-277 | time goes back by dt; the item completes exactly when it reaches 0, and is then clamped there |
| Tweeners.Lerp | imr_core/tweeners.h:185-190 | progress 0 gives `from` and progress 1 gives `to` |
| Tweeners.Report | imr_core/tweeners.h:184-195 | before the delay nothing is reported; afterwards one progress event with the eased progress and value, succeeding when either callback says so |
| Tweeners.OnceUpdate | imr_core/tweeners.h:170-200 | the item is advanced and stored; on completion the index moves on and both completion callbacks run |
| Tweeners.LoopOn | imr_core/tweeners.h:222-241 | the index moves on; past the last item a loop is counted, then the tweener completes at the limit or rewinds |
| Tweeners.LoopUpdateAsWritten | imr_core/tweeners.h:202-244 | as written, an update that does not complete the item leaves the tweener unchanged |
| Tweeners.LoopUpdate | imr_core/tweeners.h:202-244 | the corrected loop mode stores the advanced item, then moves on as the loop rules say |
| Tweeners.PingPongUpdate | imr_core/tweeners.h:246-308 | forward items pass on and turn back at the last one; backward items pass back, and at index 1 or below the tweener turns forward at item 0 and counts a loop |
| Tweeners.Update | imr_core/tweeners.h:111-132 | a paused tweener, or one with its index outside its items, succeeds unchanged; otherwise the mode's update runs, loop mode as written (on a copy) |
| Tweeners.UpdateIntended | imr_core/tweeners.h:111-132 | the same dispatch with the corrected loop mode (the intended half of the Findings row) |
| Tweeners.UpdatesAgree | imr_core/tweeners.h:111-244 | the written and the intended update agree outside loop mode; in loop mode an unfinished item is dropped as written and stored when corrected, and a completing one moves on either way |
| Tweeners.UpdateInRange | imr_core/tweeners.h:111-308 | with the update the source runs, the index stays within 0 and one past the last item, and a ping-pong tweener stays on an item; items, mode and loop limit are kept, and the loop count rises by at most one |
| Tweeners.IntendedInRange | imr_core/tweeners.h:111-308 | the intended update keeps the same shape |
| Tweeners.FinishedOnceStays | imr_core/tweeners.h:150-153 | a finished ONCE tweener stays finished and unchanged under update |
| Tweeners.LoopPassCompletes | imr_core/tweeners.h:222-241 | completing the last item of a loop pass counts a loop, then rewinds or completes at the limit |
| Tweeners.PingPongSkipsFirstBackward | imr_core/tweeners.h:284-300 | on the way back, completing item 1 turns forward at item 0 without playing item 0 backwards |
| Tweeners.LoopCopyLosesTime | imr_core/tweeners.h:202-212 | one 1-second item updated twice by 0.6 never completes as written, but completes and counts a loop when corrected |
| Tweeners.LoopAccumulates | imr_core/tweeners.h:202-212 | with the intended update, an unfinished looping item's time grows by dt |
| Tweeners.LoopForgets | imr_core/tweeners.h:202-212 | with the update the source runs, an unfinished looping item leaves the whole tweener as it was |
| Tweeners.Play | imr_core/tweeners.h:111-132 | a sequence of the updates the source runs keeps the number of items |
| Tweeners.OncePlaysThrough | imr_core/tweeners.h:170-200 | in ONCE mode, one long-enough update per remaining item plays them all, and the tweener ends finished |
| Tweeners.FromTo | imr_core/tweeners.h:321-332 | appends one item with the given values and time 0 |
| Tweeners.FromToNamed | imr_core/tweeners.h:315-319 | a known easing name picks its handler, an unknown name none |
| Tweeners.UnknownEasingIsLinear | imr_core/tweeners.h:315-319 | an unknown easing name makes the item linear |
| Tweeners.Build | imr_core/tweeners.h:95-109 | the tweener starts at item 0, loop count 0, forward and not paused |
| Scenes.NewManager | imr_game/imr_scene.h:47-50 | a new manager has an invalid device, no scenes and resolution 1024x720 |
| Scenes.Final | imr_game/imr_scene.cpp:40-59 | the scene a chain of update-time switches comes to rest on does not switch again |
| Scenes.FinalIsSelf | imr_game/imr_scene.cpp:53-56 | a scene is where its chain rests exactly when its update does not switch |
| Scenes.ChangeScene | imr_game/imr_scene.cpp:76-96 | with an invalid device the scene is only cached ("scene cached."); otherwise the old scene is ended and unloaded, the new one loaded, begun and updated, and the frame renders the scene the chain rests on |
| Scenes.OnUpdate | imr_game/imr_scene.cpp:40-59 | code 1 on an invalid device; otherwise the current scene updates, and only the scene current at the end renders |
| Scenes.SwitchedSceneNotRendered | imr_game/imr_scene.cpp:51-56 | a scene whose update switches scenes is not rendered in that frame |
| Scenes.OnDeviceReset | imr_game/imr_scene.cpp:15-28 | a prepared scene is switched to and forgotten; otherwise the current scene reloads |
| Scenes.OnDeviceLost | imr_game/imr_scene.cpp:30-38 | the device becomes invalid and the current scene unloads |
| Scenes.OnUi | imr_game/imr_scene.cpp:61-68 | the current scene, if any, draws its UI at the stored resolution |
| Scenes.OnResolutionChanged | imr_game/imr_scene.cpp:70-74 | only the resolution changes |
| Scenes.Destroy | imr_game/imr_scene.cpp:6-13 | the current scene, if any, is ended and then unloaded |
| Scenes.GetFrameBuffer | imr_game/imr_scene.h:38 | the current scene's frame buffer, or none exactly when there is no scene |
| Scenes.AttachedKept | imr_game/imr_scene.cpp:83-90 | the device callbacks keep exactly the current scene attached to the manager |
| Scenes.CachedChangeReplays | imr_game/imr_scene.cpp:15-22 | a change made while the device is invalid is replayed on reset as the same change a valid device makes |
| Scenes.ChangePreparedIrrelevant | imr_game/imr_scene.cpp:76-96 | a valid-device change does not depend on the prepared scene |
| Scenes.LostThenReset | imr_game/imr_scene.cpp:15-38 | losing and regaining the device with nothing prepared unloads and reloads the current scene, which stays current |

## Left out

- GL objects, shaders, matrices and projection math are not modelled:
  - the shader source and compilation in `context::create`;
  - the projection and view matrices (`camera()` and its origin modes);
  - screen-to-world conversion;
  - framebuffers and texture loading.

  GL calls appear only as log entries.
- The FreeType font rasteriser (`font_info`) is not modelled. Glyph metrics are a
  parameter (`glyph`).
- The Box2D physics world (`Step`) is not modelled. Only the contact bookkeeping of
  `BeginContact`/`EndContact` is, with fixtures and contactables as identifiers.
- The systems of a world and their installation are not modelled, nor are user
  components' and commands' own behaviour. The calls made to them are logged instead.
- Commands that running commands enqueue are not modelled: `run` is user code.
- Destructors are not modelled: those of `universe`, `gameworld` and `systems`, which drain
  queues and destroy objects.
- `gameworld::destroy_gameobject` is not modelled separately. It only reads the object's id
  and calls `destroy_gameobject_by_id`, which is modelled as `GameWorld.DestroyGameObjectById`.
- Game contexts (`set_game_context`/`get_game_context`) are not modelled; they are type
  casts.
- The `_DEBUG` bookkeeping of the memory pool (`_using`) is not modelled, nor the
  pointer-to-index map. Slots are identified by index.
- Lines and circles (`imr::shape`), the Spine runtime, gamepads and the application's main
  loop are not part of this model.
- Floating point is modelled as `real`, so float rounding is ignored. Infinities and NaN
  are modelled only for uv rectangles (`Geometry.Float`). A tweener item with zero
  duration divides by zero in the source; the model excludes it (`Tweeners.Steppable`).
- Animation.Update: an animation with no frames divides its duration by zero. For a
  non-negative duration the slice is +inf or NaN, the comparison fails and only time
  accumulates, as the model does. For a negative duration the slice is -inf and the
  comparison holds. The source then compares the frame index with `size() - 1`, which is
  SIZE_MAX, and increments it, and the elapsed time becomes +inf. The model does not
  follow that case: it keeps the frame index at 0 and only adds the time.
- Animation.CurrentSpriteInfo: an animation with no frames, or no animation selected,
  makes the source read past the end or dereference null. The model requires a frame.
- Animation.AddAnimation: the source stores pointers into the atlas's sprite table; the
  model stores copies. A sprite removed after the animation was built leaves the source
  with a dangling pointer, which is not modelled. `Animation.CurrentSpriteInfoIn` gives
  the read through the atlas, and `Animation.PointerMatchesCopy` says when the two agree.
- Render.CameraEnd: the source keeps a reference to the popped camera after the pop and
  reads its frame through it, which dangles. The model unbinds the popped camera's frame,
  as the source evidently intends.
- Render.MultiTextures: the `glUniform1i` that sets each sampler's unit is not logged; only
  the texture unit binds are.
- Render.UnregistProgram: the source calls `destroy` on a registered entry even when it is
  null. The model requires a non-null entry.
- Sprite.DrawDirect and Sprite.Draw: looking up the sprite program inserts a null entry
  when it is missing, and the source then dereferences it. The model requires the program
  (`Sprite.SpriteProgramReady`).
- Mesh.UseProgramNamed and Mesh.SetUniformData: a registered but null program is
  dereferenced in the source. The model requires a program in those entries.
- Utf8.CodePoints, Utf8.Decode and Text.DrawText: a text whose last UTF-8 sequence is cut
  short makes the source read past its end. The model requires every sequence to be
  complete (`Utf8.WellSized`).
- GameWorld.TranslateBack: the index maps may keep an empty entry for a type after the
  round trip, where the source's `unordered_map` keeps it too; the sets of members under
  every type are what `GameWorld.TranslateBackRestores` restores.
- Geometry.Mul and Geometry.Scale: the 32-bit `int` overflow of the products is not
  modelled; integers are unbounded.
- Tweeners.Update: the 32-bit index and loop counters are unbounded here; the source's
  `int` would overflow only after 2^31 loops.
- Tweeners.Report: the value type is `real`, whereas the source is generic over `T` with
  `operator*`.
- Scenes.OnUpdate: the frame time passed to a scene's update (from the steady clock) is not
  modelled. The scene's reaction to its update is a parameter, and a chain of
  update-time switches that never comes to rest is excluded with a fuel bound, where the
  source would recurse without end.
- Scenes.ChangeScene: with a valid device, changing to a null scene dereferences null in the
  source. The model requires a scene.
- Instancing.Instance: the shared scratch buffer's bound is not checked in the source. The
  model requires room for the record.
- Mesh.End: the source dereferences a null program unless the first texture slot is null,
  which fails before any use of the program. The model requires a program otherwise.
- Mesh.End: uploads of 2^30 bytes or more are excluded. There `min_power_of_2` on a 32-bit
  `int` overflows and the buffer pool's size classes stop being powers of two.
- Instancing.End: the same 2^30-byte bound applies to the instance upload, and so to the
  sprite flush and to `text`, which end with it.
- Mesh.End: a texture location outside 0 to 3 indexes past `texture_regs` (4 entries) and,
  above 5, past the unit table, in the source. The model logs an ordinary bind for any
  location. The `glUniform1i` that sets each slot's sampler unit is not logged either.
- Mesh.PushMeshes: a zero stride divides by zero in the source. The model requires a
  positive stride.
- Render.PopProgram: popping an empty stack is undefined behaviour in the source. So is
  popping an empty viewport or blend stack, or ending a mesh or instancing draw without a
  camera. The model requires non-empty stacks there.
- Keyboard.PollFirstPress: the frame's key readings are a parameter. GLFW polling is not
  modelled.

## Findings

| source | as written | input that shows it | evidently intended | confidence | as-written member | corrected member |
|---|---|---|---|---|---|---|
| imr_game/memory_pool.h:76-93 | `clear` skips a slot only when it equals the top of the free stack, popping as it goes, so it works only if the stack pops in ascending order | reserve 2, create slots 0 and 1, destroy 0 then 1: free stack [0, 1] with 1 on top; the walk runs `on_free` on slot 0 again | `on_free` on exactly the slots in use | not executed | MemoryPool.ClearAsWritten (shown by MemoryPool.ClearAsWrittenFreesTwice) | MemoryPool.Clear |
| imr_core/tweeners.h:204 | LOOP mode advances a copy of the current item (`auto current = _items[_current_idx];`), so the stored elapsed time never grows and an item completes only when a single dt covers its whole delay and duration | one item of duration 1, no delay, updated twice by 0.6: never completes, never loops | accumulate time as ONCE and PINGPONG do (`auto&`) | not executed | Tweeners.LoopUpdateAsWritten, used by Tweeners.Update (shown by Tweeners.LoopCopyLosesTime) | Tweeners.LoopUpdate, used by Tweeners.UpdateIntended |

=== FILE: animation.dfy ===
/** Frame-by-frame sprite animation: named animations built from atlas sprites, and a
    player that steps through the frames of the selected one. Times are reals. */
module Animation {
  import opened Results
  import opened Resources
  import opened Geometry
  import opened Atlas

  /** One named animation: its total duration and, for each frame, the sprite name and the
      sprite info it resolved to when it was added. */
  datatype AnimationData = AnimationData(name: string, duration: real, spriteNames: seq<string>,
                                         spriteInfos: seq<SpriteInfo>)

  /** What `operator[]` inserts for a missing name: an empty animation with an empty name. */
  const DefaultData: AnimationData := AnimationData("", 0.0, [], [])

  datatype StateData = StateData(texture: Option<Texture>, atlas: AtlasInfo,
                                 animations: map<string, AnimationData>)

  /** The player. `current` is the key of the selected animation, if any. */
  datatype AnimationState = AnimationState(data: StateData, current: Option<string>,
                                           sequence: int, elapsed: real, loop: bool)

  /** Frame count of an animation. */
  function Frames(a: AnimationData): nat {
    |a.spriteNames|
  }

  /** The selected animation exists and the frame index is within it (zero for an
      animation without frames). */
  ghost predicate Valid(s: AnimationState) {
    s.current.Some? ==>
      s.current.value in s.data.animations
      && var a := s.data.animations[s.current.value];
         |a.spriteInfos| == Frames(a)
         && (if Frames(a) == 0 then s.sequence == 0 else 0 <= s.sequence < Frames(a))
  }

  /** Every stored animation has one sprite info per frame name. */
  ghost predicate WellBuilt(d: StateData) {
    forall k :: k in d.animations ==> |d.animations[k].spriteInfos| == Frames(d.animations[k])
  }

  /** Each frame's stored sprite info is the atlas's current entry for its sprite name. */
  predicate ResolvedIn(atlas: AtlasInfo, a: AnimationData) {
    |a.spriteInfos| == Frames(a)
    && forall i :: 0 <= i < Frames(a) ==>
         a.spriteNames[i] in atlas.sprites && a.spriteInfos[i] == atlas.sprites[a.spriteNames[i]]
  }

  /** Every stored animation is resolved in the builder's atlas: the copies the model keeps
      agree with what the source's pointers into the atlas read. */
  ghost predicate Resolved(d: StateData) {
    forall k :: k in d.animations ==> ResolvedIn(d.atlas, d.animations[k])
  }

  function NewState(data: StateData): (s: AnimationState)
    ensures s.current.None? && Valid(s)
  {
    AnimationState(data, None, 0, 0.0, false)
  }

  // ---------------------------------------------------------------- builder

  /** Some name of `names` is not registered in the atlas. */
  predicate SomeUnknown(atlas: AtlasInfo, names: seq<string>) {
    exists i :: 0 <= i < |names| && names[i] !in atlas.sprites
  }

  /** Resolves every name through get_sprite_info, in order; `None` stands for the
      std::out_of_range the first unregistered name throws. */
  function Resolve(atlas: AtlasInfo, names: seq<string>): (infos: Option<seq<SpriteInfo>>)
    ensures infos.None? <==> SomeUnknown(atlas, names)
    ensures infos.Some? ==>
              |infos.value| == |names|
              && forall i :: 0 <= i < |names| ==> infos.value[i] == atlas.sprites[names[i]]
  {
    if |names| == 0 then Some([])
    else
      var head := GetSpriteInfo(atlas, names[0]);
      var rest := Resolve(atlas, names[1..]);
      if head.None? then None
      else if rest.None? then
        var i :| 0 <= i < |names[1..]| && names[1..][i] !in atlas.sprites;
        assert names[i + 1] !in atlas.sprites;
        None
      else
        assert !SomeUnknown(atlas, names) by {
          forall i | 0 <= i < |names| ensures names[i] in atlas.sprites {
            if i > 0 { assert names[i] == names[1..][i - 1]; }
          }
        }
        Some([head.value] + rest.value)
  }

  /** add_animation: stores (or replaces) the animation under its name with one resolved
      sprite info per frame, in order. When a frame names an unregistered sprite the
      exception escapes before anything is stored: `None`, and the builder's data is left
      as it was. */
  function AddAnimation(d: StateData, name: string, sprites: seq<string>, duration: real): (r: Option<StateData>)
    ensures r.None? <==> SomeUnknown(d.atlas, sprites)
    ensures r.Some? ==> name in r.value.animations && r.value.animations.Keys == d.animations.Keys + {name}
    ensures r.Some? ==>
              var a := r.value.animations[name];
              a.name == name && a.duration == duration && a.spriteNames == sprites
              && |a.spriteInfos| == |sprites|
              && forall i :: 0 <= i < |sprites| ==> a.spriteInfos[i] == d.atlas.sprites[sprites[i]]
    ensures r.Some? ==> forall k :: k in d.animations && k != name ==> r.value.animations[k] == d.animations[k]
    ensures r.Some? && WellBuilt(d) ==> WellBuilt(r.value)
    ensures r.Some? && Resolved(d) ==> Resolved(r.value)
    ensures r.Some? ==> r.value.texture == d.texture && r.value.atlas == d.atlas
  {
    match Resolve(d.atlas, sprites)
    case None => None
    case Some(infos) => Some(d.(animations := d.animations[name := AnimationData(name, duration, sprites, infos)]))
  }

  /** An animation whose frames are all registered is added whatever it held before, and
      adding one more unregistered frame makes the same call throw. */
  lemma AddAnimationThrows(d: StateData, name: string, sprites: seq<string>, duration: real, missing: string)
    requires !SomeUnknown(d.atlas, sprites) && missing !in d.atlas.sprites
    ensures AddAnimation(d, name, sprites, duration).Some?
    ensures AddAnimation(d, name, sprites + [missing], duration).None?
  {
    assert (sprites + [missing])[|sprites|] == missing;
  }

  // ---------------------------------------------------------------- player

  /** set_animation: with reset off and the named animation already playing, nothing
      changes; otherwise the name is selected (inserting an empty animation when it is
      missing) and playback restarts from frame 0. */
  function SetAnimation(s: AnimationState, name: string, loop: bool, reset: bool): (r: (ImrResult, AnimationState))
    ensures r.0 == Ok
    ensures (!reset && s.current.Some? && s.current.value in s.data.animations
             && s.data.animations[s.current.value].name == name) ==> r.1 == s
    ensures !(!reset && s.current.Some? && s.current.value in s.data.animations
              && s.data.animations[s.current.value].name == name) ==>
              r.1.current == Some(name) && r.1.sequence == 0 && r.1.elapsed == 0.0 && r.1.loop == loop
              && name in r.1.data.animations
              && (name in s.data.animations ==> r.1.data == s.data)
              && (name !in s.data.animations ==> r.1.data.animations == s.data.animations[name := DefaultData])
    ensures Valid(s) && WellBuilt(s.data) ==> Valid(r.1) && WellBuilt(r.1.data)
    ensures Resolved(s.data) ==> Resolved(r.1.data)
  {
    if !reset && s.current.Some? && s.current.value in s.data.animations
       && s.data.animations[s.current.value].name == name then
      (Ok, s)
    else
      var animations := if name in s.data.animations then s.data.animations
                        else s.data.animations[name := DefaultData];
      (Ok, AnimationState(s.data.(animations := animations), Some(name), 0, 0.0, loop))
  }

  /** update: with no animation selected nothing happens. Otherwise time accumulates and,
      once a whole slice (duration / frames) has passed, one slice is consumed and the
      player moves one frame forward, wrapping at the end when looping and staying on the
      last frame otherwise. For an animation without frames the slice divides by zero; with
      a non-negative duration that gives +inf or NaN, the comparison fails and only time
      accumulates, which is what the model does. */
  function Update(s: AnimationState, dt: real): (r: AnimationState)
    requires Valid(s)
    ensures Valid(r)
    ensures r.data == s.data && r.current == s.current && r.loop == s.loop
    ensures s.current.None? ==> r == s
    ensures s.current.Some? ==> r.sequence == s.sequence || r.sequence == s.sequence + 1 || r.sequence == 0
  {
    if s.current.None? then s
    else
      var a := s.data.animations[s.current.value];
      var elapsed := s.elapsed + dt;
      if Frames(a) == 0 then s.(elapsed := elapsed)
      else
        var slice := a.duration / Frames(a) as real;
        if elapsed >= slice then
          var next := if s.sequence == Frames(a) - 1 then (if s.loop then 0 else s.sequence)
                      else s.sequence + 1;
          s.(elapsed := elapsed - slice, sequence := next)
        else s.(elapsed := elapsed)
  }

  /** current_sprite_info: the sprite of the current frame. With no animation selected or an
      animation without frames the source dereferences null or reads past the end. */
  function CurrentSpriteInfo(s: AnimationState): (info: SpriteInfo)
    requires Valid(s) && s.current.Some?
    requires Frames(s.data.animations[s.current.value]) > 0
    ensures info in s.data.animations[s.current.value].spriteInfos
  {
    s.data.animations[s.current.value].spriteInfos[s.sequence]
  }

  /** What the current frame's stored pointer reads once the shared atlas has become
      `atlas`. The pointer aims at the atlas entry of the frame's sprite name: overwriting
      that sprite changes what it reads, and removing it leaves the pointer dangling
      (`None`). */
  function CurrentSpriteInfoIn(s: AnimationState, atlas: AtlasInfo): (info: Option<SpriteInfo>)
    requires Valid(s) && s.current.Some?
    requires Frames(s.data.animations[s.current.value]) > 0
    ensures var name := s.data.animations[s.current.value].spriteNames[s.sequence];
            (info.None? <==> name !in atlas.sprites) && (info.Some? ==> info.value == atlas.sprites[name])
  {
    GetSpriteInfo(atlas, s.data.animations[s.current.value].spriteNames[s.sequence])
  }

  /** While the atlas is the one the animations were resolved in, the copy the model keeps
      is what the pointer reads. */
  lemma PointerMatchesCopy(s: AnimationState)
    requires Valid(s) && s.current.Some? && Frames(s.data.animations[s.current.value]) > 0
    requires Resolved(s.data)
    ensures CurrentSpriteInfoIn(s, s.data.atlas) == Some(CurrentSpriteInfo(s))
  {
    assert ResolvedIn(s.data.atlas, s.data.animations[s.current.value]);
  }

  /** Re-registering the current frame's sprite changes what its pointer reads, and
      removing the sprite leaves the pointer dangling. */
  lemma PointerFollowsAtlas(s: AnimationState, position: Int2, size: Int2, offset: Float2)
    requires Valid(s) && s.current.Some? && Frames(s.data.animations[s.current.value]) > 0
    ensures var name := s.data.animations[s.current.value].spriteNames[s.sequence];
            var atlas := AddSpriteInfo(s.data.atlas, name, position, size, offset);
            CurrentSpriteInfoIn(s, atlas) == Some(SpriteInfo(position, size, offset, UvRect(atlas.texture, position, size)))
            && CurrentSpriteInfoIn(s, RemoveSpriteInfo(atlas, name)).None?
  {
  }

  /** The frame reached after `n` updates of `dt` each. */
  function UpdateN(s: AnimationState, dt: real, n: nat): (r: AnimationState)
    requires Valid(s)
    ensures Valid(r)
    decreases n
  {
    if n == 0 then s else UpdateN(Update(s, dt), dt, n - 1)
  }

  /** An update whose accumulated time reaches a slice advances exactly one frame, with the
      loop flag deciding what happens at the last frame. */
  lemma UpdateAdvances(s: AnimationState, dt: real)
    requires Valid(s) && s.current.Some?
    requires var a := s.data.animations[s.current.value];
             Frames(a) > 0 && s.elapsed + dt >= a.duration / Frames(a) as real
    ensures var a := s.data.animations[s.current.value];
            var r := Update(s, dt);
            r.elapsed == s.elapsed + dt - a.duration / Frames(a) as real
            && (s.sequence < Frames(a) - 1 ==> r.sequence == s.sequence + 1)
            && (s.sequence == Frames(a) - 1 && s.loop ==> r.sequence == 0)
            && (s.sequence == Frames(a) - 1 && !s.loop ==> r.sequence == s.sequence)
  {
  }

  /** Below a slice no frame changes and time simply accumulates. */
  lemma UpdateWaits(s: AnimationState, dt: real)
    requires Valid(s) && s.current.Some?
    requires var a := s.data.animations[s.current.value];
             Frames(a) > 0 && s.elapsed + dt < a.duration / Frames(a) as real
    ensures Update(s, dt) == s.(elapsed := s.elapsed + dt)
  {
  }

  /** A non-looping animation, once at its last frame, stays there forever. */
  lemma {:induction false} NonLoopingStaysAtEnd(s: AnimationState, dt: real, n: nat)
    requires Valid(s) && s.current.Some? && !s.loop
    requires s.sequence == Frames(s.data.animations[s.current.value]) - 1
    ensures UpdateN(s, dt, n).sequence == s.sequence
    decreases n
  {
    if n > 0 {
      NonLoopingStaysAtEnd(Update(s, dt), dt, n - 1);
    }
  }

  /** Selecting a playing animation again without reset keeps its progress; selecting it
      with reset rewinds it. */
  lemma SetAnimationReset(s: AnimationState, loop: bool)
    requires Valid(s) && s.current.Some?
    requires s.data.animations[s.current.value].name == s.current.value
    ensures SetAnimation(s, s.current.value, loop, false).1 == s
    ensures var r := SetAnimation(s, s.current.value, loop, true).1;
            r.sequence == 0 && r.elapsed == 0.0 && r.current == s.current
  {
  }

  /** A missing name selects an empty animation whose stored name is empty, so selecting
      the same missing name again without reset still restarts it. */
  lemma MissingNameNeverMatches(s: AnimationState, name: string, loop: bool)
    requires name !in s.data.animations && name != ""
    ensures var r1 := SetAnimation(s, name, loop, true).1;
            r1.data.animations[name] == DefaultData
            && SetAnimation(r1.(elapsed := 1.0), name, loop, false).1.elapsed == 0.0
  {
  }
}

=== FILE: atlas.dfy ===
/** Opaque GPU resources and the sprite atlas that maps sprite names to sub-rectangles. */
module Resources {
  import opened Geometry

  /** A texture handle: an identity plus its pixel size. Two handles are the same texture
      exactly when they are equal. */
  datatype Texture = Texture(id: nat, width: int, height: int)

  /** A render target (the back buffer or an off-screen frame buffer). */
  datatype Frame = Frame(id: nat, width: int, height: int)

  /** A linked shader program. */
  type ProgramId = nat

  function TextureSize(t: Texture): Int2 {
    Int2(t.width, t.height)
  }
}

module Atlas {
  import opened Results
  import opened Geometry
  import opened Resources

  /** A named sub-rectangle: pixel position and size, pivot offset, and the normalised
      uv rectangle (u0, v0, u1, v1) with v flipped so that 1 is the top row. */
  datatype SpriteInfo = SpriteInfo(position: Int2, size: Int2, offset: Float2, uv: Uv)

  datatype AtlasInfo = AtlasInfo(texture: Texture, sprites: map<string, SpriteInfo>)

  /** The uv rectangle of a pixel rectangle: position and far corner divided by the texture
      size as floats (`int2 / int2` converts the divisor), with both v coordinates flipped to
      1 - v. Nothing guards the division: on a texture side of zero the coordinates along it
      are infinities, or NaN where the pixel coordinate is zero. */
  function UvRect(tex: Texture, position: Int2, size: Int2): (uv: Uv)
    ensures tex.width != 0 ==>
              uv.u0.Num? && uv.u1.Num?
              && uv.u0.v * tex.width as real == position.x as real
              && uv.u1.v * tex.width as real == (position.x + size.x) as real
    ensures tex.height != 0 ==>
              uv.v0.Num? && uv.v1.Num?
              && (1.0 - uv.v0.v) * tex.height as real == position.y as real
              && (1.0 - uv.v1.v) * tex.height as real == (position.y + size.y) as real
    ensures tex.width == 0 ==>
              !uv.u0.Num? && !uv.u1.Num?
              && (uv.u0.NaN? <==> position.x == 0) && (uv.u1.NaN? <==> position.x + size.x == 0)
    ensures tex.height == 0 ==>
              !uv.v0.Num? && !uv.v1.Num?
              && (uv.v0.NaN? <==> position.y == 0) && (uv.v1.NaN? <==> position.y + size.y == 0)
  {
    var w := tex.width as real;
    var h := tex.height as real;
    var hi := Add(position, size);
    Uv(Quotient(position.x as real, w), OneMinus(Quotient(position.y as real, h)),
       Quotient(hi.x as real, w), OneMinus(Quotient(hi.y as real, h)))
  }

  /** add_sprite_info: registers (or overwrites) a sprite with its uv rectangle, whatever the
      texture's size; every other sprite is kept. */
  function AddSpriteInfo(a: AtlasInfo, name: string, position: Int2, size: Int2, offset: Float2): (r: AtlasInfo)
    ensures r.texture == a.texture
    ensures name in r.sprites
    ensures r.sprites[name] == SpriteInfo(position, size, offset, UvRect(a.texture, position, size))
    ensures r.sprites.Keys == a.sprites.Keys + {name}
    ensures forall n :: n in a.sprites && n != name ==> r.sprites[n] == a.sprites[n]
  {
    a.(sprites := a.sprites[name := SpriteInfo(position, size, offset, UvRect(a.texture, position, size))])
  }

  /** Removing a sprite asserts it was registered. */
  function RemoveSpriteInfo(a: AtlasInfo, name: string): (r: AtlasInfo)
    requires name in a.sprites
    ensures r.sprites.Keys == a.sprites.Keys - {name}
    ensures forall n :: n in r.sprites ==> r.sprites[n] == a.sprites[n]
  {
    a.(sprites := a.sprites - {name})
  }

  /** get_sprite_info: `at` on the sprite map, which throws std::out_of_range for an
      unregistered name; `None` stands for that exception. */
  function GetSpriteInfo(a: AtlasInfo, name: string): (info: Option<SpriteInfo>)
    ensures info.None? <==> name !in a.sprites
    ensures info.Some? ==> info.value == a.sprites[name]
  {
    if name in a.sprites then Some(a.sprites[name]) else None
  }

  /** A sprite just added is found under its name, and removing it makes the lookup throw
      again when the name was fresh. */
  lemma AddThenGet(a: AtlasInfo, name: string, position: Int2, size: Int2, offset: Float2)
    ensures var r := AddSpriteInfo(a, name, position, size, offset);
            GetSpriteInfo(r, name) == Some(SpriteInfo(position, size, offset, UvRect(a.texture, position, size)))
            && GetSpriteInfo(RemoveSpriteInfo(r, name), name).None?
  {
  }

  /** Registering then removing a fresh name gives back the original atlas. */
  lemma AddThenRemove(a: AtlasInfo, name: string, position: Int2, size: Int2, offset: Float2)
    requires name !in a.sprites
    ensures RemoveSpriteInfo(AddSpriteInfo(a, name, position, size, offset), name) == a
  {
    assert AddSpriteInfo(a, name, position, size, offset).sprites - {name} == a.sprites;
  }

  /** The regression case: (192, 0) sized 64x64 in a 256x256 texture. */
  lemma AtlasExample(a: AtlasInfo)
    requires a.texture.width == 256 && a.texture.height == 256
    ensures GetSpriteInfo(AddSpriteInfo(a, "s", Int2(192, 0), Int2(64, 64), Zero2), "s").value.uv
            == Uv(Num(0.75), Num(1.0), Num(1.0), Num(0.75))
  {
  }

  /** The same sprite on a texture of size zero: 192 / 0 and 256 / 0 are +inf, 0 / 0 is NaN,
      and 1 - 64 / 0 is -inf. */
  lemma ZeroSizedTextureExample(a: AtlasInfo)
    requires a.texture.width == 0 && a.texture.height == 0
    ensures GetSpriteInfo(AddSpriteInfo(a, "s", Int2(192, 0), Int2(64, 64), Zero2), "s").value.uv
            == Uv(Inf(false), NaN, Inf(false), Inf(true))
  {
  }
}

=== FILE: bits.dfy ===
/** The power-of-two rounding used to pick buffer size classes, on 32-bit words.
    A `bv32` value is read as the unsigned number it denotes, so `1 << k` is 2^k. */
module Bits {

  /** r is 2^k for some k below the word width. */
  ghost predicate IsPowerOfTwo(r: bv32) {
    exists k: nat :: k < 32 && r == TwoTo(k)
  }

  /** 2^k as a word. */
  function TwoTo(k: nat): bv32
    requires k < 32
  {
    (1 as bv32) << k
  }

  /** `n | n >> 1 | ... | n >> 16`: every bit below the highest set bit becomes one. */
  function Smear(n: bv32): bv32 {
    var a := n | (n >> 1);
    var b := a | (a >> 2);
    var c := b | (b >> 4);
    var d := c | (c >> 8);
    d | (d >> 16)
  }

  /** The source's rounding on a 32-bit two's-complement word: a value that equals its own
      lowest set bit (zero or a power of two) is returned unchanged, anything else is smeared
      and incremented, wrapping on overflow. Whatever the input, the result has at most
      one bit set: it is zero or a power of two. */
  function MinPowerOf2(n: bv32): (r: bv32)
    ensures r & (r - 1) == 0
  {
    if n & (0 - n) == n then n else Smear(n) + 1
  }

  /** The position of the highest set bit of a non-zero word. */
  lemma HighBit(n: bv32) returns (k: nat)
    requires n != 0
    ensures k < 32 && (1 as bv32) << k <= n
    ensures k == 31 || n < (1 as bv32) << (k + 1)
  {
    k := 31;
    while k > 0 && n < (1 as bv32) << k
      invariant k <= 31 && (k == 31 || n < (1 as bv32) << (k + 1))
      decreases k
    {
      k := k - 1;
    }
  }

  /** Between 2^k and 2^(k+1), smearing yields 2^(k+1) - 1. */
  lemma SmearOfRange(n: bv32, k: nat)
    requires k < 31 && (1 as bv32) << k <= n < (1 as bv32) << (k + 1)
    ensures Smear(n) == ((1 as bv32) << (k + 1)) - 1
  {
  }

  /** The guard `(n & -n) == n` holds exactly for zero and the powers of two. */
  lemma LowestBitTest(n: bv32)
    ensures n & (0 - n) == n <==> n == 0 || IsPowerOfTwo(n)
  {
    if n != 0 {
      var k := HighBit(n);
      if n & (0 - n) == n {
        SingleBitIsTop(n, k);
      }
      if IsPowerOfTwo(n) {
        var j: nat :| j < 32 && n == TwoTo(j);
        PowerIsLowestBit(j);
      }
    }
  }

  lemma PowerIsLowestBit(j: nat)
    requires j < 32
    ensures TwoTo(j) & (0 - TwoTo(j)) == TwoTo(j)
  {
  }

  lemma SingleBitIsTop(n: bv32, k: nat)
    requires k < 32 && (1 as bv32) << k <= n
    requires k == 31 || n < (1 as bv32) << (k + 1)
    requires n & (0 - n) == n
    ensures n == TwoTo(k)
  {
    if k < 16 {
      SingleBitBelow16(n, k);
    } else {
      SingleBitFrom16(n, k);
    }
  }

  lemma SingleBitBelow16(n: bv32, k: nat)
    requires k < 16 && (1 as bv32) << k <= n < (1 as bv32) << (k + 1)
    requires n & (0 - n) == n
    ensures n == TwoTo(k)
  {
  }

  lemma SingleBitFrom16(n: bv32, k: nat)
    requires 16 <= k < 32 && (1 as bv32) << k <= n
    requires k == 31 || n < (1 as bv32) << (k + 1)
    requires n & (0 - n) == n
    ensures n == TwoTo(k)
  {
  }

  /** Zero and the powers of two are returned unchanged. */
  lemma MinPowerOf2Fixed(n: bv32)
    requires n == 0 || IsPowerOfTwo(n)
    ensures MinPowerOf2(n) == n
  {
    LowestBitTest(n);
  }

  /** In the valid size range a value that is not a power of two is rounded up to a power
      of two strictly between n and 2n. */
  lemma MinPowerOf2Rounds(n: bv32)
    requires 0 < n <= 0x4000_0000 && !IsPowerOfTwo(n)
    ensures IsPowerOfTwo(MinPowerOf2(n))
    ensures n < MinPowerOf2(n) < n + n
  {
    LowestBitTest(n);
    var k := HighBit(n);
    SmearOfRange(n, k);
    assert MinPowerOf2(n) == TwoTo(k + 1);
  }

  /** The result is the least power of two that is at least n. */
  lemma MinPowerOf2Least(n: bv32, j: nat)
    requires 0 < n <= 0x4000_0000
    requires j < 32 && n <= (1 as bv32) << j
    ensures n <= MinPowerOf2(n) <= (1 as bv32) << j
  {
    var k := HighBit(n);
    SmearOfRange(n, k);
  }

  /** Hence a size in the valid range never exceeds its rounded class. */
  lemma MinPowerOf2AtLeast(n: bv32)
    requires n <= 0x4000_0000
    ensures n <= MinPowerOf2(n)
  {
    if n != 0 {
      var k := HighBit(n);
      if k < 31 {
        SmearOfRange(n, k);
      }
    }
  }

  /** A word with the sign bit set that is not itself 2^31 (a negative int) smears to all
      ones and wraps to zero. */
  lemma MinPowerOf2Negative(n: bv32)
    requires 0x8000_0000 < n
    ensures MinPowerOf2(n) == 0
  {
  }
}

=== FILE: buffer_pool.dfy ===
/** The size-class pool of GPU array buffers. A buffer's capacity is its requested size
    rounded up to a power of two; returned buffers wait on a stack keyed by
    (capacity, target, usage) and are handed out again most-recently-returned first. */
module BufferPool {
  import opened Bits

  /** Buffer binding targets and usage hints, as defined by OpenGL ES 3.0. */
  const GL_ARRAY_BUFFER: int := 0x8892
  const GL_ELEMENT_ARRAY_BUFFER: int := 0x8893
  const GL_STATIC_DRAW: int := 0x88E4
  const GL_DYNAMIC_DRAW: int := 0x88E8

  /** A non-negative C++ int as the 32-bit word min_power_of_2 works on. */
  function WordOf(n: int): bv32
    requires 0 <= n < 0x8000_0000
  {
    n as bv32
  }

  /** Sizes below 2^30 stay in the range where rounding up is exact. */
  lemma WordOfSmall(n: int)
    requires 0 <= n < 0x4000_0000
    ensures WordOf(n) <= 0x4000_0000
  {
  }

  datatype Key = Key(capacity: bv32, target: int, usage: int)

  datatype ArrayBuffer = ArrayBuffer(id: nat, capacity: bv32, target: int, usage: int)

  /** Each class is a stack whose top is the last element. */
  datatype Pool = Pool(classes: map<Key, seq<ArrayBuffer>>, nextId: nat)

  datatype Checkout = Checkout(pool: Pool, buffer: ArrayBuffer)

  const EmptyPool: Pool := Pool(map[], 0)

  function KeyOf(b: ArrayBuffer): Key {
    Key(b.capacity, b.target, b.usage)
  }

  /** The class a request of `size` bytes is served from. */
  function ClassOf(size: bv32, target: int, usage: int): Key {
    Key(MinPowerOf2(size), target, usage)
  }

  /** Every pooled buffer sits in the class named by its own key, and every id handed out
      so far is below `nextId`. */
  ghost predicate Valid(p: Pool) {
    forall k, i :: k in p.classes && 0 <= i < |p.classes[k]| ==>
      KeyOf(p.classes[k][i]) == k && p.classes[k][i].id < p.nextId
  }

  /** A freshly created buffer: its capacity is the rounded size. */
  function NewArrayBuffer(id: nat, size: bv32, target: int, usage: int): (b: ArrayBuffer)
    ensures KeyOf(b) == ClassOf(size, target, usage)
    ensures size <= 0x4000_0000 ==> size <= b.capacity
  {
    if size <= 0x4000_0000 then MinPowerOf2AtLeast(size); ArrayBuffer(id, MinPowerOf2(size), target, usage)
    else ArrayBuffer(id, MinPowerOf2(size), target, usage)
  }

  /** get_array_buffer: pop the top of the request's class, or create a new buffer when the
      class is empty. Looking the class up creates it empty if it did not exist. */
  function GetArrayBuffer(p: Pool, size: bv32, target: int, usage: int): (r: Checkout)
    ensures Valid(p) ==> Valid(r.pool) && r.buffer.id < r.pool.nextId
                         && KeyOf(r.buffer) == ClassOf(size, target, usage)
    ensures var k := ClassOf(size, target, usage);
            k in r.pool.classes
            && (k in p.classes && |p.classes[k]| > 0 ==>
                  r.buffer == p.classes[k][|p.classes[k]| - 1]
                  && r.pool == p.(classes := p.classes[k := p.classes[k][..|p.classes[k]| - 1]]))
            && (k !in p.classes || |p.classes[k]| == 0 ==>
                  r.buffer.id == p.nextId && r.pool.nextId == p.nextId + 1
                  && r.pool.classes == p.classes[k := []])
  {
    var k := ClassOf(size, target, usage);
    if k !in p.classes || |p.classes[k]| == 0 then
      Checkout(Pool(p.classes[k := []], p.nextId + 1), NewArrayBuffer(p.nextId, size, target, usage))
    else
      var stack := p.classes[k];
      assert Valid(p) ==> KeyOf(stack[|stack| - 1]) == k && stack[|stack| - 1].id < p.nextId;
      Checkout(p.(classes := p.classes[k := stack[..|stack| - 1]]), stack[|stack| - 1])
  }

  /** release_array_buffer: push the buffer onto the class named by its own key. */
  function ReleaseArrayBuffer(p: Pool, b: ArrayBuffer): (r: Pool)
    ensures Valid(p) && b.id < p.nextId ==> Valid(r)
    ensures KeyOf(b) in r.classes
    ensures r.classes[KeyOf(b)] == (if KeyOf(b) in p.classes then p.classes[KeyOf(b)] else []) + [b]
    ensures forall k :: k in p.classes && k != KeyOf(b) ==> k in r.classes && r.classes[k] == p.classes[k]
    ensures r.nextId == p.nextId
  {
    var k := KeyOf(b);
    var stack := if k in p.classes then p.classes[k] else [];
    p.(classes := p.classes[k := stack + [b]])
  }

  /** sub_data asserts the upload fits and clamps it to the capacity: the number of bytes
      actually uploaded is the requested size. */
  function SubData(b: ArrayBuffer, size: bv32): (uploaded: bv32)
    requires size <= b.capacity
    ensures uploaded == size
  {
    if b.capacity < size then b.capacity else size
  }

  /** Checking out a size, returning the buffer, and checking out the same size again
      yields the same buffer and leaves the pool as after the first checkout. */
  lemma CheckoutReturnCheckout(p: Pool, size: bv32, target: int, usage: int)
    requires Valid(p)
    ensures var c1 := GetArrayBuffer(p, size, target, usage);
            var p2 := ReleaseArrayBuffer(c1.pool, c1.buffer);
            var c2 := GetArrayBuffer(p2, size, target, usage);
            c2.buffer == c1.buffer && c2.pool == c1.pool
  {
    var c1 := GetArrayBuffer(p, size, target, usage);
    var k := ClassOf(size, target, usage);
    var p2 := ReleaseArrayBuffer(c1.pool, c1.buffer);
    assert p2.classes[k] == c1.pool.classes[k] + [c1.buffer];
    assert p2.classes[k][..|p2.classes[k]| - 1] == c1.pool.classes[k];
    assert p2.classes[k := c1.pool.classes[k]] == c1.pool.classes;
  }

  /** Pooled buffers never change capacity: whatever is checked out has the capacity of the
      class it came from, whether it was reused or created. */
  lemma CapacityOfClass(p: Pool, size: bv32, target: int, usage: int)
    requires Valid(p)
    ensures GetArrayBuffer(p, size, target, usage).buffer.capacity == MinPowerOf2(size)
  {
  }

  /** Whatever is checked out for a size in the valid range can take an upload of that size. */
  lemma CheckoutFits(p: Pool, size: bv32, target: int, usage: int)
    requires Valid(p) && size <= 0x4000_0000
    ensures size <= GetArrayBuffer(p, size, target, usage).buffer.capacity
  {
    CapacityOfClass(p, size, target, usage);
    MinPowerOf2AtLeast(size);
  }

  /** When the class already holds a buffer, checking out and returning it leaves the pool
      exactly as it was: no buffer is created. */
  lemma CheckoutReturnRestores(p: Pool, size: bv32, target: int, usage: int)
    requires Valid(p)
    requires var k := ClassOf(size, target, usage); k in p.classes && |p.classes[k]| > 0
    ensures var c := GetArrayBuffer(p, size, target, usage);
            ReleaseArrayBuffer(c.pool, c.buffer) == p
  {
    var k := ClassOf(size, target, usage);
    var stack := p.classes[k];
    assert stack[..|stack| - 1] + [stack[|stack| - 1]] == stack;
    assert p.classes[k := stack] == p.classes;
  }
}

=== FILE: gameworld.dfy ===
/** The game-object registry: a universe of worlds sharing one game context (the pools of
    every pooled type), game objects carrying at most one component per type, per-world
    indexes of objects by component type, a game-object id counter shared by all worlds,
    command queues, and the frame loop that drives the worlds.

    A pointer to a pooled value is its slot in that type's pool; a type is named by its
    `TypeId`. Calls into user code (component, system and command virtuals) are recorded in
    the universe's `log`; what they do is not modelled. */
module GameWorld {
  import opened Results
  import MP = MemoryPool

  /** std::type_index. */
  type TypeId = string
  type WorldId = int
  /** A slot in the pool of its type. */
  type Ref = nat

  /** go_id is an unsigned 32-bit counter. */
  const ID_MODULUS: nat := 0x1_0000_0000

  datatype GameObject = GameObject(components: map<TypeId, Ref>, world: WorldId, id: nat)

  /** A pooled value other than a game object: a component, a system or a command. The only
      field the registry touches is a component's owner. */
  datatype Item = Item(owner: Option<Ref>)

  const BlankObject: GameObject := GameObject(map[], 0, 0)
  const BlankItem: Item := Item(None)

  /** A queued command: its type and its slot in that type's pool. */
  datatype Command = Command(kind: TypeId, slot: Ref)

  /** Calls into user code. */
  datatype Call =
    | Added(t: TypeId, component: Ref, object: Ref)
    | Removed(t: TypeId, component: Ref, object: Ref)
    | EnableComponents(components: set<(TypeId, Ref)>, flag: bool)
    | Run(command: Command)
    | OnBeginContact(self: nat, other: nat)
    | OnEndContact(self: nat, other: nat)
    | SystemsFixedUpdate(world: WorldId, dt: real)
    | SystemsUpdate(world: WorldId, dt: real)
    | SystemsRender(world: WorldId)
    | SystemsUi(world: WorldId)

  datatype World = World(objects: map<nat, Ref>, byComponent: map<TypeId, set<Ref>>,
                         commands: seq<Command>, enabled: bool)

  /** A world as `operator[]` creates it: empty and enabled. */
  const NewWorld: World := World(map[], map[], [], true)

  datatype Universe = Universe(worlds: map<WorldId, World>, objects: MP.MemoryPool<GameObject>,
                               pools: map<TypeId, MP.MemoryPool<Item>>, nextId: nat, time: real,
                               fixedElapsed: real, fixedFps: real, commands: seq<Command>,
                               log: seq<Call>)

  /** A new universe: no worlds, the id counter at 1, 30 fixed updates per second. */
  function NewUniverse(): (u: Universe)
    ensures u.nextId == 1 && u.fixedFps == 30.0 && |u.worlds| == 0 && |u.commands| == 0
  {
    Universe(map[], MP.NewPool(), map[], 1, 0.0, 0.0, 30.0, [], [])
  }

  function Keep<T>(x: T): T { x }

  /** No element occurs twice. */
  predicate Distinct<T(==)>(xs: seq<T>) {
    forall i, j :: 0 <= i < j < |xs| ==> xs[i] != xs[j]
  }

  // ---------------------------------------------------------------- pools

  /** The pool of a type as `pool<T>()` would return it: a new pool when there is none. */
  function PoolOf(u: Universe, t: TypeId): MP.MemoryPool<Item> {
    if t in u.pools then u.pools[t] else MP.NewPool()
  }

  /** pool<T>(): creates the type's pool on first use; later calls find the same pool. */
  function WithPool(u: Universe, t: TypeId): (r: Universe)
    ensures t in r.pools && r.pools[t] == PoolOf(u, t)
    ensures t in u.pools ==> r == u
    ensures r == u.(pools := r.pools) && r.pools.Keys == u.pools.Keys + {t}
    ensures forall k :: k in u.pools ==> r.pools[k] == u.pools[k]
  {
    if t in u.pools then u else u.(pools := u.pools[t := MP.NewPool()])
  }

  /** Asking for a pool twice gives the pool the first request created. */
  lemma PoolCreatedOnce(u: Universe, t: TypeId)
    ensures WithPool(WithPool(u, t), t) == WithPool(u, t)
    ensures t !in u.pools ==> MP.UseCount(WithPool(u, t).pools[t]) == 0
  {
  }

  // ---------------------------------------------------------------- worlds

  /** create_world: an existing world is returned untouched; otherwise an empty enabled
      world is made. */
  function CreateWorld(u: Universe, id: WorldId): (r: Universe)
    ensures id in r.worlds && r.worlds.Keys == u.worlds.Keys + {id}
    ensures id in u.worlds ==> r == u
    ensures id !in u.worlds ==> r.worlds[id] == NewWorld
    ensures r == u.(worlds := r.worlds) && forall w :: w in u.worlds ==> r.worlds[w] == u.worlds[w]
  {
    if id in u.worlds then u else u.(worlds := u.worlds[id := NewWorld])
  }

  lemma CreateWorldIdempotent(u: Universe, id: WorldId)
    ensures CreateWorld(CreateWorld(u, id), id) == CreateWorld(u, id)
  {
  }

  /** The objects of a world indexed under a type (an absent entry reads as empty). */
  function Members(byComponent: map<TypeId, set<Ref>>, t: TypeId): set<Ref> {
    if t in byComponent then byComponent[t] else {}
  }

  // ---------------------------------------------------------------- game objects

  predicate Live(u: Universe, o: Ref) {
    MP.InUse(u.objects, o)
  }

  function ObjectOf(u: Universe, o: Ref): GameObject
    requires o < |u.objects.slots|
  {
    u.objects.slots[o]
  }

  /** get_gameobject: the object registered under the id in this world, if any. */
  function GetGameObject(w: World, id: nat): (r: Option<Ref>)
    ensures r.Some? <==> id in w.objects
    ensures r.Some? ==> r.value == w.objects[id]
  {
    if id in w.objects then Some(w.objects[id]) else None
  }

  /** create_gameobject: takes an object slot from the pool, stamps it with this world and
      the next id, advances the shared counter (wrapping at 2^32) and registers the object
      under its id. */
  function CreateGameObject(u: Universe, w: WorldId): (r: (Universe, Ref))
    requires w in u.worlds && MP.CanCreate(u.objects)
    ensures var (v, o) := r;
            o < |v.objects.slots| && |u.objects.slots| <= |v.objects.slots|
            && ObjectOf(v, o).world == w && ObjectOf(v, o).id == u.nextId
            && v.nextId == (u.nextId + 1) % ID_MODULUS
            && v.worlds == u.worlds[w := u.worlds[w].(objects := u.worlds[w].objects[u.nextId := o])]
            && GetGameObject(v.worlds[w], u.nextId) == Some(o)
            && v == u.(objects := v.objects, nextId := v.nextId, worlds := v.worlds)
    ensures MP.Valid(u.objects) ==>
              MP.Valid(r.0.objects) && Live(r.0, r.1) && !Live(u, r.1)
              && (forall s: nat :: s != r.1 ==> (Live(r.0, s) <==> Live(u, s)))
              && (forall s: nat :: s < |u.objects.slots| <= |r.0.objects.slots| && s != r.1 ==>
                    r.0.objects.slots[s] == u.objects.slots[s])
    ensures (forall i :: 0 <= i < |u.objects.free| && u.objects.free[i] < |u.objects.slots| ==>
               ObjectOf(u, u.objects.free[i]).components == map[]) ==>
              ObjectOf(r.0, r.1).components == map[]
  {
    var (pool, o) := MP.Create(u.objects, BlankObject, Keep);
    var obj := pool.slots[o].(world := w, id := u.nextId);
    var world := u.worlds[w].(objects := u.worlds[w].objects[u.nextId := o]);
    (u.(objects := pool.(slots := pool.slots[o := obj]), nextId := (u.nextId + 1) % ID_MODULUS,
        worlds := u.worlds[w := world]), o)
  }

  /** Two objects created one after the other get distinct slots and consecutive ids, both
      registered. */
  lemma IdsIncrease(u: Universe, w1: WorldId, w2: WorldId)
    requires w1 in u.worlds && w2 in u.worlds && MP.Valid(u.objects) && MP.CanCreate(u.objects)
    requires u.nextId + 1 < ID_MODULUS
    requires MP.CanCreate(CreateGameObject(u, w1).0.objects)
    ensures var (v, a) := CreateGameObject(u, w1);
            var (x, b) := CreateGameObject(v, w2);
            a != b && ObjectOf(x, a).id == u.nextId && ObjectOf(x, b).id == u.nextId + 1
            && GetGameObject(x.worlds[w1], u.nextId) == Some(a)
            && GetGameObject(x.worlds[w2], u.nextId + 1) == Some(b)
  {
    CreateRegisters(u, w1);
    var (v, a) := CreateGameObject(u, w1);
    CreateKeeps(v, w2, a, w1, u.nextId);
  }

  /** A creation with no id wrap-around registers the new live object under the old
      counter and advances the counter by one. */
  lemma CreateRegisters(u: Universe, w: WorldId)
    requires w in u.worlds && MP.Valid(u.objects) && MP.CanCreate(u.objects)
    requires u.nextId + 1 < ID_MODULUS
    ensures var (v, a) := CreateGameObject(u, w);
            MP.Valid(v.objects) && Live(v, a) && v.nextId == u.nextId + 1
            && w in v.worlds && v.worlds.Keys == u.worlds.Keys
            && u.nextId in v.worlds[w].objects && v.worlds[w].objects[u.nextId] == a
            && ObjectOf(v, a).id == u.nextId
  {
  }

  /** Creating an object leaves every other live object, and every id registered before
      under another number, as they were. */
  lemma CreateKeeps(v: Universe, w: WorldId, a: Ref, w1: WorldId, id: nat)
    requires w in v.worlds && w1 in v.worlds && MP.Valid(v.objects) && MP.CanCreate(v.objects)
    requires Live(v, a) && id != v.nextId && id in v.worlds[w1].objects
    ensures var (x, b) := CreateGameObject(v, w);
            b != a && a < |x.objects.slots| && ObjectOf(x, a) == ObjectOf(v, a)
            && w1 in x.worlds && id in x.worlds[w1].objects
            && x.worlds[w1].objects[id] == v.worlds[w1].objects[id]
            && ObjectOf(x, b).id == v.nextId && GetGameObject(x.worlds[w], v.nextId) == Some(b)
  {
  }

  // ---------------------------------------------------------------- components

  /** get_component: the type's component of the object, if it has one. */
  function GetComponent(u: Universe, o: Ref, t: TypeId): (r: Option<Ref>)
    requires o < |u.objects.slots|
    ensures r.Some? <==> HasComponent(u, o, t)
    ensures r.Some? ==> r.value == ObjectOf(u, o).components[t]
  {
    if t in ObjectOf(u, o).components then Some(ObjectOf(u, o).components[t]) else None
  }

  /** has_component. */
  predicate HasComponent(u: Universe, o: Ref, t: TypeId)
    requires o < |u.objects.slots|
  {
    t in ObjectOf(u, o).components
  }

  /** has_component answers yes after add_component of the type and no after its
      remove_component, and the answer for every other type is unchanged by either. */
  lemma HasComponentTracks(u: Universe, o: Ref, t: TypeId, other: TypeId)
    requires CanAdd(u, o, t) && MP.Valid(PoolOf(u, t))
    ensures var v := AddComponent(u, o, t).0;
            HasComponent(v, o, t) && (other != t ==> (HasComponent(v, o, other) <==> HasComponent(u, o, other)))
            && CanRemove(v, o, t)
            && var r := RemoveComponent(v, o, t);
               !HasComponent(r, o, t) && (other != t ==> (HasComponent(r, o, other) <==> HasComponent(u, o, other)))
  {
    AddedRemovable(u, o, t);
  }

  /** What add_component needs: an object in an existing world, no component of that type
      yet (asserted), and room in the type's pool (asserted). */
  predicate CanAdd(u: Universe, o: Ref, t: TypeId) {
    o < |u.objects.slots| && t !in ObjectOf(u, o).components
    && ObjectOf(u, o).world in u.worlds && MP.CanCreate(PoolOf(u, t))
  }

  /** add_component: takes a component from the type's pool, attaches it to the object,
      indexes the object under the type in its world, sets the owner and tells the
      component it was added. */
  function AddComponent(u: Universe, o: Ref, t: TypeId): (r: (Universe, Ref))
    requires CanAdd(u, o, t)
    ensures var (v, c) := r;
            var obj := ObjectOf(u, o);
            var w := obj.world;
            v == u.(objects := v.objects, pools := v.pools, worlds := v.worlds, log := v.log)
            && v.objects == u.objects.(slots := u.objects.slots[o := obj.(components := obj.components[t := c])])
            && GetComponent(v, o, t) == Some(c)
            && v.pools.Keys == u.pools.Keys + {t}
            && (forall k :: k in u.pools && k != t ==> v.pools[k] == u.pools[k])
            && c < |v.pools[t].slots| && v.pools[t].slots[c] == Item(Some(o))
            && v.worlds == u.worlds[w := u.worlds[w].(byComponent :=
                 u.worlds[w].byComponent[t := Members(u.worlds[w].byComponent, t) + {o}])]
            && v.log == u.log + [Added(t, c, o)]
    ensures MP.Valid(PoolOf(u, t)) ==>
              t in r.0.pools && MP.Valid(r.0.pools[t]) && MP.InUse(r.0.pools[t], r.1)
              && !MP.InUse(PoolOf(u, t), r.1)
              && MP.UseCount(r.0.pools[t]) == MP.UseCount(PoolOf(u, t)) + 1
              && (forall s: nat :: s != r.1 ==> (MP.InUse(r.0.pools[t], s) <==> MP.InUse(PoolOf(u, t), s)))
  {
    var (pool, c) := MP.Create(PoolOf(u, t), BlankItem, Keep);
    var pool := pool.(slots := pool.slots[c := Item(Some(o))]);
    var obj := ObjectOf(u, o);
    var w := obj.world;
    var world := u.worlds[w].(byComponent := u.worlds[w].byComponent[t := Members(u.worlds[w].byComponent, t) + {o}]);
    var v := u.(objects := u.objects.(slots := u.objects.slots[o := obj.(components := obj.components[t := c])]),
                pools := u.pools[t := pool], worlds := u.worlds[w := world], log := u.log + [Added(t, c, o)]);
    (v, c)
  }

  /** What remove_component needs: the object has the type's component (asserted), its
      world exists, and the component is in use in the type's pool. */
  predicate CanRemove(u: Universe, o: Ref, t: TypeId) {
    o < |u.objects.slots| && t in ObjectOf(u, o).components && ObjectOf(u, o).world in u.worlds
    && t in u.pools && MP.InUse(u.pools[t], ObjectOf(u, o).components[t])
  }

  /** remove_component: detaches the component, tells it it was removed, clears its owner,
      returns it to its pool and takes the object out of the world's index for the type. */
  function RemoveComponent(u: Universe, o: Ref, t: TypeId): (r: Universe)
    requires CanRemove(u, o, t)
    ensures var obj := ObjectOf(u, o);
            var c := obj.components[t];
            var w := obj.world;
            r == u.(objects := r.objects, pools := r.pools, worlds := r.worlds, log := r.log)
            && r.objects == u.objects.(slots := u.objects.slots[o := obj.(components := obj.components - {t})])
            && GetComponent(r, o, t) == None
            && r.pools.Keys == u.pools.Keys
            && (forall k :: k in u.pools && k != t ==> r.pools[k] == u.pools[k])
            && |r.pools[t].slots| == |u.pools[t].slots|
            && !MP.InUse(r.pools[t], c) && r.pools[t].slots[c] == Item(None)
            && (forall s: nat :: s != c ==> (MP.InUse(r.pools[t], s) <==> MP.InUse(u.pools[t], s)))
            && MP.UseCount(r.pools[t]) == MP.UseCount(u.pools[t]) - 1
            && (MP.Valid(u.pools[t]) ==> MP.Valid(r.pools[t]))
            && r.worlds == u.worlds[w := u.worlds[w].(byComponent :=
                 u.worlds[w].byComponent[t := Members(u.worlds[w].byComponent, t) - {o}])]
            && r.log == u.log + [Removed(t, c, o)]
  {
    var obj := ObjectOf(u, o);
    var c := obj.components[t];
    var w := obj.world;
    var pool := u.pools[t].(slots := u.pools[t].slots[c := Item(None)]);
    var world := u.worlds[w].(byComponent := u.worlds[w].byComponent[t := Members(u.worlds[w].byComponent, t) - {o}]);
    u.(objects := u.objects.(slots := u.objects.slots[o := obj.(components := obj.components - {t})]),
       pools := u.pools[t := MP.Destroy(pool, c, Keep)], worlds := u.worlds[w := world],
       log := u.log + [Removed(t, c, o)])
  }

  /** Adding a component and removing it again leaves the object, its world's index and the
      pool's use count as they were, when the object was not indexed under the type. */
  lemma AddThenRemove(u: Universe, o: Ref, t: TypeId)
    requires CanAdd(u, o, t) && MP.Valid(PoolOf(u, t))
    requires o !in Members(u.worlds[ObjectOf(u, o).world].byComponent, t)
    ensures var (v, c) := AddComponent(u, o, t);
            CanRemove(v, o, t)
            && var r := RemoveComponent(v, o, t);
            ObjectOf(r, o) == ObjectOf(u, o)
            && Members(r.worlds[ObjectOf(u, o).world].byComponent, t)
               == Members(u.worlds[ObjectOf(u, o).world].byComponent, t)
            && MP.UseCount(r.pools[t]) == MP.UseCount(PoolOf(u, t))
            && r.log == u.log + [Added(t, c, o), Removed(t, c, o)]
  {
    AddedRemovable(u, o, t);
    AddRemoveObject(u, o, t);
    AddRemoveIndex(u, o, t);
  }

  /** A component just added can be removed again. */
  lemma AddedRemovable(u: Universe, o: Ref, t: TypeId)
    requires CanAdd(u, o, t) && MP.Valid(PoolOf(u, t))
    ensures var (v, c) := AddComponent(u, o, t);
            CanRemove(v, o, t) && ObjectOf(v, o).components[t] == c
            && ObjectOf(v, o) == ObjectOf(u, o).(components := ObjectOf(u, o).components[t := c])
  {
  }

  /** Adding then removing a component gives the object back its component map. */
  lemma AddRemoveObject(u: Universe, o: Ref, t: TypeId)
    requires CanAdd(u, o, t) && MP.Valid(PoolOf(u, t))
    ensures var (v, c) := AddComponent(u, o, t);
            CanRemove(v, o, t) && ObjectOf(RemoveComponent(v, o, t), o) == ObjectOf(u, o)
  {
    AddedRemovable(u, o, t);
    var (v, c) := AddComponent(u, o, t);
    assert ObjectOf(v, o).components - {t} == ObjectOf(u, o).components;
  }

  /** Adding then removing a component restores the world's index for the type. */
  lemma AddRemoveIndex(u: Universe, o: Ref, t: TypeId)
    requires CanAdd(u, o, t) && MP.Valid(PoolOf(u, t))
    requires o !in Members(u.worlds[ObjectOf(u, o).world].byComponent, t)
    ensures var (v, c) := AddComponent(u, o, t);
            CanRemove(v, o, t)
            && Members(RemoveComponent(v, o, t).worlds[ObjectOf(u, o).world].byComponent, t)
               == Members(u.worlds[ObjectOf(u, o).world].byComponent, t)
  {
    AddedRemovable(u, o, t);
    var (v, c) := AddComponent(u, o, t);
    var w := ObjectOf(u, o).world;
    assert Members(v.worlds[w].byComponent, t) == Members(u.worlds[w].byComponent, t) + {o};
  }

  /** Every component of the object can be removed, `types` listing its component types
      once each (the iteration order of the component map, which the source leaves to the
      hash map). */
  ghost predicate Removable(u: Universe, o: Ref, types: seq<TypeId>) {
    o < |u.objects.slots| && ObjectOf(u, o).world in u.worlds
    && Distinct(types)
    && (forall t :: t in types <==> t in ObjectOf(u, o).components)
    && forall t :: t in ObjectOf(u, o).components ==>
         t in u.pools && MP.InUse(u.pools[t], ObjectOf(u, o).components[t])
  }

  /** Removing the first listed component leaves the rest removable. */
  lemma RemovableAfter(u: Universe, o: Ref, types: seq<TypeId>)
    requires Removable(u, o, types) && |types| > 0
    ensures CanRemove(u, o, types[0]) && Removable(RemoveComponent(u, o, types[0]), o, types[1..])
  {
    var t0 := types[0];
    var v := RemoveComponent(u, o, t0);
    var comps := ObjectOf(u, o).components;
    assert ObjectOf(v, o).components == comps - {t0};
    forall t ensures t in types[1..] <==> t in comps - {t0} {
      if t in types[1..] {
        var i :| 0 <= i < |types[1..]| && types[1..][i] == t;
        assert types[i + 1] == t;
      }
      if t in comps - {t0} {
        var i :| 0 <= i < |types| && types[i] == t;
        assert types[1..][i - 1] == t;
      }
    }
  }

  /** gameobject::on_free: removes every component, in the given order. */
  function OnFree(u: Universe, o: Ref, types: seq<TypeId>): (r: Universe)
    requires Removable(u, o, types)
    ensures r == u.(objects := r.objects, pools := r.pools, worlds := r.worlds, log := r.log)
    ensures r.objects == u.objects.(slots := u.objects.slots[o := ObjectOf(u, o).(components := map[])])
    ensures r.worlds.Keys == u.worlds.Keys && r.pools.Keys == u.pools.Keys
    decreases |types|
  {
    if |types| == 0 then
      assert ObjectOf(u, o).components == map[];
      u
    else
      RemovableAfter(u, o, types);
      OnFree(RemoveComponent(u, o, types[0]), o, types[1..])
  }

  /** After on_free, none of the object's former components is in use and the object is
      indexed under none of their types; other worlds, other types' index entries, other
      types' pools and every other slot of its own types' pools are untouched. */
  lemma {:induction false} OnFreeReleases(u: Universe, o: Ref, types: seq<TypeId>)
    requires Removable(u, o, types)
    ensures var r := OnFree(u, o, types);
            var obj := ObjectOf(u, o);
            var w := obj.world;
            (forall x :: x in u.worlds && x != w ==> r.worlds[x] == u.worlds[x])
            && r.worlds[w] == u.worlds[w].(byComponent := r.worlds[w].byComponent)
            && (forall t :: t in obj.components ==>
                  !MP.InUse(r.pools[t], obj.components[t]) && o !in Members(r.worlds[w].byComponent, t))
            && (forall t :: t !in obj.components ==>
                  Members(r.worlds[w].byComponent, t) == Members(u.worlds[w].byComponent, t))
            && (forall t :: t in u.pools && t !in obj.components ==> r.pools[t] == u.pools[t])
            && (forall t, s: nat :: t in obj.components && s != obj.components[t] ==>
                  (MP.InUse(r.pools[t], s) <==> MP.InUse(u.pools[t], s)))
    decreases |types|
  {
    OnFreeFreesOwn(u, o, types);
    OnFreeKeepsOthers(u, o, types);
    OnFreeKeepsOtherSlots(u, o, types);
  }

  /** The rest of the object's own types' pools: every slot but the object's component keeps
      its use. */
  lemma {:induction false} OnFreeKeepsOtherSlots(u: Universe, o: Ref, types: seq<TypeId>)
    requires Removable(u, o, types)
    ensures var r := OnFree(u, o, types);
            var obj := ObjectOf(u, o);
            forall t, s: nat :: t in obj.components && s != obj.components[t] ==>
              (MP.InUse(r.pools[t], s) <==> MP.InUse(u.pools[t], s))
    decreases |types|
  {
    if |types| > 0 {
      RemovableAfter(u, o, types);
      var v := RemoveComponent(u, o, types[0]);
      OnFreeKeepsOtherSlots(v, o, types[1..]);
      OnFreeKeepsOthers(v, o, types[1..]);
      assert OnFree(u, o, types) == OnFree(v, o, types[1..]);
      assert ObjectOf(v, o).components == ObjectOf(u, o).components - {types[0]};
    }
  }

  /** The object's own components: released, and the object unindexed under their types. */
  lemma {:induction false} OnFreeFreesOwn(u: Universe, o: Ref, types: seq<TypeId>)
    requires Removable(u, o, types)
    ensures var r := OnFree(u, o, types);
            var obj := ObjectOf(u, o);
            forall t :: t in obj.components ==>
              !MP.InUse(r.pools[t], obj.components[t]) && o !in Members(r.worlds[obj.world].byComponent, t)
    decreases |types|
  {
    if |types| > 0 {
      RemovableAfter(u, o, types);
      var v := RemoveComponent(u, o, types[0]);
      OnFreeFreesOwn(v, o, types[1..]);
      OnFreeKeepsOthers(v, o, types[1..]);
      assert OnFree(u, o, types) == OnFree(v, o, types[1..]);
      assert ObjectOf(v, o).components == ObjectOf(u, o).components - {types[0]};
    }
  }

  /** Everything outside the object's component types: other worlds, the rest of its world,
      other types' index entries and other types' pools. */
  lemma {:induction false} OnFreeKeepsOthers(u: Universe, o: Ref, types: seq<TypeId>)
    requires Removable(u, o, types)
    ensures var r := OnFree(u, o, types);
            var obj := ObjectOf(u, o);
            var w := obj.world;
            (forall x :: x in u.worlds && x != w ==> r.worlds[x] == u.worlds[x])
            && r.worlds[w] == u.worlds[w].(byComponent := r.worlds[w].byComponent)
            && (forall t :: t !in obj.components ==>
                  Members(r.worlds[w].byComponent, t) == Members(u.worlds[w].byComponent, t))
            && (forall t :: t in u.pools && t !in obj.components ==> r.pools[t] == u.pools[t])
    decreases |types|
  {
    if |types| > 0 {
      RemovableAfter(u, o, types);
      var v := RemoveComponent(u, o, types[0]);
      OnFreeKeepsOthers(v, o, types[1..]);
      assert OnFree(u, o, types) == OnFree(v, o, types[1..]);
      assert ObjectOf(v, o).components == ObjectOf(u, o).components - {types[0]};
    }
  }

  /** destroy_gameobject_by_id: a registered id has its object's components removed (the
      object's `on_free`), its slot returned to the object pool and its entry erased; an
      unknown id changes nothing. */
  function DestroyGameObjectById(u: Universe, w: WorldId, id: nat, types: seq<TypeId>): (r: Universe)
    requires w in u.worlds
    requires id in u.worlds[w].objects ==>
               Live(u, u.worlds[w].objects[id]) && Removable(u, u.worlds[w].objects[id], types)
    ensures id !in u.worlds[w].objects ==> r == u
    ensures id in u.worlds[w].objects ==>
              var o := u.worlds[w].objects[id];
              var comps := ObjectOf(u, o).components;
              w in r.worlds && GetGameObject(r.worlds[w], id) == None
              && |r.objects.slots| == |u.objects.slots| && !Live(r, o)
              && ObjectOf(r, o).components == map[]
              && r.objects.free == u.objects.free + [o]
              && MP.UseCount(r.objects) == MP.UseCount(u.objects) - 1
              && r.pools.Keys == u.pools.Keys
              && forall t :: t in comps ==> !MP.InUse(r.pools[t], comps[t])
  {
    if id !in u.worlds[w].objects then u
    else
      var o := u.worlds[w].objects[id];
      var v := OnFree(u, o, types);
      OnFreeReleases(u, o, types);
      var objects := MP.Destroy(v.objects, o, Keep);
      v.(objects := objects, worlds := v.worlds[w := v.worlds[w].(objects := v.worlds[w].objects - {id})])
  }

  /** Destroying an object by id keeps everything else: every other slot of every pool,
      every other object and its liveness, the world's other ids, flag and queue, and every
      world other than this one and the object's own. */
  lemma DestroyKeepsOthers(u: Universe, w: WorldId, id: nat, types: seq<TypeId>)
    requires w in u.worlds && id in u.worlds[w].objects
    requires Live(u, u.worlds[w].objects[id]) && Removable(u, u.worlds[w].objects[id], types)
    ensures var r := DestroyGameObjectById(u, w, id, types);
            var o := u.worlds[w].objects[id];
            var comps := ObjectOf(u, o).components;
            (forall t, s: nat :: t in u.pools && !(t in comps && s == comps[t]) ==>
               (MP.InUse(r.pools[t], s) <==> MP.InUse(u.pools[t], s)))
            && (forall p: nat :: p != o ==> (Live(r, p) <==> Live(u, p)))
            && (forall p: nat :: p < |u.objects.slots| && p != o ==> ObjectOf(r, p) == ObjectOf(u, p))
    ensures var r := DestroyGameObjectById(u, w, id, types);
            var o := u.worlds[w].objects[id];
            r.worlds.Keys == u.worlds.Keys
            && (forall i :: i != id ==> GetGameObject(r.worlds[w], i) == GetGameObject(u.worlds[w], i))
            && r.worlds[w].commands == u.worlds[w].commands && r.worlds[w].enabled == u.worlds[w].enabled
            && (forall x :: x in u.worlds && x != w && x != ObjectOf(u, o).world ==> r.worlds[x] == u.worlds[x])
  {
    var o := u.worlds[w].objects[id];
    OnFreeReleases(u, o, types);
    var v := OnFree(u, o, types);
    assert v.worlds[w] == u.worlds[w].(byComponent := v.worlds[w].byComponent);
  }

  /** translate: the object's entries move from one world to the other: its id, and its
      index entry under every type it has a component of; the object then belongs to the
      new world. The per-type removal precedes the addition, so translating within one
      world leaves the object registered there. */
  function Translate(u: Universe, prev: WorldId, next: WorldId, o: Ref): (r: Universe)
    requires prev in u.worlds && next in u.worlds && o < |u.objects.slots|
    ensures var obj := ObjectOf(u, o);
            r == u.(worlds := r.worlds, objects := r.objects)
            && r.objects == u.objects.(slots := u.objects.slots[o := obj.(world := next)])
            && r.worlds.Keys == u.worlds.Keys
            && GetGameObject(r.worlds[next], obj.id) == Some(o)
            && (prev != next ==> GetGameObject(r.worlds[prev], obj.id) == None)
            && (forall t :: t in obj.components ==> o in Members(r.worlds[next].byComponent, t))
            && (prev != next ==> forall t :: t in obj.components ==> o !in Members(r.worlds[prev].byComponent, t))
            && (forall t :: t !in obj.components ==>
                  Members(r.worlds[next].byComponent, t) == Members(u.worlds[next].byComponent, t)
                  && Members(r.worlds[prev].byComponent, t) == Members(u.worlds[prev].byComponent, t))
            && (forall w :: w in u.worlds && w != prev && w != next ==> r.worlds[w] == u.worlds[w])
  {
    var obj := ObjectOf(u, o);
    var keys := obj.components.Keys;
    var p := u.worlds[prev];
    var p1 := p.(byComponent := Unindex(p.byComponent, keys, o), objects := p.objects - {obj.id});
    var worlds := u.worlds[prev := p1];
    var n := worlds[next];
    var n1 := n.(byComponent := Index(n.byComponent, keys, o), objects := n.objects[obj.id := o]);
    u.(worlds := worlds[next := n1], objects := u.objects.(slots := u.objects.slots[o := obj.(world := next)]))
  }

  /** Index an object under every given type (a missing entry is made). */
  function Index(m: map<TypeId, set<Ref>>, keys: set<TypeId>, o: Ref): (r: map<TypeId, set<Ref>>)
    ensures forall t :: t in r <==> t in m || t in keys
    ensures forall t :: Members(r, t) == Members(m, t) + (if t in keys then {o} else {})
  {
    map t | t in m.Keys + keys :: Members(m, t) + (if t in keys then {o} else {})
  }

  /** Take an object out of the index under every given type (a missing entry is made). */
  function Unindex(m: map<TypeId, set<Ref>>, keys: set<TypeId>, o: Ref): (r: map<TypeId, set<Ref>>)
    ensures forall t :: t in r <==> t in m || t in keys
    ensures forall t :: Members(r, t) == Members(m, t) - (if t in keys then {o} else {})
  {
    map t | t in m.Keys + keys :: Members(m, t) - (if t in keys then {o} else {})
  }

  /** Translating there and back restores the object's registration in the first world. */
  lemma TranslateBack(u: Universe, a: WorldId, b: WorldId, o: Ref)
    requires a in u.worlds && b in u.worlds && o < |u.objects.slots| && a != b
    ensures var r := Translate(Translate(u, a, b, o), b, a, o);
            ObjectOf(r, o) == ObjectOf(u, o).(world := a)
            && GetGameObject(r.worlds[a], ObjectOf(u, o).id) == Some(o)
            && GetGameObject(r.worlds[b], ObjectOf(u, o).id) == None
            && forall t :: t in ObjectOf(u, o).components ==>
                 o in Members(r.worlds[a].byComponent, t) && o !in Members(r.worlds[b].byComponent, t)
  {
  }

  /** When the object is registered in its world `a` alone (under its id and under every
      type it has), translating it to `b` and back leaves every world with the ids, the flag,
      the queue and the members under each type it had, and the object as it was. Only the
      index maps' key sets may grow, by entries left empty. */
  lemma TranslateBackRestores(u: Universe, a: WorldId, b: WorldId, o: Ref)
    requires RegisteredIn(u, a, b, o)
    ensures var r := Translate(Translate(u, a, b, o), b, a, o);
            r.objects == u.objects && r.worlds.Keys == u.worlds.Keys
            && (forall w :: w in u.worlds && w != a && w != b ==> r.worlds[w] == u.worlds[w])
            && r.worlds[a] == u.worlds[a].(byComponent := r.worlds[a].byComponent)
            && r.worlds[b] == u.worlds[b].(byComponent := r.worlds[b].byComponent)
            && forall t :: Members(r.worlds[a].byComponent, t) == Members(u.worlds[a].byComponent, t)
                           && Members(r.worlds[b].byComponent, t) == Members(u.worlds[b].byComponent, t)
  {
    TranslateBackObject(u, a, b, o);
    TranslateBackIds(u, a, b, o);
    TranslateBackIndex(u, a, b, o);
  }

  /** The object `o` belongs to world `a`, is registered there under its id and every type
      it has, and is registered in the other world `b` under neither. */
  ghost predicate RegisteredIn(u: Universe, a: WorldId, b: WorldId, o: Ref) {
    a in u.worlds && b in u.worlds && o < |u.objects.slots| && a != b
    && ObjectOf(u, o).world == a
    && GetGameObject(u.worlds[a], ObjectOf(u, o).id) == Some(o)
    && GetGameObject(u.worlds[b], ObjectOf(u, o).id) == None
    && forall t :: t in ObjectOf(u, o).components ==>
         o in Members(u.worlds[a].byComponent, t) && o !in Members(u.worlds[b].byComponent, t)
  }

  /** The object half of the round trip above. */
  lemma TranslateBackObject(u: Universe, a: WorldId, b: WorldId, o: Ref)
    requires RegisteredIn(u, a, b, o)
    ensures Translate(Translate(u, a, b, o), b, a, o).objects == u.objects
  {
    var v := Translate(u, a, b, o);
    assert ObjectOf(v, o) == ObjectOf(u, o).(world := b);
    assert Translate(v, b, a, o).objects.slots == u.objects.slots;
  }

  /** The id half of the round trip above. */
  lemma TranslateBackIds(u: Universe, a: WorldId, b: WorldId, o: Ref)
    requires RegisteredIn(u, a, b, o)
    ensures var r := Translate(Translate(u, a, b, o), b, a, o);
            r.worlds.Keys == u.worlds.Keys
            && (forall w :: w in u.worlds && w != a && w != b ==> r.worlds[w] == u.worlds[w])
            && r.worlds[a] == u.worlds[a].(byComponent := r.worlds[a].byComponent)
            && r.worlds[b] == u.worlds[b].(byComponent := r.worlds[b].byComponent)
  {
    var obj := ObjectOf(u, o);
    var pa, pb := u.worlds[a], u.worlds[b];
    var v := Translate(u, a, b, o);
    assert v.worlds[a].objects == pa.objects - {obj.id};
    assert v.worlds[b].objects == pb.objects[obj.id := o];
    assert ObjectOf(v, o) == obj.(world := b);
    var r := Translate(v, b, a, o);
    RemoveThenPut(pa.objects, obj.id, o);
    PutThenRemove(pb.objects, obj.id, o);
  }

  /** Removing a key and putting its value back gives the same map. */
  lemma RemoveThenPut(m: map<nat, Ref>, k: nat, x: Ref)
    requires k in m && m[k] == x
    ensures (m - {k})[k := x] == m
  {
  }

  /** Putting a new key and removing it again gives the same map. */
  lemma PutThenRemove(m: map<nat, Ref>, k: nat, x: Ref)
    requires k !in m
    ensures m[k := x] - {k} == m
  {
  }

  /** The index half of the round trip above. */
  lemma TranslateBackIndex(u: Universe, a: WorldId, b: WorldId, o: Ref)
    requires RegisteredIn(u, a, b, o)
    ensures var r := Translate(Translate(u, a, b, o), b, a, o);
            forall t :: Members(r.worlds[a].byComponent, t) == Members(u.worlds[a].byComponent, t)
                        && Members(r.worlds[b].byComponent, t) == Members(u.worlds[b].byComponent, t)
  {
    var obj := ObjectOf(u, o);
    var keys := obj.components.Keys;
    var pa, pb := u.worlds[a], u.worlds[b];
    var v := Translate(u, a, b, o);
    assert v.worlds[a].byComponent == Unindex(pa.byComponent, keys, o);
    assert v.worlds[b].byComponent == Index(pb.byComponent, keys, o);
    assert ObjectOf(v, o) == obj.(world := b);
    var r := Translate(v, b, a, o);
    assert r.worlds[a].byComponent == Index(Unindex(pa.byComponent, keys, o), keys, o);
    assert r.worlds[b].byComponent == Unindex(Index(pb.byComponent, keys, o), keys, o);
    UnindexIndex(pa.byComponent, keys, o);
    IndexUnindex(pb.byComponent, keys, o);
  }

  /** Taking an indexed object out and putting it back keeps every type's members. */
  lemma UnindexIndex(m: map<TypeId, set<Ref>>, keys: set<TypeId>, o: Ref)
    requires forall t :: t in keys ==> o in Members(m, t)
    ensures forall t :: Members(Index(Unindex(m, keys, o), keys, o), t) == Members(m, t)
  {
  }

  /** Putting an unindexed object in and taking it out again keeps every type's members. */
  lemma IndexUnindex(m: map<TypeId, set<Ref>>, keys: set<TypeId>, o: Ref)
    requires forall t :: t in keys ==> o !in Members(m, t)
    ensures forall t :: Members(Unindex(Index(m, keys, o), keys, o), t) == Members(m, t)
  {
  }

  // ---------------------------------------------------------------- enable

  /** The components of every object registered in a world. */
  function WorldComponents(u: Universe, w: World): set<(TypeId, Ref)>
    requires forall id :: id in w.objects ==> w.objects[id] < |u.objects.slots|
  {
    set id, t | id in w.objects && t in ObjectOf(u, w.objects[id]).components
      :: (t, ObjectOf(u, w.objects[id]).components[t])
  }

  /** gameworld::enable: every component of every object of the world is told the flag
      (in the unspecified order of the hash maps, so as one set), then the world stores it. */
  function Enable(u: Universe, w: WorldId, flag: bool): (r: Universe)
    requires w in u.worlds
    requires forall id :: id in u.worlds[w].objects ==> u.worlds[w].objects[id] < |u.objects.slots|
    ensures r == u.(worlds := r.worlds, log := r.log)
    ensures r.worlds == u.worlds[w := u.worlds[w].(enabled := flag)]
    ensures |r.log| == |u.log| + 1 && r.log[..|u.log|] == u.log
    ensures r.log[|u.log|].EnableComponents? && r.log[|u.log|].flag == flag
    ensures forall id, t :: id in u.worlds[w].objects && t in ObjectOf(u, u.worlds[w].objects[id]).components ==>
              (t, ObjectOf(u, u.worlds[w].objects[id]).components[t]) in r.log[|u.log|].components
    ensures forall tc :: tc in r.log[|u.log|].components ==>
              exists id :: id in u.worlds[w].objects && tc.0 in ObjectOf(u, u.worlds[w].objects[id]).components
                           && tc.1 == ObjectOf(u, u.worlds[w].objects[id]).components[tc.0]
  {
    var r := u.(worlds := u.worlds[w := u.worlds[w].(enabled := flag)],
                log := u.log + [EnableComponents(WorldComponents(u, u.worlds[w]), flag)]);
    assert r.log[..|u.log|] == u.log;
    r
  }

  // ---------------------------------------------------------------- contacts

  /** An `Icontactable`, identified by the pointer the physics fixtures carry. */
  type Party = nat
  /** A physics fixture. */
  type Fixture = nat

  /** Every contactable's contact list: per fixture of its own, the contactables touching it. */
  type Contacts = map<Party, map<Fixture, set<Party>>>

  /** The contactables touching one fixture of a contactable (an absent entry reads as empty). */
  function Touching(cs: Contacts, p: Party, f: Fixture): set<Party> {
    if p in cs && f in cs[p] then cs[p][f] else {}
  }

  /** No contact list keeps an empty fixture entry. */
  ghost predicate NoEmptyEntries(cs: Contacts) {
    forall p, f :: p in cs && f in cs[p] ==> cs[p][f] != {}
  }

  function Insert(cs: Contacts, p: Party, f: Fixture, other: Party): (r: Contacts)
    ensures forall q, g :: Touching(r, q, g) == if q == p && g == f then Touching(cs, p, f) + {other} else Touching(cs, q, g)
    ensures NoEmptyEntries(cs) ==> NoEmptyEntries(r)
  {
    var list: map<Fixture, set<Party>> := if p in cs then cs[p] else map[];
    cs[p := list[f := Touching(cs, p, f) + {other}]]
  }

  /** Erase `other` from one fixture's set, and the fixture's entry once the set is empty. */
  function Erase(cs: Contacts, p: Party, f: Fixture, other: Party): (r: Contacts)
    ensures forall q, g :: Touching(r, q, g) == if q == p && g == f then Touching(cs, p, f) - {other} else Touching(cs, q, g)
    ensures NoEmptyEntries(cs) ==> NoEmptyEntries(r)
  {
    var list: map<Fixture, set<Party>> := if p in cs then cs[p] else map[];
    var rest := Touching(cs, p, f) - {other};
    cs[p := if rest == {} then list - {f} else list[f := rest]]
  }

  /** universe::BeginContact: each side records the other under its own fixture, then each
      is told of the contact. */
  function BeginContact(u: Universe, cs: Contacts, fa: Fixture, a: Party, fb: Fixture, b: Party): (r: (Universe, Contacts))
    ensures b in Touching(r.1, a, fa) && a in Touching(r.1, b, fb)
    ensures forall p: Party, f: Fixture :: (p, f) != (a, fa) && (p, f) != (b, fb) ==> Touching(r.1, p, f) == Touching(cs, p, f)
    ensures forall p, f :: Touching(cs, p, f) <= Touching(r.1, p, f)
    ensures NoEmptyEntries(cs) ==> NoEmptyEntries(r.1)
    ensures r.0 == u.(log := u.log + [OnBeginContact(a, b), OnBeginContact(b, a)])
  {
    (u.(log := u.log + [OnBeginContact(a, b), OnBeginContact(b, a)]), Insert(Insert(cs, a, fa, b), b, fb, a))
  }

  /** universe::EndContact: each side forgets the other under its own fixture, dropping the
      fixture's entry once nothing touches it, then each is told the contact ended. */
  function EndContact(u: Universe, cs: Contacts, fa: Fixture, a: Party, fb: Fixture, b: Party): (r: (Universe, Contacts))
    ensures b !in Touching(r.1, a, fa) && a !in Touching(r.1, b, fb)
    ensures forall p: Party, f: Fixture :: (p, f) != (a, fa) && (p, f) != (b, fb) ==> Touching(r.1, p, f) == Touching(cs, p, f)
    ensures forall p, f :: Touching(r.1, p, f) <= Touching(cs, p, f)
    ensures NoEmptyEntries(cs) ==> NoEmptyEntries(r.1)
    ensures r.0 == u.(log := u.log + [OnEndContact(a, b), OnEndContact(b, a)])
  {
    (u.(log := u.log + [OnEndContact(a, b), OnEndContact(b, a)]), Erase(Erase(cs, a, fa, b), b, fb, a))
  }

  /** A contact that begins and ends leaves every contact list as it was, when neither side
      was already touching the other on those fixtures. */
  lemma ContactRestores(u: Universe, cs: Contacts, fa: Fixture, a: Party, fb: Fixture, b: Party)
    requires b !in Touching(cs, a, fa) && a !in Touching(cs, b, fb)
    ensures var (v, cs1) := BeginContact(u, cs, fa, a, fb, b);
            forall p, f :: Touching(EndContact(v, cs1, fa, a, fb, b).1, p, f) == Touching(cs, p, f)
  {
  }

  /** Without empty entries, the contact lists are determined by what each fixture touches:
      a begun and ended contact restores the lists themselves. */
  lemma {:induction false} ContactsExtensional(cs: Contacts, ds: Contacts)
    requires NoEmptyEntries(cs) && NoEmptyEntries(ds)
    requires forall p, f :: Touching(cs, p, f) == Touching(ds, p, f)
    requires forall p :: p in cs <==> p in ds
    ensures cs == ds
  {
    forall p | p in cs ensures cs[p] == ds[p] {
      forall f ensures f in cs[p] <==> f in ds[p] {
        assert Touching(cs, p, f) == Touching(ds, p, f);
      }
      forall f | f in cs[p] ensures cs[p][f] == ds[p][f] {
        assert Touching(cs, p, f) == Touching(ds, p, f);
      }
    }
  }

  /** When both parties already hold a contact list with no empty entry, a new contact that
      begins and ends gives back the very same lists. */
  lemma ContactRestoresExactly(u: Universe, cs: Contacts, fa: Fixture, a: Party, fb: Fixture, b: Party)
    requires NoEmptyEntries(cs) && a in cs && b in cs
    requires b !in Touching(cs, a, fa) && a !in Touching(cs, b, fb)
    ensures var (v, cs1) := BeginContact(u, cs, fa, a, fb, b);
            EndContact(v, cs1, fa, a, fb, b).1 == cs
  {
    var (v, cs1) := BeginContact(u, cs, fa, a, fb, b);
    var r := EndContact(v, cs1, fa, a, fb, b).1;
    ContactRestores(u, cs, fa, a, fb, b);
    assert r.Keys == cs.Keys;
    ContactsExtensional(r, cs);
  }

  // ---------------------------------------------------------------- commands

  /** add_command (universe): appends to the queue. */
  function AddCommand(u: Universe, cmd: Command): (r: Universe)
    ensures r == u.(commands := r.commands)
    ensures |r.commands| == |u.commands| + 1 && r.commands[..|u.commands|] == u.commands
    ensures r.commands[|u.commands|] == cmd
  {
    var r := u.(commands := u.commands + [cmd]);
    assert r.commands[..|u.commands|] == u.commands;
    r
  }

  /** add_command (world): appends to the world's queue. */
  function AddWorldCommand(u: Universe, w: WorldId, cmd: Command): (r: Universe)
    requires w in u.worlds
    ensures r == u.(worlds := r.worlds) && r.worlds.Keys == u.worlds.Keys
    ensures forall x :: x in u.worlds && x != w ==> r.worlds[x] == u.worlds[x]
    ensures r.worlds[w] == u.worlds[w].(commands := r.worlds[w].commands)
    ensures |r.worlds[w].commands| == |u.worlds[w].commands| + 1
    ensures r.worlds[w].commands[..|u.worlds[w].commands|] == u.worlds[w].commands
    ensures r.worlds[w].commands[|u.worlds[w].commands|] == cmd
  {
    var q := u.worlds[w].commands + [cmd];
    assert q[..|u.worlds[w].commands|] == u.worlds[w].commands;
    u.(worlds := u.worlds[w := u.worlds[w].(commands := q)])
  }

  /** Commands that can each be run and returned to their pool: distinct, and each in use
      in its type's pool. */
  ghost predicate Runnable(u: Universe, cmds: seq<Command>) {
    Distinct(cmds)
    && forall i :: 0 <= i < |cmds| ==> cmds[i].kind in u.pools && MP.InUse(u.pools[cmds[i].kind], cmds[i].slot)
  }

  /** run_command: runs the command, then returns it to its pool. */
  function RunCommand(u: Universe, cmd: Command): (r: Universe)
    requires cmd.kind in u.pools && MP.InUse(u.pools[cmd.kind], cmd.slot)
    ensures r == u.(pools := r.pools, log := r.log)
    ensures r.log == u.log + [Run(cmd)]
    ensures r.pools.Keys == u.pools.Keys && forall k :: k in u.pools && k != cmd.kind ==> r.pools[k] == u.pools[k]
    ensures !MP.InUse(r.pools[cmd.kind], cmd.slot)
    ensures forall s: nat :: s != cmd.slot ==> (MP.InUse(r.pools[cmd.kind], s) <==> MP.InUse(u.pools[cmd.kind], s))
    ensures MP.UseCount(r.pools[cmd.kind]) == MP.UseCount(u.pools[cmd.kind]) - 1
  {
    u.(pools := u.pools[cmd.kind := MP.Destroy(u.pools[cmd.kind], cmd.slot, Keep)], log := u.log + [Run(cmd)])
  }

  /** The log entries of running a sequence of commands. */
  function Runs(cmds: seq<Command>): (calls: seq<Call>)
    ensures |calls| == |cmds|
  {
    if |cmds| == 0 then [] else [Run(cmds[0])] + Runs(cmds[1..])
  }

  /** The i-th entry of a drain runs the i-th command. */
  lemma {:induction false} RunsInOrder(cmds: seq<Command>)
    ensures forall i :: 0 <= i < |cmds| ==> Runs(cmds)[i] == Run(cmds[i])
  {
    if |cmds| > 0 {
      RunsInOrder(cmds[1..]);
    }
  }

  /** Running the head of a runnable queue leaves its tail runnable. */
  lemma RunnableTail(u: Universe, cmds: seq<Command>)
    requires Runnable(u, cmds) && |cmds| > 0
    ensures Runnable(RunCommand(u, cmds[0]), cmds[1..])
  {
    var v := RunCommand(u, cmds[0]);
    forall i | 0 <= i < |cmds[1..]|
      ensures cmds[1..][i].kind in v.pools && MP.InUse(v.pools[cmds[1..][i].kind], cmds[1..][i].slot)
    {
      assert cmds[1..][i] == cmds[i + 1] && cmds[i + 1] != cmds[0];
    }
  }

  /** Draining a queue front to back: the commands run in queue order, each returned to its
      pool. */
  function RunAll(u: Universe, cmds: seq<Command>): (r: Universe)
    requires Runnable(u, cmds)
    ensures r == u.(pools := r.pools, log := r.log) && r.pools.Keys == u.pools.Keys
    ensures r.log == u.log + Runs(cmds)
    decreases |cmds|
  {
    if |cmds| == 0 then u
    else
      RunnableTail(u, cmds);
      RunAll(RunCommand(u, cmds[0]), cmds[1..])
  }

  /** After a drain, no command of the queue is in use any more, and every other pooled
      value is in use exactly when it was before. */
  lemma {:induction false} RunAllReleases(u: Universe, cmds: seq<Command>, c: Command)
    requires Runnable(u, cmds) && c.kind in u.pools
    ensures MP.InUse(RunAll(u, cmds).pools[c.kind], c.slot) <==> MP.InUse(u.pools[c.kind], c.slot) && c !in cmds
    decreases |cmds|
  {
    if |cmds| > 0 {
      RunnableTail(u, cmds);
      RunAllReleases(RunCommand(u, cmds[0]), cmds[1..], c);
      assert c in cmds <==> c == cmds[0] || c in cmds[1..];
    }
  }

  /** Running the front of a runnable queue leaves the rest runnable. */
  lemma RunnableAfter(u: Universe, front: seq<Command>, rest: seq<Command>)
    requires Runnable(u, front + rest)
    ensures Runnable(u, front) && Runnable(RunAll(u, front), rest)
  {
    var all := front + rest;
    assert Runnable(u, front) by {
      forall i | 0 <= i < |front| ensures front[i] == all[i] { }
    }
    var v := RunAll(u, front);
    forall i | 0 <= i < |rest|
      ensures rest[i].kind in v.pools && MP.InUse(v.pools[rest[i].kind], rest[i].slot)
    {
      assert rest[i] == all[|front| + i];
      assert rest[i] !in front by {
        forall j | 0 <= j < |front| ensures front[j] != rest[i] {
          assert front[j] == all[j];
        }
      }
      RunAllReleases(u, front, rest[i]);
    }
    forall i, j | 0 <= i < j < |rest| ensures rest[i] != rest[j] {
      assert rest[i] == all[|front| + i] && rest[j] == all[|front| + j];
    }
  }

  /** What a drain does to the pools depends on the pools alone. */
  lemma {:induction false} RunAllPoolsOnly(u: Universe, v: Universe, cmds: seq<Command>)
    requires Runnable(u, cmds) && v.pools == u.pools
    ensures Runnable(v, cmds) && RunAll(v, cmds).pools == RunAll(u, cmds).pools
    decreases |cmds|
  {
    if |cmds| > 0 {
      RunnableTail(u, cmds);
      RunAllPoolsOnly(RunCommand(u, cmds[0]), RunCommand(v, cmds[0]), cmds[1..]);
    }
  }

  /** Draining one queue and then another is draining the two joined. */
  lemma {:induction false} RunAllAppend(u: Universe, a: seq<Command>, b: seq<Command>)
    requires Runnable(u, a + b)
    ensures Runnable(u, a) && Runnable(RunAll(u, a), b)
    ensures RunAll(u, a + b) == RunAll(RunAll(u, a), b)
    decreases |a|
  {
    RunnableAfter(u, a, b);
    if |a| == 0 {
      assert a + b == b;
    } else {
      assert (a + b)[0] == a[0] && (a + b)[1..] == a[1..] + b;
      RunnableTail(u, a + b);
      RunAllAppend(RunCommand(u, a[0]), a[1..], b);
    }
  }

  // ---------------------------------------------------------------- the frame loop

  /** The worlds of the universe listed once each: the iteration order of the world map,
      which the source leaves to the hash map. */
  ghost predicate Enumerates(u: Universe, order: seq<WorldId>) {
    Distinct(order)
    && forall w :: w in order <==> w in u.worlds
  }

  /** fixed_delta is 1 / fixed_fps; the fixed step is due once the accumulator reaches it.
      At zero fps the float division gives infinity, so the step is never due. */
  predicate FixedDue(elapsed: real, fps: real) {
    fps != 0.0 && elapsed >= 1.0 / fps
  }

  /** The enabled worlds among `order`, in order: the worlds a frame visits. */
  function EnabledIn(u: Universe, order: seq<WorldId>): (ws: seq<WorldId>)
    requires forall w :: w in order ==> w in u.worlds
    ensures forall w :: w in ws <==> w in order && u.worlds[w].enabled
    ensures |ws| <= |order|
  {
    if |order| == 0 then []
    else
      var w := order[0];
      assert w in order;
      (if u.worlds[w].enabled then [w] else []) + EnabledIn(u, order[1..])
  }

  /** The enabled worlds depend on the worlds alone. */
  lemma {:induction false} EnabledInWorlds(u: Universe, v: Universe, order: seq<WorldId>)
    requires v.worlds == u.worlds && forall w :: w in order ==> w in u.worlds
    ensures EnabledIn(v, order) == EnabledIn(u, order)
  {
    if |order| > 0 {
      assert order[0] in order;
      EnabledInWorlds(u, v, order[1..]);
    }
  }

  /** One call per world, in order. */
  function Calls(ws: seq<WorldId>, mk: WorldId -> Call): (calls: seq<Call>)
    ensures |calls| == |ws| && forall i :: 0 <= i < |ws| ==> calls[i] == mk(ws[i])
  {
    if |ws| == 0 then [] else [mk(ws[0])] + Calls(ws[1..], mk)
  }

  /** The calls of one fixed step: the systems of each enabled world, in order, stepping by
      fixed_delta. */
  function FixedCalls(u: Universe, order: seq<WorldId>): seq<Call>
    requires forall w :: w in order ==> w in u.worlds
    requires u.fixedFps != 0.0
  {
    Calls(EnabledIn(u, order), w => SystemsFixedUpdate(w, 1.0 / u.fixedFps))
  }

  /** universe::fixed_update: the systems of every enabled world take one fixed step of
      fixed_delta (the physics step is not modelled). */
  function FixedUpdate(u: Universe, order: seq<WorldId>): (r: Universe)
    requires Enumerates(u, order) && u.fixedFps != 0.0
    ensures r == u.(log := r.log) && r.log == u.log + FixedCalls(u, order)
    ensures forall w :: w in u.worlds ==>
              (SystemsFixedUpdate(w, 1.0 / u.fixedFps) in r.log[|u.log|..] <==> u.worlds[w].enabled)
    ensures forall c :: c in r.log[|u.log|..] ==> c.SystemsFixedUpdate? && c.dt == 1.0 / u.fixedFps
  {
    var ws := EnabledIn(u, order);
    var calls := FixedCalls(u, order);
    var r := u.(log := u.log + calls);
    assert r.log[|u.log|..] == calls;
    assert forall w :: w in u.worlds && u.worlds[w].enabled ==> w in ws;
    r
  }

  /** gameworld::update: drains the world's queue front to back, then updates its systems. */
  function WorldUpdate(u: Universe, w: WorldId, dt: real): (r: Universe)
    requires w in u.worlds && Runnable(u, u.worlds[w].commands)
    ensures r == u.(pools := r.pools, log := r.log, worlds := r.worlds) && r.pools.Keys == u.pools.Keys
    ensures r.log == u.log + Runs(u.worlds[w].commands) + [SystemsUpdate(w, dt)]
    ensures r.worlds == u.worlds[w := u.worlds[w].(commands := [])]
    ensures r.pools == RunAll(u, u.worlds[w].commands).pools
  {
    var v := RunAll(u, u.worlds[w].commands);
    v.(worlds := v.worlds[w := v.worlds[w].(commands := [])], log := v.log + [SystemsUpdate(w, dt)])
  }

  /** The world queues a frame drains, in the order it drains them: each enabled world's. */
  function Queues(u: Universe, order: seq<WorldId>): seq<Command>
    requires forall w :: w in order ==> w in u.worlds
  {
    if |order| == 0 then []
    else
      var w := order[0];
      assert w in order;
      (if u.worlds[w].enabled then u.worlds[w].commands else []) + Queues(u, order[1..])
  }

  /** The calls the world updates of one frame make, in order: for each enabled world, its
      queue's commands run front to back, then its systems' update. */
  function WorldCalls(u: Universe, order: seq<WorldId>, dt: real): seq<Call>
    requires forall w :: w in order ==> w in u.worlds
  {
    if |order| == 0 then []
    else
      var w := order[0];
      assert w in order;
      (if u.worlds[w].enabled then Runs(u.worlds[w].commands) + [SystemsUpdate(w, dt)] else [])
      + WorldCalls(u, order[1..], dt)
  }

  /** The queues, and the calls that draining them makes, are the same for worlds whose
      queue and flag did not change. */
  lemma {:induction false} QueuesUnchanged(u: Universe, v: Universe, order: seq<WorldId>, dt: real)
    requires forall w :: w in order ==> w in u.worlds && w in v.worlds
                                        && v.worlds[w].commands == u.worlds[w].commands
                                        && v.worlds[w].enabled == u.worlds[w].enabled
    ensures Queues(v, order) == Queues(u, order)
    ensures WorldCalls(v, order, dt) == WorldCalls(u, order, dt)
  {
    if |order| > 0 {
      assert order[0] in order;
      QueuesUnchanged(u, v, order[1..], dt);
    }
  }

  /** Draining a queue logs only command runs. */
  lemma {:induction false} RunsOnlyRun(cmds: seq<Command>)
    ensures forall c :: c in Runs(cmds) ==> c.Run?
  {
    if |cmds| > 0 {
      RunsOnlyRun(cmds[1..]);
    }
  }

  /** A frame's world updates call the systems of a world exactly when the world is listed
      and enabled. */
  lemma {:induction false} WorldCallsUpdate(u: Universe, order: seq<WorldId>, dt: real, w: WorldId)
    requires forall x :: x in order ==> x in u.worlds
    ensures SystemsUpdate(w, dt) in WorldCalls(u, order, dt) <==> w in order && u.worlds[w].enabled
  {
    if |order| > 0 {
      var x := order[0];
      assert x in order;
      WorldCallsUpdate(u, order[1..], dt, w);
      RunsOnlyRun(u.worlds[x].commands);
      assert w in order <==> w == x || w in order[1..];
    }
  }

  /** Updating the first listed world, when it is enabled, leaves the rest of the frame
      with the same queues to drain and the same calls to make. */
  lemma UpdateWorldsStep(u: Universe, order: seq<WorldId>, dt: real)
    requires |order| > 0 && Distinct(order)
    requires forall w :: w in order ==> w in u.worlds
    requires order[0] in u.worlds && u.worlds[order[0]].enabled
    requires Runnable(u, Queues(u, order))
    ensures Runnable(u, u.worlds[order[0]].commands)
    ensures var v := WorldUpdate(u, order[0], dt);
            && (forall x :: x in order[1..] ==> x in v.worlds)
            && Queues(v, order[1..]) == Queues(u, order[1..])
            && Runnable(v, Queues(u, order[1..]))
            && RunAll(v, Queues(u, order[1..])).pools == RunAll(u, Queues(u, order)).pools
            && v.log + WorldCalls(v, order[1..], dt) == u.log + WorldCalls(u, order, dt)
  {
    var w := order[0];
    var rest := order[1..];
    assert forall x :: x in rest ==> x in order && x != w;
    var q := u.worlds[w].commands;
    assert Queues(u, order) == q + Queues(u, rest);
    RunAllAppend(u, q, Queues(u, rest));
    var v := WorldUpdate(u, w, dt);
    QueuesUnchanged(u, v, rest, dt);
    RunAllPoolsOnly(RunAll(u, q), v, Queues(u, rest));
    UpdateWorldsStepLog(u, order, dt);
  }

  /** What the recursion of `UpdateWorlds` needs of the step above: the first queue runs,
      and the rest of the queues still run after it. */
  lemma UpdateWorldsStepRunnable(u: Universe, order: seq<WorldId>, dt: real)
    requires |order| > 0 && Distinct(order)
    requires forall w :: w in order ==> w in u.worlds
    requires order[0] in u.worlds && u.worlds[order[0]].enabled
    requires Runnable(u, Queues(u, order))
    ensures Runnable(u, u.worlds[order[0]].commands)
    ensures var v := WorldUpdate(u, order[0], dt);
            && (forall x :: x in order[1..] ==> x in v.worlds)
            && Runnable(v, Queues(v, order[1..]))
  {
    UpdateWorldsStep(u, order, dt);
  }

  /** The log half of the step above. */
  lemma UpdateWorldsStepLog(u: Universe, order: seq<WorldId>, dt: real)
    requires |order| > 0 && Distinct(order)
    requires forall w :: w in order ==> w in u.worlds
    requires order[0] in u.worlds && u.worlds[order[0]].enabled
    requires Runnable(u, u.worlds[order[0]].commands)
    ensures var v := WorldUpdate(u, order[0], dt);
            && (forall x :: x in order[1..] ==> x in v.worlds)
            && v.log + WorldCalls(v, order[1..], dt) == u.log + WorldCalls(u, order, dt)
  {
    var w := order[0];
    var rest := order[1..];
    assert forall x :: x in rest ==> x in order && x != w;
    var v := WorldUpdate(u, w, dt);
    QueuesUnchanged(u, v, rest, dt);
    var step := Runs(u.worlds[w].commands) + [SystemsUpdate(w, dt)];
    assert WorldCalls(u, order, dt) == step + WorldCalls(u, rest, dt);
    assert v.log == u.log + step;
    AppendAssoc(u.log, step, WorldCalls(u, rest, dt));
  }

  /** Joining sequences is associative. */
  lemma AppendAssoc<T>(a: seq<T>, b: seq<T>, c: seq<T>)
    ensures (a + b) + c == a + (b + c)
  {
  }

  /** The world updates of one frame, in order. */
  function UpdateWorlds(u: Universe, order: seq<WorldId>, dt: real): (r: Universe)
    requires Distinct(order)
    requires forall w :: w in order ==> w in u.worlds
    requires Runnable(u, Queues(u, order))
    ensures r == u.(pools := r.pools, log := r.log, worlds := r.worlds)
    ensures r.worlds.Keys == u.worlds.Keys
    ensures forall w :: w in u.worlds ==>
              r.worlds[w] == if w in order && u.worlds[w].enabled then u.worlds[w].(commands := []) else u.worlds[w]
    decreases |order|
  {
    if |order| == 0 then u
    else
      var w := order[0];
      assert w in order;
      var rest := order[1..];
      assert forall x :: x in rest ==> x in order && x != w;
      assert Queues(u, order) == (if u.worlds[w].enabled then u.worlds[w].commands else []) + Queues(u, rest);
      if u.worlds[w].enabled then
        UpdateWorldsStepRunnable(u, order, dt);
        UpdateWorlds(WorldUpdate(u, w, dt), rest, dt)
      else
        assert Queues(u, order) == Queues(u, rest);
        UpdateWorlds(u, rest, dt)
  }

  /** What the world pass logs and runs: the calls of `WorldCalls`, in that order, and the
      pools the concatenated world queues leave behind. */
  lemma {:induction false} UpdateWorldsLogsAndRuns(u: Universe, order: seq<WorldId>, dt: real)
    requires Distinct(order)
    requires forall w :: w in order ==> w in u.worlds
    requires Runnable(u, Queues(u, order))
    ensures UpdateWorlds(u, order, dt).log == u.log + WorldCalls(u, order, dt)
    ensures UpdateWorlds(u, order, dt).pools == RunAll(u, Queues(u, order)).pools
    decreases |order|
  {
    if |order| > 0 {
      var w := order[0];
      var rest := order[1..];
      assert forall x :: x in rest ==> x in order && x != w;
      if u.worlds[w].enabled {
        UpdateWorldsStep(u, order, dt);
        UpdateWorldsLogsAndRuns(WorldUpdate(u, w, dt), rest, dt);
      } else {
        assert Queues(u, order) == Queues(u, rest);
        assert WorldCalls(u, order, dt) == WorldCalls(u, rest, dt);
        UpdateWorldsLogsAndRuns(u, rest, dt);
      }
    }
  }

  /** The first part of universe::update: the universe's queue drained front to back, the
      clock and the fixed-step accumulator advanced by dt, and at most one fixed step
      taken, consuming one fixed delta. */
  function Advance(u: Universe, dt: real, order: seq<WorldId>): (r: Universe)
    requires Enumerates(u, order) && Runnable(u, u.commands)
    ensures r.worlds == u.worlds && r.objects == u.objects && r.nextId == u.nextId && r.fixedFps == u.fixedFps
    ensures r.pools == RunAll(u, u.commands).pools
    ensures r.time == u.time + dt && r.commands == []
    ensures r.fixedElapsed == if FixedDue(u.fixedElapsed + dt, u.fixedFps)
                              then u.fixedElapsed + dt - 1.0 / u.fixedFps else u.fixedElapsed + dt
    ensures r.log == u.log + Runs(u.commands)
                     + (if FixedDue(u.fixedElapsed + dt, u.fixedFps) then FixedCalls(u, order) else [])
  {
    var v1 := RunAll(u, u.commands).(commands := []);
    var v2 := v1.(time := v1.time + dt, fixedElapsed := v1.fixedElapsed + dt);
    if FixedDue(v2.fixedElapsed, v2.fixedFps) then
      EnabledInWorlds(u, v2, order);
      var v3 := FixedUpdate(v2, order).(fixedElapsed := v2.fixedElapsed - 1.0 / v2.fixedFps);
      v3
    else
      v2
  }

  /** The world queues are still runnable once the universe's own queue has been drained. */
  lemma AdvanceKeepsQueues(u: Universe, dt: real, order: seq<WorldId>)
    requires Enumerates(u, order) && Runnable(u, u.commands + Queues(u, order))
    ensures Runnable(u, u.commands)
    ensures Distinct(order) && (forall w :: w in order ==> w in Advance(u, dt, order).worlds)
    ensures Queues(Advance(u, dt, order), order) == Queues(u, order)
    ensures WorldCalls(Advance(u, dt, order), order, dt) == WorldCalls(u, order, dt)
    ensures Runnable(Advance(u, dt, order), Queues(u, order))
  {
    RunnableAfter(u, u.commands, Queues(u, order));
    QueuesUnchanged(u, Advance(u, dt, order), order, dt);
    RunAllPoolsOnly(RunAll(u, u.commands), Advance(u, dt, order), Queues(u, order));
  }

  /** universe::update: the universe's queue drained, the clock advanced, at most one fixed
      step, then every enabled world updated (its own queue drained, then its systems). */
  function Update(u: Universe, dt: real, order: seq<WorldId>): (r: Universe)
    requires Enumerates(u, order) && Runnable(u, u.commands + Queues(u, order))
    ensures r.time == u.time + dt && r.commands == [] && r.fixedFps == u.fixedFps
    ensures r.fixedElapsed == if FixedDue(u.fixedElapsed + dt, u.fixedFps)
                              then u.fixedElapsed + dt - 1.0 / u.fixedFps else u.fixedElapsed + dt
    ensures r.log == u.log + Runs(u.commands)
                     + (if FixedDue(u.fixedElapsed + dt, u.fixedFps) then FixedCalls(u, order) else [])
                     + WorldCalls(u, order, dt)
    ensures r.pools == RunAll(u, u.commands + Queues(u, order)).pools
    ensures r.worlds.Keys == u.worlds.Keys
    ensures forall w :: w in u.worlds ==>
              r.worlds[w] == if u.worlds[w].enabled then u.worlds[w].(commands := []) else u.worlds[w]
    ensures r.objects == u.objects && r.nextId == u.nextId
  {
    AdvanceKeepsQueues(u, dt, order);
    RunAllAppend(u, u.commands, Queues(u, order));
    var v := Advance(u, dt, order);
    RunAllPoolsOnly(RunAll(u, u.commands), v, Queues(u, order));
    UpdateWorldsLogsAndRuns(v, order, dt);
    UpdateWorlds(v, order, dt)
  }

  /** A frame never takes more than one fixed step per enabled world, and none for a
      disabled one. */
  lemma FixedStepAtMostOnce(u: Universe, order: seq<WorldId>, w: WorldId)
    requires Enumerates(u, order) && u.fixedFps != 0.0 && w in u.worlds
    ensures var calls := FixedUpdate(u, order).log[|u.log|..];
            (u.worlds[w].enabled ==> multiset(calls)[SystemsFixedUpdate(w, 1.0 / u.fixedFps)] == 1)
            && (!u.worlds[w].enabled ==> forall c :: c in calls ==> c.world != w)
  {
    var ws := EnabledIn(u, order);
    var calls := FixedUpdate(u, order).log[|u.log|..];
    EnabledDistinct(u, order);
    CallsCount(ws, x => SystemsFixedUpdate(x, 1.0 / u.fixedFps), w);
    assert calls == FixedCalls(u, order);
  }

  /** The enabled worlds of a list of distinct worlds are distinct. */
  lemma {:induction false} EnabledDistinct(u: Universe, order: seq<WorldId>)
    requires Distinct(order)
    requires forall w :: w in order ==> w in u.worlds
    ensures Distinct(EnabledIn(u, order))
  {
    if |order| > 0 {
      var w := order[0];
      assert w in order;
      var tail := EnabledIn(u, order[1..]);
      EnabledDistinct(u, order[1..]);
      assert forall x :: x in order[1..] ==> x != w;
      assert w !in tail;
      var ws := EnabledIn(u, order);
      assert ws == (if u.worlds[w].enabled then [w] else []) + tail;
      forall i, j | 0 <= i < j < |ws| ensures ws[i] != ws[j] {
        if u.worlds[w].enabled {
          if i == 0 {
            assert ws[0] == w;
            assert ws[j] == tail[j - 1];
            assert tail[j - 1] in tail;
          } else {
            assert ws[i] == tail[i - 1] && ws[j] == tail[j - 1];
          }
        } else {
          assert ws[i] == tail[i] && ws[j] == tail[j];
        }
      }
    }
  }

  /** Over distinct worlds, each world's call occurs exactly once, when `mk` tells worlds
      apart. */
  lemma {:induction false} CallsCount(ws: seq<WorldId>, mk: WorldId -> Call, w: WorldId)
    requires Distinct(ws)
    requires forall x, y :: mk(x) == mk(y) ==> x == y
    ensures multiset(Calls(ws, mk))[mk(w)] == if w in ws then 1 else 0
  {
    if |ws| > 0 {
      CallsCount(ws[1..], mk, w);
      assert Calls(ws, mk) == [mk(ws[0])] + Calls(ws[1..], mk);
      assert w in ws <==> w == ws[0] || w in ws[1..];
    }
  }

  /** universe::render: the systems of every enabled world render, in order. */
  function Render(u: Universe, order: seq<WorldId>): (r: Universe)
    requires Enumerates(u, order)
    ensures r == u.(log := r.log) && |r.log| >= |u.log| && r.log[..|u.log|] == u.log
    ensures forall w :: w in u.worlds ==> (SystemsRender(w) in r.log[|u.log|..] <==> u.worlds[w].enabled)
    ensures forall c :: c in r.log[|u.log|..] ==> c.SystemsRender?
  {
    var ws := EnabledIn(u, order);
    var calls := Calls(ws, w => SystemsRender(w));
    var r := u.(log := u.log + calls);
    assert r.log[|u.log|..] == calls && r.log[..|u.log|] == u.log;
    r
  }

  /** universe::ui: the systems of every enabled world draw their UI, in order. */
  function Ui(u: Universe, order: seq<WorldId>): (r: Universe)
    requires Enumerates(u, order)
    ensures r == u.(log := r.log) && |r.log| >= |u.log| && r.log[..|u.log|] == u.log
    ensures forall w :: w in u.worlds ==> (SystemsUi(w) in r.log[|u.log|..] <==> u.worlds[w].enabled)
    ensures forall c :: c in r.log[|u.log|..] ==> c.SystemsUi?
  {
    var ws := EnabledIn(u, order);
    var calls := Calls(ws, w => SystemsUi(w));
    var r := u.(log := u.log + calls);
    assert r.log[|u.log|..] == calls && r.log[..|u.log|] == u.log;
    r
  }
}

=== FILE: geometry.dfy ===
/** Small value types of the engine: integer pairs, float pairs and quadruples.
    Floats are modelled as reals; 32-bit overflow of int2 is not modelled. */
module Geometry {

  datatype Int2 = Int2(x: int, y: int)
  datatype Int4 = Int4(x: int, y: int, z: int, w: int)
  datatype Float2 = Float2(x: real, y: real)
  datatype Float4 = Float4(x: real, y: real, z: real, w: real)

  /** A float as IEEE 754 arithmetic leaves it: a finite value (held as a real), an
      infinity of either sign, or NaN. Only the divisions that can meet a zero divisor (the uv
      rectangles) need more than `real`. */
  datatype Float = Num(v: real) | Inf(negative: bool) | NaN

  /** Four floats: a uv rectangle (u0, v0, u1, v1). */
  datatype Uv = Uv(u0: Float, v0: Float, u1: Float, v1: Float)

  /** `a / b` on floats, where `b` came from an int (so a zero divisor is +0): the real
      quotient for a non-zero divisor; for a zero one, NaN when `a` is zero and otherwise an
      infinity with the sign of `a`. */
  function Quotient(a: real, b: real): (q: Float)
    ensures q.Num? <==> b != 0.0
    ensures q.Num? ==> q.v * b == a
    ensures q.NaN? <==> b == 0.0 && a == 0.0
    ensures q.Inf? ==> (q.negative <==> a < 0.0)
  {
    if b != 0.0 then Num(a / b) else if a == 0.0 then NaN else Inf(a < 0.0)
  }

  /** `1.0f - f`: finite values are flipped, an infinity changes sign and NaN stays NaN. */
  function OneMinus(f: Float): (r: Float)
    ensures r.Num? <==> f.Num?
    ensures r.Num? ==> r.v + f.v == 1.0
    ensures r.NaN? <==> f.NaN?
    ensures r.Inf? ==> f.Inf? && r.negative == !f.negative
  {
    match f
    case Num(v) => Num(1.0 - v)
    case Inf(negative) => Inf(!negative)
    case NaN => NaN
  }

  const Zero2: Float2 := Float2(0.0, 0.0)
  const One2: Float2 := Float2(1.0, 1.0)
  const White: Float4 := Float4(1.0, 1.0, 1.0, 1.0)

  /** C++ integer division: the quotient is truncated toward zero. */
  function TruncDiv(a: int, b: int): (q: int)
    requires b != 0
    ensures q * b == a - TruncRem(a, b)
    ensures if a >= 0 then 0 <= TruncRem(a, b) < Abs(b) else -Abs(b) < TruncRem(a, b) <= 0
  {
    if a >= 0 then (if b > 0 then a / b else -(a / -b))
    else (if b > 0 then -((-a) / b) else (-a) / (-b))
  }

  /** The remainder that goes with TruncDiv: it takes the sign of the dividend. */
  function TruncRem(a: int, b: int): int
    requires b != 0
  {
    if a >= 0 then a % Abs(b) else -((-a) % Abs(b))
  }

  function Abs(a: int): int {
    if a < 0 then -a else a
  }

  function Add(a: Int2, b: Int2): (r: Int2)
    ensures r.x - b.x == a.x && r.y - b.y == a.y
  {
    Int2(a.x + b.x, a.y + b.y)
  }

  function Sub(a: Int2, b: Int2): (r: Int2)
    ensures Add(r, b) == a
  {
    Int2(a.x - b.x, a.y - b.y)
  }

  /** `int2 * int2`, component by component: dividing a component by a non-zero factor
      gives back the other, with nothing truncated. */
  function Mul(a: Int2, b: Int2): (r: Int2)
    ensures b.x != 0 ==> TruncDiv(r.x, b.x) == a.x
    ensures b.y != 0 ==> TruncDiv(r.y, b.y) == a.y
  {
    TruncDivExact(a.x, b.x);
    TruncDivExact(a.y, b.y);
    Int2(a.x * b.x, a.y * b.y)
  }

  /** `int2 * int` is `int2 * int2` with the factor in both components, and `int2 / int`
      by the same non-zero factor undoes it. */
  function Scale(a: Int2, k: int): (r: Int2)
    ensures r == Mul(a, Int2(k, k))
    ensures k != 0 ==> DivInt(r, k) == a
  {
    Int2(a.x * k, a.y * k)
  }

  /** A multiple of a non-zero b divided by b with truncation is exact. */
  lemma TruncDivExact(a: int, b: int)
    ensures b != 0 ==> TruncDiv(a * b, b) == a
  {
    if b != 0 {
      var q := TruncDiv(a * b, b);
      var m := TruncRem(a * b, b);
      assert Abs(m) < Abs(b);
      Distribute(q, a, b);
      if q != a {
        AbsProduct(q - a, b);
      }
    }
  }

  /** Multiplication distributes over a difference. */
  lemma Distribute(x: int, y: int, z: int)
    ensures (x - y) * z == x * z - y * z
  {
  }

  /** |x * y| is at least |y| when x is non-zero. */
  lemma AbsProduct(x: int, y: int)
    requires x != 0
    ensures Abs(x * y) >= Abs(y)
  {
    if x > 0 && y > 0 { assert x * y >= y; }
    else if x > 0 && y < 0 { assert x * y <= y; }
    else if x < 0 && y > 0 { assert x * y <= -y; }
    else if x < 0 && y < 0 { assert x * y >= -y; }
  }

  /** `int2 / int`: each component divided with truncation toward zero. */
  function DivInt(a: Int2, k: int): (r: Int2)
    requires k != 0
    ensures r.x * k + TruncRem(a.x, k) == a.x && r.y * k + TruncRem(a.y, k) == a.y
  {
    Int2(TruncDiv(a.x, k), TruncDiv(a.y, k))
  }

  function ToFloat2(a: Int2): Float2 {
    Float2(a.x as real, a.y as real)
  }

  function AddF(a: Float2, b: Float2): Float2 {
    Float2(a.x + b.x, a.y + b.y)
  }

  /** Division rounds toward zero for negative components, unlike Euclidean division. */
  lemma DivIntTruncates()
    ensures DivInt(Int2(-7, 7), 2) == Int2(-3, 3)
    ensures DivInt(Int2(7, -7), -2) == Int2(-3, 3)
  {
  }
}

=== FILE: instancing.dfy ===
/** Instanced sprite drawing: a begun instancing context collects fixed-size records in the
    scratch buffer shared by all instancing contexts, and `end` draws them in one call. */
module Instancing {
  import opened Results
  import opened Geometry
  import opened Resources
  import opened Atlas
  import opened BufferPool
  import opened Render

  /** The 20 floats of one instance: translate, scale / rotation, width, height, 0 / uv
      rectangle / color / offset, 0, 0. Only the uv slots can hold a non-finite float. */
  function Record(position: Float2, scale: Float2, radians: real, size: Float2, uv: Uv,
                  color: Float4, offset: Float2): (rec: seq<Float>)
    ensures |rec| == INSTANCE_FORMAT_COUNT
  {
    [Num(position.x), Num(position.y), Num(scale.x), Num(scale.y),
     Num(radians), Num(size.x), Num(size.y), Num(0.0),
     uv.u0, uv.v0, uv.u1, uv.v1,
     Num(color.x), Num(color.y), Num(color.z), Num(color.w),
     Num(offset.x), Num(offset.y), Num(0.0), Num(0.0)]
  }

  /** Reading the fields back out of a record, as the instancing shader's five vec4
      attributes do. */
  function RecordPosition(rec: seq<Float>): (Float, Float) requires |rec| == 20 { (rec[0], rec[1]) }
  function RecordScale(rec: seq<Float>): (Float, Float) requires |rec| == 20 { (rec[2], rec[3]) }
  function RecordRadians(rec: seq<Float>): Float requires |rec| == 20 { rec[4] }
  function RecordSize(rec: seq<Float>): (Float, Float) requires |rec| == 20 { (rec[5], rec[6]) }
  function RecordUv(rec: seq<Float>): Uv requires |rec| == 20 { Uv(rec[8], rec[9], rec[10], rec[11]) }
  function RecordColor(rec: seq<Float>): Float4
    requires |rec| == 20 && rec[12].Num? && rec[13].Num? && rec[14].Num? && rec[15].Num?
  {
    Float4(rec[12].v, rec[13].v, rec[14].v, rec[15].v)
  }
  function RecordOffset(rec: seq<Float>): (Float, Float) requires |rec| == 20 { (rec[16], rec[17]) }

  /** Every field written is read back unchanged, and the padding slots are zero. */
  lemma RecordRoundTrip(position: Float2, scale: Float2, radians: real, size: Float2, uv: Uv,
                        color: Float4, offset: Float2)
    ensures var rec := Record(position, scale, radians, size, uv, color, offset);
            RecordPosition(rec) == (Num(position.x), Num(position.y))
            && RecordScale(rec) == (Num(scale.x), Num(scale.y))
            && RecordRadians(rec) == Num(radians) && RecordSize(rec) == (Num(size.x), Num(size.y))
            && RecordUv(rec) == uv && RecordColor(rec) == color
            && RecordOffset(rec) == (Num(offset.x), Num(offset.y))
            && rec[7] == Num(0.0) && rec[18] == Num(0.0) && rec[19] == Num(0.0)
  {
  }

  /** The arguments of the sprite-info overload of `instance`. */
  datatype InstanceArgs = InstanceArgs(sprite: Option<SpriteInfo>, position: Float2, scale: Float2,
                                       rotation: real, color: Float4, offset: Float2)

  /** The uv rectangle drawn when no sprite is given: the whole texture, v flipped. */
  const FullUv: Uv := Uv(Num(0.0), Num(1.0), Num(1.0), Num(0.0))

  predicate Begun(c: Context) {
    |c.instancing| > 0 && c.instancing[|c.instancing| - 1].begun
  }

  function TopState(c: Context): Instancing
    requires |c.instancing| > 0
  {
    c.instancing[|c.instancing| - 1]
  }

  /** Room for one more record in the shared buffer at the top context's count. */
  predicate HasRoom(c: Context)
    requires |c.instancing| > 0
  {
    (TopState(c).count + 1) * INSTANCE_FORMAT_COUNT <= |c.shareBuffer|
  }

  /** begin (both the argument-struct and the pointer overload): pushes a begun context on
      the given texture, or on the white texture when it is null. It never fails. */
  function Begin(c: Context, texture: Option<Texture>, t1: Option<Texture>, t2: Option<Texture>,
                 t3: Option<Texture>): (o: Outcome)
    ensures o.result == Ok && Begun(o.ctx)
    ensures o.ctx == c.(instancing := o.ctx.instancing) && |o.ctx.instancing| == |c.instancing| + 1
    ensures o.ctx.instancing[..|c.instancing|] == c.instancing
    ensures TopState(o.ctx) == Instancing(true, 0, if texture.Some? then texture.value else c.white, t1, t2, t3)
  {
    var tex := if texture.Some? then texture.value else c.white;
    Outcome(Ok, c.(instancing := c.instancing + [Instancing(true, 0, tex, t1, t2, t3)]))
  }

  /** begin on a mutable texture pointer: fails with code 1 when it is null; otherwise pushes
      a begun context on that texture alone. */
  function BeginTexture(c: Context, texture: Option<Texture>): (o: Outcome)
    ensures Failed(o.result) <==> texture.None?
    ensures Failed(o.result) ==> o.result == Fail(1, "invalid frame buffer") && o.ctx == c
    ensures Succeed(o.result) ==>
              o.ctx == c.(instancing := c.instancing + [Instancing(true, 0, texture.value, None, None, None)])
  {
    if texture.None? then Outcome(Fail(1, "invalid frame buffer"), c)
    else Outcome(Ok, c.(instancing := c.instancing + [Instancing(true, 0, texture.value, None, None, None)]))
  }

  /** Store one record at the top context's slot and count it. */
  function Write(c: Context, rec: seq<Float>): (r: Context)
    requires |c.instancing| > 0 && HasRoom(c) && |rec| == INSTANCE_FORMAT_COUNT
    ensures var base := TopState(c).count * INSTANCE_FORMAT_COUNT;
            |r.shareBuffer| == |c.shareBuffer|
            && r.shareBuffer[base..base + INSTANCE_FORMAT_COUNT] == rec
            && r.shareBuffer[..base] == c.shareBuffer[..base]
            && r.shareBuffer[base + INSTANCE_FORMAT_COUNT..] == c.shareBuffer[base + INSTANCE_FORMAT_COUNT..]
    ensures r.instancing == c.instancing[|c.instancing| - 1 := TopState(c).(count := TopState(c).count + 1)]
    ensures r == c.(shareBuffer := r.shareBuffer, instancing := r.instancing)
  {
    var top := TopState(c);
    var base := top.count * INSTANCE_FORMAT_COUNT;
    var buffer := c.shareBuffer[..base] + rec + c.shareBuffer[base + INSTANCE_FORMAT_COUNT..];
    assert buffer[base..base + INSTANCE_FORMAT_COUNT] == rec;
    assert buffer[..base] == c.shareBuffer[..base];
    assert buffer[base + INSTANCE_FORMAT_COUNT..] == c.shareBuffer[base + INSTANCE_FORMAT_COUNT..];
    c.(shareBuffer := buffer, instancing := c.instancing[|c.instancing| - 1 := top.(count := top.count + 1)])
  }

  /** The record the sprite-info overload writes: the sprite's size, uv rectangle and pivot
      (added to the given offset) when a sprite is given, else the context texture's size,
      the full uv rectangle and the given offset. */
  function RecordOf(tex: Texture, a: InstanceArgs): seq<Float> {
    var size := if a.sprite.Some? then a.sprite.value.size else TextureSize(tex);
    var uv := if a.sprite.Some? then a.sprite.value.uv else FullUv;
    var offset := if a.sprite.Some? then AddF(a.offset, a.sprite.value.offset) else a.offset;
    Record(a.position, a.scale, Radians(a.rotation), ToFloat2(size), uv, a.color, offset)
  }

  /** instance: fails with code 1 unless a begun context is on top; otherwise writes exactly
      one record at index count * 20 of the shared buffer and increments the count. The
      source does not check the buffer bound, hence the precondition. */
  function Instance(c: Context, a: InstanceArgs): (o: Outcome)
    requires Begun(c) ==> HasRoom(c)
    ensures Failed(o.result) <==> !Begun(c)
    ensures Failed(o.result) ==> o.result == Fail(1, "instancing not begun") && o.ctx == c
    ensures Succeed(o.result) ==>
              o.result == Ok
              && o.ctx == Write(c, RecordOf(TopState(c).texture, a))
              && TopState(o.ctx).count == TopState(c).count + 1
  {
    if !Begun(c) then Outcome(Fail(1, "instancing not begun"), c)
    else Outcome(Ok, Write(c, RecordOf(TopState(c).texture, a)))
  }

  /** instance on an animation player: fails with code 1 unless begun, with code 2 when the
      player has no sprite for its current frame; otherwise writes the sprite's size, uv
      rectangle and pivot. */
  function InstanceAnimated(c: Context, sprite: Option<SpriteInfo>, position: Float2, scale: Float2,
                            rotation: real, color: Float4): (o: Outcome)
    requires Begun(c) ==> HasRoom(c)
    ensures !Begun(c) ==> o.result == Fail(1, "instancing not begun") && o.ctx == c
    ensures Begun(c) && sprite.None? ==> o.result == Fail(2, "sprite info is null") && o.ctx == c
    ensures Succeed(o.result) <==> Begun(c) && sprite.Some?
    ensures Succeed(o.result) ==>
              o.ctx == Write(c, Record(position, scale, Radians(rotation), ToFloat2(sprite.value.size),
                                       sprite.value.uv, color, sprite.value.offset))
  {
    if !Begun(c) then Outcome(Fail(1, "instancing not begun"), c)
    else if sprite.None? then Outcome(Fail(2, "sprite info is null"), c)
    else Outcome(Ok, Write(c, Record(position, scale, Radians(rotation), ToFloat2(sprite.value.size),
                                     sprite.value.uv, color, sprite.value.offset)))
  }

  /** The uv rectangle of a pixel rectangle of the context texture, v flipped: the float
      rectangle divided by the texture size converted to float2, unguarded, so a texture
      side of zero gives infinities or NaN along that side. */
  function RectUv(tex: Texture, spritePos: Float2, spriteSize: Float2): (uv: Uv)
    ensures tex.width != 0 ==>
              uv.u0.Num? && uv.u1.Num?
              && uv.u0.v * tex.width as real == spritePos.x
              && uv.u1.v * tex.width as real == spritePos.x + spriteSize.x
    ensures tex.height != 0 ==>
              uv.v0.Num? && uv.v1.Num?
              && (1.0 - uv.v0.v) * tex.height as real == spritePos.y
              && (1.0 - uv.v1.v) * tex.height as real == spritePos.y + spriteSize.y
    ensures tex.width == 0 ==>
              !uv.u0.Num? && !uv.u1.Num?
              && (uv.u0.NaN? <==> spritePos.x == 0.0) && (uv.u1.NaN? <==> spritePos.x + spriteSize.x == 0.0)
    ensures tex.height == 0 ==>
              !uv.v0.Num? && !uv.v1.Num?
              && (uv.v0.NaN? <==> spritePos.y == 0.0) && (uv.v1.NaN? <==> spritePos.y + spriteSize.y == 0.0)
  {
    var w := tex.width as real;
    var h := tex.height as real;
    Uv(Quotient(spritePos.x, w), OneMinus(Quotient(spritePos.y, h)),
       Quotient(spritePos.x + spriteSize.x, w), OneMinus(Quotient(spritePos.y + spriteSize.y, h)))
  }

  /** instance on a pixel rectangle of the context texture: fails with code 1 unless begun;
      otherwise the uv rectangle is computed from the rectangle and the texture size,
      whatever that size is. */
  function InstanceRect(c: Context, spritePos: Float2, spriteSize: Float2, offset: Float2,
                        position: Float2, scale: Float2, rotation: real, color: Float4): (o: Outcome)
    requires Begun(c) ==> HasRoom(c)
    ensures Failed(o.result) <==> !Begun(c)
    ensures Failed(o.result) ==> o.result == Fail(1, "instancing not begun") && o.ctx == c
    ensures Succeed(o.result) ==>
              o.ctx == Write(c, Record(position, scale, Radians(rotation), spriteSize,
                                       RectUv(TopState(c).texture, spritePos, spriteSize), color, offset))
  {
    if !Begun(c) then Outcome(Fail(1, "instancing not begun"), c)
    else Outcome(Ok, Write(c, Record(position, scale, Radians(rotation), spriteSize,
                                     RectUv(TopState(c).texture, spritePos, spriteSize), color, offset)))
  }

  /** On a texture of size zero the record's uv slots hold infinities (NaN at a zero pixel
      coordinate) while every other slot is the finite value passed in. */
  lemma ZeroSizedRectUv(c: Context, color: Float4)
    requires Begun(c) && HasRoom(c) && TopState(c).texture.width == 0 && TopState(c).texture.height == 0
    ensures var o := InstanceRect(c, Float2(8.0, 0.0), Float2(16.0, 16.0), Zero2, Zero2, One2, 0.0, color);
            var base := TopState(c).count * INSTANCE_FORMAT_COUNT;
            var rec := o.ctx.shareBuffer[base..base + INSTANCE_FORMAT_COUNT];
            o.result == Ok && RecordUv(rec) == Uv(Inf(false), NaN, Inf(false), Inf(true))
            && RecordColor(rec) == color
  {
  }

  /** The program `end` draws with: the top of the program stack, else the instancing
      program. */
  function SelectedProgram(c: Context): string {
    if |c.programStack| == 0 then INSTANCING_PROGRAM_NAME else c.programStack[|c.programStack| - 1]
  }

  /** What `end` needs of the context to reach the draw without undefined behaviour: a
      camera to read the matrices from, the records inside the shared buffer, and an upload
      size that its buffer class can hold. */
  predicate CanDraw(c: Context)
    requires |c.instancing| > 0
  {
    var n := TopState(c).count;
    n * INSTANCE_FORMAT_COUNT <= |c.shareBuffer| && n * INSTANCE_FORMAT_SIZE < 0x4000_0000
    && (SelectedProgram(c) in c.programs && c.programs[SelectedProgram(c)].Some? ==> |c.cameras| > 0)
  }

  /** The GPU work of a non-empty `end` with program `p`: bind textures, check a buffer
      out of the pool, upload the records, draw, return the buffer. */
  function Submit(c: Context, s: Instancing, p: ProgramId): (r: Context)
    requires s.count * INSTANCE_FORMAT_COUNT <= |c.shareBuffer| && s.count * INSTANCE_FORMAT_SIZE < 0x4000_0000
    ensures var size := WordOf(s.count * INSTANCE_FORMAT_SIZE);
            var checkout := GetArrayBuffer(c.pool, size, GL_ARRAY_BUFFER, GL_DYNAMIC_DRAW);
            r.pool == ReleaseArrayBuffer(checkout.pool, checkout.buffer)
            && r.log == c.log + [UseProgram(p), BindTexture(0, s.texture)]
                        + MultiTextures(s.texture1, s.texture2, s.texture3)
                        + [DrawInstanced(p, checkout.buffer.id, c.shareBuffer[..s.count * INSTANCE_FORMAT_COUNT], s.count)]
    ensures r == c.(pool := r.pool, log := r.log)
  {
    var size := WordOf(s.count * INSTANCE_FORMAT_SIZE);
    var checkout := GetArrayBuffer(c.pool, size, GL_ARRAY_BUFFER, GL_DYNAMIC_DRAW);
    var records := c.shareBuffer[..s.count * INSTANCE_FORMAT_COUNT];
    var effects := [UseProgram(p), BindTexture(0, s.texture)] + MultiTextures(s.texture1, s.texture2, s.texture3)
                   + [DrawInstanced(p, checkout.buffer.id, records, s.count)];
    c.(pool := ReleaseArrayBuffer(checkout.pool, checkout.buffer), log := c.log + effects)
  }

  /** end: fails with code 1 unless a begun context is on top. Otherwise the context is
      popped first; with no records nothing is drawn; with records the program is looked up
      (inserting a null entry for a missing name) and a null program fails with code 2,
      the context staying popped. */
  function End(c: Context): (o: Outcome)
    requires Begun(c) && TopState(c).count > 0 ==> CanDraw(c)
    ensures Failed(o.result) <==>
              !Begun(c) || (TopState(c).count > 0 && LookupProgram(c.programs, SelectedProgram(c)).0.None?)
    ensures !Begun(c) ==> o.result == Fail(1, "instancing not begun") && o.ctx == c
    ensures Begun(c) ==> o.ctx.instancing == c.instancing[..|c.instancing| - 1]
    ensures Begun(c) && TopState(c).count == 0 ==> o == Outcome(Ok, c.(instancing := c.instancing[..|c.instancing| - 1]))
    ensures Begun(c) && TopState(c).count > 0 ==>
              o.ctx.programs == LookupProgram(c.programs, SelectedProgram(c)).1
              && (Failed(o.result) ==> o.result == Fail(2, "invalid program")
                                       && o.ctx == c.(instancing := o.ctx.instancing, programs := o.ctx.programs))
              && (Succeed(o.result) ==>
                    var p := LookupProgram(c.programs, SelectedProgram(c)).0.value;
                    |o.ctx.log| > 0
                    && o.ctx.log[|o.ctx.log| - 1].DrawInstanced?
                    && o.ctx.log[|o.ctx.log| - 1].program == p
                    && o.ctx.log[|o.ctx.log| - 1].records == c.shareBuffer[..TopState(c).count * INSTANCE_FORMAT_COUNT]
                    && o.ctx.log[|o.ctx.log| - 1].count == TopState(c).count
                    && o.ctx == Submit(c.(instancing := c.instancing[..|c.instancing| - 1], programs := o.ctx.programs),
                                       TopState(c), p))
    ensures Valid(c.pool) ==> Valid(o.ctx.pool)
    ensures o.ctx == c.(instancing := o.ctx.instancing, programs := o.ctx.programs, pool := o.ctx.pool,
                        log := o.ctx.log)
  {
    if !Begun(c) then Outcome(Fail(1, "instancing not begun"), c)
    else
      var s := TopState(c);
      var c1 := c.(instancing := c.instancing[..|c.instancing| - 1]);
      if s.count == 0 then Outcome(Ok, c1)
      else
        var (program, programs) := LookupProgram(c.programs, SelectedProgram(c));
        var c2 := c1.(programs := programs);
        if program.None? then Outcome(Fail(2, "invalid program"), c2)
        else Outcome(Ok, Submit(c2, s, program.value))
  }

  /** The upload of a non-empty `end` always fits the buffer it checks out. */
  lemma UploadFits(pool: Pool, count: nat)
    requires Valid(pool) && count * INSTANCE_FORMAT_SIZE < 0x4000_0000
    ensures var size := WordOf(count * INSTANCE_FORMAT_SIZE);
            size <= GetArrayBuffer(pool, size, GL_ARRAY_BUFFER, GL_DYNAMIC_DRAW).buffer.capacity
  {
    WordOfSmall(count * INSTANCE_FORMAT_SIZE);
    CheckoutFits(pool, WordOf(count * INSTANCE_FORMAT_SIZE), GL_ARRAY_BUFFER, GL_DYNAMIC_DRAW);
  }

  /** All instancing contexts share one scratch buffer: a context begun on top of one that
      already holds a record writes its first record over it. */
  lemma SharedBufferClobbers(c: Context, inner: Texture, a: InstanceArgs)
    requires Begun(c) && TopState(c).count == 1 && INSTANCE_FORMAT_COUNT <= |c.shareBuffer|
    ensures var c1 := Begin(c, Some(inner), None, None, None).ctx;
            var c2 := Instance(c1, a).ctx;
            c2.shareBuffer[..INSTANCE_FORMAT_COUNT] == RecordOf(inner, a)
  {
    var c1 := Begin(c, Some(inner), None, None, None).ctx;
    assert TopState(c1).count == 0 && HasRoom(c1);
  }
}

=== FILE: keyboard.dfy ===
/** Keyboard input: the last known state of every key, and the set of keys that went from
    released to pressed since the first-press set was last cleared. A key never set reads
    as released (`operator[]` value-initialises the missing entry). */
module Keyboard {
  /** Keys are the values of the key enumeration. */
  type Key = nat

  datatype KeyState = Release | Press

  datatype Keyboard = Keyboard(states: map<Key, KeyState>, firstPress: set<Key>)

  const Empty: Keyboard := Keyboard(map[], {})

  /** The state a key reads as. */
  function StateOf(kb: Keyboard, key: Key): KeyState {
    if key in kb.states then kb.states[key] else Release
  }

  /** key_state: the key's state; a missing key is inserted as released. */
  function GetKeyState(kb: Keyboard, key: Key): (r: (KeyState, Keyboard))
    ensures r.0 == StateOf(kb, key)
    ensures key in r.1.states && StateOf(r.1, key) == StateOf(kb, key)
    ensures forall k :: StateOf(r.1, k) == StateOf(kb, k)
    ensures r.1.firstPress == kb.firstPress
  {
    if key in kb.states then (kb.states[key], kb)
    else (Release, kb.(states := kb.states[key := Release]))
  }

  /** set_key_state: a released key that becomes pressed is recorded as a first press; the
      new state is stored in every case. */
  function SetKeyState(kb: Keyboard, key: Key, state: KeyState): (r: Keyboard)
    ensures StateOf(r, key) == state
    ensures forall k :: k != key ==> StateOf(r, k) == StateOf(kb, k)
    ensures r.firstPress == if StateOf(kb, key) == Release && state == Press
                            then kb.firstPress + {key} else kb.firstPress
  {
    var first := if StateOf(kb, key) == Release && state == Press then kb.firstPress + {key}
                 else kb.firstPress;
    Keyboard(kb.states[key := state], first)
  }

  /** clear_first_states: forgets every first press; the key states stay. */
  function ClearFirstStates(kb: Keyboard): (r: Keyboard)
    ensures r.firstPress == {} && r.states == kb.states
  {
    kb.(firstPress := {})
  }

  /** is_first_press. */
  predicate IsFirstPress(kb: Keyboard, key: Key) {
    key in kb.firstPress
  }

  /** Asking is_first_press after set_key_state: yes exactly when the key already was a
      first press, or this call took it from released to pressed; no other key's answer
      changes. */
  lemma FirstPressAfterSet(kb: Keyboard, key: Key, state: KeyState, other: Key)
    ensures IsFirstPress(SetKeyState(kb, key, state), key) <==>
              IsFirstPress(kb, key) || (StateOf(kb, key) == Release && state == Press)
    ensures other != key ==> (IsFirstPress(SetKeyState(kb, key, state), other) <==> IsFirstPress(kb, other))
  {
  }

  /** The keys of a poll, each with its new state. */
  datatype Reading = Reading(key: Key, state: KeyState)

  predicate DistinctKeys(readings: seq<Reading>) {
    forall i, j :: 0 <= i < j < |readings| ==> readings[i].key != readings[j].key
  }

  /** Applying the readings of one poll in order. */
  function SetAll(kb: Keyboard, readings: seq<Reading>): Keyboard
    decreases |readings|
  {
    if |readings| == 0 then kb
    else SetAll(SetKeyState(kb, readings[0].key, readings[0].state), readings[1..])
  }

  /** One frame's keyboard poll: clear the first presses, then set every key read. Every
      first press it leaves was read pressed in this poll. */
  function Poll(kb: Keyboard, readings: seq<Reading>): (r: Keyboard)
    ensures forall key :: IsFirstPress(r, key) ==>
              exists i :: 0 <= i < |readings| && readings[i] == Reading(key, Press)
  {
    var r := SetAll(ClearFirstStates(kb), readings);
    forall key | IsFirstPress(r, key)
      ensures exists i :: 0 <= i < |readings| && readings[i] == Reading(key, Press)
    {
      FirstPressesRead(ClearFirstStates(kb), readings, key);
    }
    r
  }

  /** A key that is a first press after a run of readings was one before, or one of the
      readings pressed it. */
  lemma {:induction false} FirstPressesRead(kb: Keyboard, readings: seq<Reading>, key: Key)
    ensures IsFirstPress(SetAll(kb, readings), key) ==>
              IsFirstPress(kb, key) || exists i :: 0 <= i < |readings| && readings[i] == Reading(key, Press)
    decreases |readings|
  {
    if |readings| > 0 {
      var kb1 := SetKeyState(kb, readings[0].key, readings[0].state);
      FirstPressesRead(kb1, readings[1..], key);
      if exists i :: 0 <= i < |readings[1..]| && readings[1..][i] == Reading(key, Press) {
        var i :| 0 <= i < |readings[1..]| && readings[1..][i] == Reading(key, Press);
        assert readings[i + 1] == Reading(key, Press);
      }
    }
  }

  /** After setting the readings of distinct keys, a key reads as its reading's state if it
      was read, and as before if not; a key is a first press exactly when it already was one,
      or it read released before and its reading is a press. */
  lemma {:induction false} SetAllEffect(kb: Keyboard, readings: seq<Reading>, key: Key)
    requires DistinctKeys(readings)
    ensures forall i :: 0 <= i < |readings| && readings[i].key == key ==>
              StateOf(SetAll(kb, readings), key) == readings[i].state
    ensures (forall i :: 0 <= i < |readings| ==> readings[i].key != key) ==>
              StateOf(SetAll(kb, readings), key) == StateOf(kb, key)
    ensures IsFirstPress(SetAll(kb, readings), key) <==>
              IsFirstPress(kb, key)
              || (StateOf(kb, key) == Release
                  && exists i :: 0 <= i < |readings| && readings[i] == Reading(key, Press))
    decreases |readings|
  {
    if |readings| > 0 {
      var kb1 := SetKeyState(kb, readings[0].key, readings[0].state);
      var rest := readings[1..];
      assert DistinctKeys(rest);
      SetAllEffect(kb1, rest, key);
      if readings[0].key == key {
        assert forall i :: 0 <= i < |rest| ==> rest[i].key != key;
      } else {
        forall i | 0 <= i < |readings| && readings[i].key == key
          ensures StateOf(SetAll(kb, readings), key) == readings[i].state
        {
          assert readings[i] == rest[i - 1];
        }
        if exists i :: 0 <= i < |readings| && readings[i] == Reading(key, Press) {
          var i :| 0 <= i < |readings| && readings[i] == Reading(key, Press);
          assert rest[i - 1] == readings[i];
        }
        if exists i :: 0 <= i < |rest| && rest[i] == Reading(key, Press) {
          var i :| 0 <= i < |rest| && rest[i] == Reading(key, Press);
          assert readings[i + 1] == rest[i];
        }
      }
    }
  }

  /** What a poll leaves: a key is a first press exactly when this poll read it pressed and
      the previous frame left it released. */
  lemma PollFirstPress(kb: Keyboard, readings: seq<Reading>, key: Key)
    requires DistinctKeys(readings)
    ensures IsFirstPress(Poll(kb, readings), key) <==>
              StateOf(kb, key) == Release
              && exists i :: 0 <= i < |readings| && readings[i] == Reading(key, Press)
  {
    SetAllEffect(ClearFirstStates(kb), readings, key);
  }

  /** Holding a key down over two polls reports its first press only in the first. */
  lemma HeldKeyPressesOnce(kb: Keyboard, key: Key)
    requires StateOf(kb, key) == Release
    ensures var kb1 := Poll(kb, [Reading(key, Press)]);
            IsFirstPress(kb1, key) && !IsFirstPress(Poll(kb1, [Reading(key, Press)]), key)
  {
    PollFirstPress(kb, [Reading(key, Press)], key);
    var kb1 := Poll(kb, [Reading(key, Press)]);
    SetAllEffect(ClearFirstStates(kb), [Reading(key, Press)], key);
    PollFirstPress(kb1, [Reading(key, Press)], key);
  }
}

=== FILE: memory_pool.dfy ===
/** The free-list object pool of the game layer: a vector of slots that never reallocates
    (creating past its reserved capacity is an assertion), a stack of freed slot indices
    reused last-in first-out, and use/free counts. A pointer into the pool is modelled as
    its slot index, so the source's pointer-to-index map is the identity on existing slots
    and is not stored. The element hooks `on_reused` and `on_free` are parameters. */
module MemoryPool {
  datatype MemoryPool<T> = MemoryPool(slots: seq<T>, free: seq<nat>, capacity: nat)

  /** A pool as constructed: no slots, no free entries, room for one slot. */
  function NewPool<T>(): (p: MemoryPool<T>)
    ensures Valid(p) && UseCount(p) == 0 && FreeCount(p) == 0 && p.capacity == 1
  {
    MemoryPool([], [], 1)
  }

  /** The free stack holds distinct existing slots, and the slots fit the capacity. */
  ghost predicate Valid<T>(p: MemoryPool<T>) {
    |p.slots| <= p.capacity
    && (forall i :: 0 <= i < |p.free| ==> p.free[i] < |p.slots|)
    && (forall i, j :: 0 <= i < j < |p.free| ==> p.free[i] != p.free[j])
  }

  /** A slot handed out and not yet returned. */
  predicate InUse<T>(p: MemoryPool<T>, slot: nat) {
    slot < |p.slots| && slot !in p.free
  }

  /** get_free_count. */
  function FreeCount<T>(p: MemoryPool<T>): nat {
    |p.free|
  }

  /** get_use_count: slots minus free entries (never negative in a valid pool). */
  function UseCount<T>(p: MemoryPool<T>): int {
    |p.slots| - |p.free|
  }

  /** reserve: std::vector::reserve only ever grows the capacity. */
  function Reserve<T>(p: MemoryPool<T>, capacity: nat): (r: MemoryPool<T>)
    ensures r.capacity >= capacity && r.capacity >= p.capacity
    ensures r.capacity == p.capacity || r.capacity == capacity
    ensures r == p.(capacity := r.capacity)
    ensures Valid(p) ==> Valid(r)
  {
    if capacity > p.capacity then p.(capacity := capacity) else p
  }

  /** Whether `create` can proceed: a freed slot to reuse (an existing slot, as every
      index on the free stack is), or spare capacity to append one (otherwise the source's
      capacity assertion fails). */
  predicate CanCreate<T>(p: MemoryPool<T>) {
    if |p.free| > 0 then p.free[|p.free| - 1] < |p.slots| else |p.slots| < p.capacity
  }

  /** create: reuses the most recently freed slot when there is one, otherwise appends
      `blank`; the slot's `on_reused` hook runs either way. */
  function Create<T>(p: MemoryPool<T>, blank: T, onReused: T -> T): (r: (MemoryPool<T>, nat))
    requires CanCreate(p)
    ensures r.1 < |r.0.slots| && r.0.capacity == p.capacity
    ensures |p.free| > 0 ==> r.1 == p.free[|p.free| - 1] && r.0.free == p.free[..|p.free| - 1]
                              && r.0.slots == p.slots[r.1 := onReused(p.slots[r.1])]
    ensures |p.free| == 0 ==> r.1 == |p.slots| && r.0.free == p.free
                              && r.0.slots == p.slots + [onReused(blank)]
    ensures Valid(p) ==> Valid(r.0) && !InUse(p, r.1) && InUse(r.0, r.1)
                         && (forall s :: s != r.1 ==> (InUse(r.0, s) <==> InUse(p, s)))
                         && UseCount(r.0) == UseCount(p) + 1
  {
    if |p.free| > 0 then
      var slot := p.free[|p.free| - 1];
      var free := p.free[..|p.free| - 1];
      assert Valid(p) ==> forall i :: 0 <= i < |free| ==> free[i] != slot;
      assert p.free == free + [slot];
      (MemoryPool(p.slots[slot := onReused(p.slots[slot])], free, p.capacity), slot)
    else
      (MemoryPool(p.slots + [onReused(blank)], p.free, p.capacity), |p.slots|)
  }

  /** destroy: runs the slot's `on_free` hook and pushes the slot on the free stack. The
      slot must be in use (the source asserts it is indexed, and in debug builds that it is
      in use; a double destroy would push the slot twice). */
  function Destroy<T>(p: MemoryPool<T>, slot: nat, onFree: T -> T): (r: MemoryPool<T>)
    requires InUse(p, slot)
    ensures r.slots == p.slots[slot := onFree(p.slots[slot])]
    ensures r.free == p.free + [slot] && r.capacity == p.capacity
    ensures !InUse(r, slot) && forall s :: s != slot ==> (InUse(r, s) <==> InUse(p, s))
    ensures UseCount(r) == UseCount(p) - 1 && FreeCount(r) == FreeCount(p) + 1
    ensures Valid(p) ==> Valid(r)
  {
    MemoryPool(p.slots[slot := onFree(p.slots[slot])], p.free + [slot], p.capacity)
  }

  /** The slot indices below `n`. */
  function Below(n: nat): (r: set<nat>)
    ensures forall x: nat :: x in r <==> x < n
    ensures |r| == n
  {
    if n == 0 then {} else Below(n - 1) + {n - 1}
  }

  /** A valid pool never has more free entries than slots: the use count is the number of
      slots in use. */
  lemma UseCountIsLiveSlots<T>(p: MemoryPool<T>)
    requires Valid(p)
    ensures UseCount(p) >= 0
    ensures UseCount(p) == |set s | s in Below(|p.slots|) && InUse(p, s)|
  {
    var freed := set x: nat | x in p.free;
    var all := Below(|p.slots|);
    DistinctCard(p.free);
    assert freed <= all;
    assert all == freed + (all - freed);
    assert (set s | s in all && InUse(p, s)) == all - freed;
  }

  /** The elements of a sequence of distinct elements are as many as the sequence. */
  lemma {:induction false} DistinctCard(xs: seq<nat>)
    requires forall i, j :: 0 <= i < j < |xs| ==> xs[i] != xs[j]
    ensures |set x: nat | x in xs| == |xs|
  {
    if |xs| > 0 {
      var init := xs[..|xs| - 1];
      DistinctCard(init);
      var a := set x: nat | x in init;
      var b := set x: nat | x in xs;
      assert xs == init + [xs[|xs| - 1]];
      assert b == a + {xs[|xs| - 1]};
      assert xs[|xs| - 1] !in a;
    }
  }

  /** Destroying a slot and creating again hands the same slot back, and the pool's
      bookkeeping is as it was. */
  lemma DestroyCreateReuses<T>(p: MemoryPool<T>, slot: nat, blank: T, onFree: T -> T, onReused: T -> T)
    requires Valid(p) && InUse(p, slot)
    ensures var q := Destroy(p, slot, onFree);
            var r := Create(q, blank, onReused);
            r.1 == slot && r.0.free == p.free && |r.0.slots| == |p.slots|
            && r.0.slots[slot] == onReused(onFree(p.slots[slot]))
  {
    var q := Destroy(p, slot, onFree);
    assert q.free[..|q.free| - 1] == p.free;
  }

  /** A sequence of creations from a blank pool hands out slots 0, 1, 2, ... in order. */
  lemma FreshSlotsInOrder<T>(blank: T, onReused: T -> T)
    ensures var p0 := Reserve(NewPool<T>(), 3);
            var r1 := Create(p0, blank, onReused);
            var r2 := Create(r1.0, blank, onReused);
            var r3 := Create(r2.0, blank, onReused);
            r1.1 == 0 && r2.1 == 1 && r3.1 == 2 && UseCount(r3.0) == 3
  {
  }

  // ---------------------------------------------------------------- clear

  /** clear as written: walks the slots in index order and skips a slot only when it is the
      current top of the free stack (popping it); every other slot gets `on_free`. Returns
      the slots `on_free` ran on. Afterwards the pool is empty. */
  function ClearHooksAsWritten(size: nat, free: seq<nat>, i: nat): (hooked: seq<nat>)
    requires i <= size
    ensures forall k :: 0 <= k < |hooked| ==> i <= hooked[k] < size
    decreases size - i
  {
    if i == size then []
    else if |free| > 0 && i == free[|free| - 1] then ClearHooksAsWritten(size, free[..|free| - 1], i + 1)
    else [i] + ClearHooksAsWritten(size, free, i + 1)
  }

  /** What clear evidently intends: `on_free` on exactly the slots in use, in index order. */
  function ClearHooks(size: nat, free: seq<nat>, i: nat): (hooked: seq<nat>)
    requires i <= size
    ensures forall s :: s in hooked <==> i <= s < size && s !in free
    decreases size - i
  {
    if i == size then []
    else if i in free then ClearHooks(size, free, i + 1)
    else [i] + ClearHooks(size, free, i + 1)
  }

  /** clear: the hooks run on the slots in use; then no slots, no free entries. */
  function Clear<T>(p: MemoryPool<T>): (r: (MemoryPool<T>, seq<nat>))
    ensures r.0 == MemoryPool([], [], p.capacity) && UseCount(r.0) == 0 && FreeCount(r.0) == 0
    ensures forall s :: s in r.1 <==> InUse(p, s)
  {
    (MemoryPool([], [], p.capacity), ClearHooks(|p.slots|, p.free, 0))
  }

  /** The same walk as written, for comparison. */
  function ClearAsWritten<T>(p: MemoryPool<T>): (r: (MemoryPool<T>, seq<nat>))
    ensures r.0 == MemoryPool([], [], p.capacity)
  {
    (MemoryPool([], [], p.capacity), ClearHooksAsWritten(|p.slots|, p.free, 0))
  }

  /** The written walk never misses a slot in use. */
  lemma {:induction false} AsWrittenHooksEveryLiveSlot(size: nat, free: seq<nat>, i: nat, s: nat)
    requires i <= s < size && s !in free
    ensures s in ClearHooksAsWritten(size, free, i)
    decreases size - i
  {
    if i < s {
      if |free| > 0 && i == free[|free| - 1] {
        assert forall x :: x in free[..|free| - 1] ==> x in free;
        AsWrittenHooksEveryLiveSlot(size, free[..|free| - 1], i + 1, s);
      } else {
        AsWrittenHooksEveryLiveSlot(size, free, i + 1, s);
      }
    } else {
      assert !(|free| > 0 && i == free[|free| - 1]);
    }
  }

  /** A free stack whose entries decrease from bottom to top, so it pops in increasing
      index order. */
  predicate PopsAscending(free: seq<nat>) {
    forall a, b :: 0 <= a < b < |free| ==> free[a] > free[b]
  }

  /** When the free stack pops in increasing index order, the written walk skips exactly
      the freed slots. */
  lemma {:induction false} AsWrittenCorrectWhenSorted(size: nat, free: seq<nat>, i: nat)
    requires i <= size && PopsAscending(free)
    requires forall k :: 0 <= k < |free| ==> i <= free[k] < size
    ensures ClearHooksAsWritten(size, free, i) == ClearHooks(size, free, i)
    decreases size - i
  {
    if i < size {
      var next, head := WalkStep(size, free, i);
      AsWrittenCorrectWhenSorted(size, next, i + 1);
    }
  }

  /** One step of both walks: the same slots come first, and the rest of the walk starts
      from the same free stack. */
  lemma WalkStep(size: nat, free: seq<nat>, i: nat) returns (next: seq<nat>, head: seq<nat>)
    requires i < size && PopsAscending(free)
    requires forall k :: 0 <= k < |free| ==> i <= free[k] < size
    ensures PopsAscending(next) && forall k :: 0 <= k < |next| ==> i + 1 <= next[k] < size
    ensures ClearHooksAsWritten(size, free, i) == head + ClearHooksAsWritten(size, next, i + 1)
    ensures ClearHooks(size, free, i) == head + ClearHooks(size, next, i + 1)
  {
    if |free| > 0 && i == free[|free| - 1] {
      next, head := free[..|free| - 1], [];
      SkipTop(size, free, i);
    } else {
      next, head := free, [i];
      SkipNone(size, free, i);
    }
  }

  /** The step of the walk at a slot on top of an ascending free stack. */
  lemma SkipTop(size: nat, free: seq<nat>, i: nat)
    requires i < size && PopsAscending(free)
    requires forall k :: 0 <= k < |free| ==> i <= free[k] < size
    requires |free| > 0 && i == free[|free| - 1]
    ensures PopsAscending(free[..|free| - 1])
    ensures forall k :: 0 <= k < |free| - 1 ==> i + 1 <= free[k] < size
    ensures ClearHooksAsWritten(size, free, i) == ClearHooksAsWritten(size, free[..|free| - 1], i + 1)
    ensures ClearHooks(size, free, i) == ClearHooks(size, free[..|free| - 1], i + 1)
  {
    var rest := free[..|free| - 1];
    assert forall k :: 0 <= k < |rest| ==> rest[k] == free[k] && free[k] > free[|free| - 1];
    assert free == rest + [i];
    SameHooks(size, free, rest, i + 1);
    assert i in free;
  }

  /** The step of the walk at a slot below every entry of an ascending free stack. */
  lemma SkipNone(size: nat, free: seq<nat>, i: nat)
    requires i < size && PopsAscending(free)
    requires forall k :: 0 <= k < |free| ==> i <= free[k] < size
    requires !(|free| > 0 && i == free[|free| - 1])
    ensures forall k :: 0 <= k < |free| ==> i + 1 <= free[k] < size
    ensures ClearHooksAsWritten(size, free, i) == [i] + ClearHooksAsWritten(size, free, i + 1)
    ensures ClearHooks(size, free, i) == [i] + ClearHooks(size, free, i + 1)
  {
    if |free| > 0 {
      assert forall k :: 0 <= k < |free| - 1 ==> free[k] > free[|free| - 1];
      assert free[|free| - 1] > i;
    }
    assert forall k :: 0 <= k < |free| ==> free[k] > i;
    assert i !in free;
  }

  /** Two free lists that agree from index `i` on give the same hooks from `i`. */
  lemma {:induction false} SameHooks(size: nat, a: seq<nat>, b: seq<nat>, i: nat)
    requires i <= size
    requires forall s :: i <= s < size ==> (s in a <==> s in b)
    ensures ClearHooks(size, a, i) == ClearHooks(size, b, i)
    decreases size - i
  {
    if i < size {
      SameHooks(size, a, b, i + 1);
    }
  }

  /** The walk as written runs `on_free` on a freed slot: reserve two slots, create slots 0
      and 1, destroy 0 then 1. The free stack is [0, 1] with 1 on top, so slot 0 is not
      recognised as free and its `on_free` runs a second time. */
  lemma ClearAsWrittenFreesTwice<T>(blank: T, hook: T -> T)
    ensures var p0 := Reserve(NewPool<T>(), 2);
            var c0 := Create(p0, blank, hook);
            var c1 := Create(c0.0, blank, hook);
            var p := Destroy(Destroy(c1.0, 0, hook), 1, hook);
            p.free == [0, 1] && !InUse(p, 0) && !InUse(p, 1)
            && ClearAsWritten(p).1 == [0]
            && Clear(p).1 == []
  {
    var p0 := Reserve(NewPool<T>(), 2);
    var c0 := Create(p0, blank, hook);
    var c1 := Create(c0.0, blank, hook);
    var p := Destroy(Destroy(c1.0, 0, hook), 1, hook);
    assert p.free == [0, 1];
    assert ClearHooks(2, [0, 1], 0) == [];
  }
}

=== FILE: mesh.dfy ===
/** Mesh submission: a begun mesh context collects vertices and 16-bit indices (in buffers
    shared by every mesh context), textures and attribute layouts, and `end` draws them. */
module Mesh {
  import opened Results
  import opened Resources
  import opened BufferPool
  import opened Render

  /** Indices are unsigned 16-bit. */
  const INDEX_MODULUS: nat := 0x1_0000

  predicate Begun(c: Context) {
    |c.meshes| > 0
  }

  function TopMesh(c: Context): Render.Mesh
    requires |c.meshes| > 0
  {
    c.meshes[|c.meshes| - 1]
  }

  function SetTopMesh(c: Context, m: Render.Mesh): (r: Context)
    requires |c.meshes| > 0
    ensures |r.meshes| == |c.meshes| && TopMesh(r) == m
  {
    c.(meshes := c.meshes[|c.meshes| - 1 := m])
  }

  const NotBegun: ImrResult := Fail(1, "not mesh begun")

  /** begin: pushes a fresh context, which by default uses the camera matrices. */
  function Begin(c: Context): (o: Outcome)
    ensures o.result == Ok && |o.ctx.meshes| == |c.meshes| + 1
    ensures TopMesh(o.ctx) == Render.Mesh(true, true, None, [], [])
    ensures o.ctx == c.(meshes := o.ctx.meshes) && o.ctx.meshes[..|c.meshes|] == c.meshes
  {
    Outcome(Ok, c.(meshes := c.meshes + [Render.Mesh(true, true, None, [], [])]))
  }

  /** use_program: fails with code 1 without a context and with code 2 for an unregistered
      name; otherwise selects and uses the program. A null registered program is
      dereferenced in the source. */
  function UseProgramNamed(c: Context, name: string): (o: Outcome)
    requires Begun(c) && name in c.programs ==> c.programs[name].Some?
    ensures !Begun(c) ==> o == Outcome(NotBegun, c)
    ensures Begun(c) && name !in c.programs ==> o == Outcome(Fail(2, "no such program"), c)
    ensures Succeed(o.result) <==> Begun(c) && name in c.programs
    ensures Succeed(o.result) ==>
              |o.ctx.meshes| == |c.meshes| && TopMesh(o.ctx).program == c.programs[name]
              && o.ctx.log == c.log + [UseProgram(c.programs[name].value)]
  {
    if !Begun(c) then Outcome(NotBegun, c)
    else if name !in c.programs then Outcome(Fail(2, "no such program"), c)
    else
      var p := c.programs[name];
      Outcome(Ok, Emit(SetTopMesh(c, TopMesh(c).(program := p)), [UseProgram(p.value)]))
  }

  /** set_use_projection_view_matrix: fails with code 1 without a context. */
  function SetUseProjectionView(c: Context, value: bool): (o: Outcome)
    ensures Failed(o.result) <==> !Begun(c)
    ensures !Begun(c) ==> o == Outcome(NotBegun, c)
    ensures Begun(c) ==> o == Outcome(Ok, SetTopMesh(c, TopMesh(c).(useProjectionView := value)))
  {
    if !Begun(c) then Outcome(NotBegun, c)
    else Outcome(Ok, SetTopMesh(c, TopMesh(c).(useProjectionView := value)))
  }

  /** Add `k` to every index, wrapping at 16 bits. */
  function Rebase(indices: seq<int>, k: int): (r: seq<int>)
    ensures |r| == |indices|
    ensures forall i :: 0 <= i < |indices| ==> r[i] == (indices[i] + k) % INDEX_MODULUS
  {
    if |indices| == 0 then [] else [(indices[0] + k) % INDEX_MODULUS] + Rebase(indices[1..], k)
  }

  /** The vertex count before a push: the accumulated floats over the stride, truncated to
      an unsigned short. */
  function PreviousVertexCount(vertices: seq<real>, stride: int): (n: nat)
    requires stride > 0
    ensures n < INDEX_MODULUS
  {
    (|vertices| / stride) % INDEX_MODULUS
  }

  /** push_meshes: fails with code 1 without a context. Otherwise appends the vertices and
      indices to the shared buffers and, when vertices were already accumulated, adds their
      count to every newly appended index. A zero stride divides by zero in the source. */
  function PushMeshes(c: Context, vertices: seq<real>, stride: int, indices: seq<int>): (o: Outcome)
    requires stride > 0
    ensures Failed(o.result) <==> !Begun(c)
    ensures !Begun(c) ==> o == Outcome(NotBegun, c)
    ensures Begun(c) ==>
              var k := PreviousVertexCount(c.meshVertices, stride);
              o.ctx.meshVertices == c.meshVertices + vertices
              && |o.ctx.meshIndices| == |c.meshIndices| + |indices|
              && o.ctx.meshIndices[..|c.meshIndices|] == c.meshIndices
              && (forall i :: 0 <= i < |indices| ==>
                    o.ctx.meshIndices[|c.meshIndices| + i] == if k > 0 then (indices[i] + k) % INDEX_MODULUS else indices[i])
              && o.ctx == c.(meshVertices := o.ctx.meshVertices, meshIndices := o.ctx.meshIndices)
  {
    if !Begun(c) then Outcome(NotBegun, c)
    else
      var k := PreviousVertexCount(c.meshVertices, stride);
      var added := if k > 0 then Rebase(indices, k) else indices;
      Outcome(Ok, c.(meshVertices := c.meshVertices + vertices, meshIndices := c.meshIndices + added))
  }

  /** set_texture: fails with code 1 without a context; otherwise records the texture (which
      may be null) for the given unit. */
  function SetTexture(c: Context, location: int, texture: Option<Texture>): (o: Outcome)
    ensures Failed(o.result) <==> !Begun(c)
    ensures !Begun(c) ==> o == Outcome(NotBegun, c)
    ensures Begun(c) ==>
              o.ctx == SetTopMesh(c, TopMesh(c).(textures := TopMesh(c).textures + [TextureSlot(location, texture)]))
  {
    if !Begun(c) then Outcome(NotBegun, c)
    else Outcome(Ok, SetTopMesh(c, TopMesh(c).(textures := TopMesh(c).textures + [TextureSlot(location, texture)])))
  }

  /** vertex_attrib_pointer: fails with code 1 without a context; otherwise records the
      attribute layout. */
  function VertexAttribPointer(c: Context, location: int, count: int, stride: int, offset: int): (o: Outcome)
    ensures Failed(o.result) <==> !Begun(c)
    ensures !Begun(c) ==> o == Outcome(NotBegun, c)
    ensures Begun(c) ==>
              o.ctx == SetTopMesh(c, TopMesh(c).(pointers := TopMesh(c).pointers + [AttribPointer(location, count, stride, offset)]))
  {
    if !Begun(c) then Outcome(NotBegun, c)
    else Outcome(Ok, SetTopMesh(c, TopMesh(c).(pointers := TopMesh(c).pointers + [AttribPointer(location, count, stride, offset)])))
  }

  /** set_uniform_mat4 / set_uniform_vec4: fails with code 1 without a context; otherwise
      uploads to the selected program, which the source dereferences. */
  function SetUniformData(c: Context, location: int, data: seq<real>): (o: Outcome)
    requires Begun(c) ==> TopMesh(c).program.Some?
    ensures Failed(o.result) <==> !Begun(c)
    ensures !Begun(c) ==> o == Outcome(NotBegun, c)
    ensures Begun(c) ==> o == Outcome(Ok, Emit(c, [SetUniform(TopMesh(c).program.value, location, data)]))
  {
    if !Begun(c) then Outcome(NotBegun, c)
    else Outcome(Ok, Emit(c, [SetUniform(TopMesh(c).program.value, location, data)]))
  }

  /** The texture loop of `end`: binds textures in order and stops at the first null one.
      The flag says whether the loop ran to completion. */
  function BindSlots(slots: seq<TextureSlot>): (r: (bool, seq<Effect>))
    ensures r.0 <==> forall i :: 0 <= i < |slots| ==> slots[i].texture.Some?
    ensures |r.1| <= |slots|
    ensures r.0 ==> |r.1| == |slots|
    ensures !r.0 ==> |r.1| < |slots| && slots[|r.1|].texture.None?
    ensures forall i :: 0 <= i < |r.1| ==>
              slots[i].texture.Some? && r.1[i] == BindTexture(slots[i].location, slots[i].texture.value)
  {
    if |slots| == 0 then (true, [])
    else if slots[0].texture.None? then (false, [])
    else
      var rest := BindSlots(slots[1..]);
      (rest.0, [BindTexture(slots[0].location, slots[0].texture.value)] + rest.1)
  }

  /** Whether the bound texture list has a null entry. */
  predicate HasNullTexture(m: Render.Mesh) {
    exists i :: 0 <= i < |m.textures| && m.textures[i].texture.None?
  }

  /** What `end` needs to run without undefined behaviour: a camera on the stack, and a
      program whenever it gets past the first texture; and upload sizes whose buffer classes
      can hold them. */
  predicate CanEnd(c: Context)
    requires Begun(c)
  {
    var m := TopMesh(c);
    |c.cameras| > 0
    && (m.program.None? ==> |m.textures| > 0 && m.textures[0].texture.None?)
    && |c.meshVertices| * 4 < 0x4000_0000 && |c.meshIndices| * 2 < 0x4000_0000
  }

  /** end: fails with code 1 without a context, and with code 1 at the first null texture,
      without popping. Otherwise draws the accumulated vertices and indices, returns both
      buffers to the pool, clears the shared buffers and pops. */
  function End(c: Context): (o: Outcome)
    requires Begun(c) ==> CanEnd(c)
    ensures !Begun(c) ==> o == Outcome(NotBegun, c)
    ensures Begun(c) && HasNullTexture(TopMesh(c)) ==>
              o.result == Fail(1, "no such texture or frame") && o.ctx.meshes == c.meshes
              && o.ctx.meshVertices == c.meshVertices && o.ctx.meshIndices == c.meshIndices
              && o.ctx.log == c.log + BindSlots(TopMesh(c).textures).1
    ensures Succeed(o.result) <==> Begun(c) && !HasNullTexture(TopMesh(c))
    ensures Succeed(o.result) ==>
              o.ctx.meshes == c.meshes[..|c.meshes| - 1]
              && o.ctx.meshVertices == [] && o.ctx.meshIndices == []
              && |o.ctx.log| > 0 && o.ctx.log[|o.ctx.log| - 1].DrawMesh?
              && o.ctx.log[|o.ctx.log| - 1].vertices == c.meshVertices
              && o.ctx.log[|o.ctx.log| - 1].indices == c.meshIndices
    ensures Valid(c.pool) ==> Valid(o.ctx.pool)
  {
    if !Begun(c) then Outcome(NotBegun, c)
    else
      var m := TopMesh(c);
      var bound := BindSlots(m.textures);
      if !bound.0 then Outcome(Fail(1, "no such texture or frame"), Emit(c, bound.1))
      else
        var p := m.program.value;
        var matrices := if m.useProjectionView then [SetUniform(p, 0, [])] else [];
        var vbo := GetArrayBuffer(c.pool, WordOf(|c.meshVertices| * 4), GL_ARRAY_BUFFER, GL_DYNAMIC_DRAW);
        var pointers := seq(|m.pointers|, i requires 0 <= i < |m.pointers| => SetAttribPointer(p, m.pointers[i]));
        var ibo := GetArrayBuffer(vbo.pool, WordOf(|c.meshIndices| * 2), GL_ELEMENT_ARRAY_BUFFER, GL_DYNAMIC_DRAW);
        var pool := ReleaseArrayBuffer(ReleaseArrayBuffer(ibo.pool, vbo.buffer), ibo.buffer);
        var effects := bound.1 + matrices + pointers
                       + [DrawMesh(p, vbo.buffer.id, ibo.buffer.id, c.meshVertices, c.meshIndices)];
        Outcome(Ok, Emit(c.(meshes := c.meshes[..|c.meshes| - 1], meshVertices := [], meshIndices := [], pool := pool), effects))
  }

  /** A successful `end` keeps the earlier log and first binds every texture slot, in slot
      order, on its own location, before the matrices, the layouts and the draw. */
  lemma EndBindsFirst(c: Context)
    requires Begun(c) && CanEnd(c) && !HasNullTexture(TopMesh(c))
    ensures var log := End(c).ctx.log;
            var slots := TopMesh(c).textures;
            |log| > |c.log| + |slots| && log[..|c.log|] == c.log
            && forall i :: 0 <= i < |slots| ==>
                 log[|c.log| + i] == BindTexture(slots[i].location, slots[i].texture.value)
  {
  }

  /** mesh::draw: begin, use the mesh program, push the vertices (8 floats each) and
      indices, bind the texture on unit 0, declare position/uv and color layouts, end.
      Only the result of end is returned. */
  function Draw(c: Context, vertices: seq<real>, indices: seq<int>, texture: Option<Texture>): (o: Outcome)
    requires MESH_PROGRAM_NAME in c.programs ==> c.programs[MESH_PROGRAM_NAME].Some?
    requires |c.cameras| > 0
    requires (|c.meshVertices| + |vertices|) * 4 < 0x4000_0000 && (|c.meshIndices| + |indices|) * 2 < 0x4000_0000
    requires MESH_PROGRAM_NAME !in c.programs ==> texture.None?
    ensures Failed(o.result) <==> texture.None?
    ensures texture.None? ==>
              o.result == Fail(1, "no such texture or frame") && |o.ctx.meshes| == |c.meshes| + 1
              && o.ctx.meshVertices == c.meshVertices + vertices
    ensures texture.Some? ==>
              |o.ctx.meshes| == |c.meshes| && o.ctx.meshVertices == []
              && |o.ctx.log| > 0 && o.ctx.log[|o.ctx.log| - 1].DrawMesh?
              && o.ctx.log[|o.ctx.log| - 1].vertices == c.meshVertices + vertices
  {
    var c1 := Begin(c).ctx;
    var c2 := UseProgramNamed(c1, MESH_PROGRAM_NAME).ctx;
    var c3 := PushMeshes(c2, vertices, 8, indices).ctx;
    var c4 := SetTexture(c3, 0, texture).ctx;
    var c5 := VertexAttribPointer(c4, 0, 4, 8, 0).ctx;
    var c6 := VertexAttribPointer(c5, 1, 4, 8, 4).ctx;
    End(c6)
  }

  /** Pushing 4 vertices with their indices and then 3 vertices with indices 0, 1, 2 stores
      4, 5, 6 for the second batch. */
  lemma PushTwoBatches(c: Context, v1: seq<real>, i1: seq<int>, v2: seq<real>)
    requires Begun(c) && |c.meshVertices| == 0 && |c.meshIndices| == 0
    requires |v1| == 4 * 8 && |v2| == 3 * 8
    ensures var c1 := PushMeshes(c, v1, 8, i1).ctx;
            var c2 := PushMeshes(c1, v2, 8, [0, 1, 2]).ctx;
            c2.meshIndices == i1 + [4, 5, 6]
  {
    PushOntoEmpty(c, v1, i1);
    PushAfterFour(PushMeshes(c, v1, 8, i1).ctx, v2);
  }

  /** With no accumulated vertices the pushed indices are stored as given. */
  lemma PushOntoEmpty(c: Context, vertices: seq<real>, indices: seq<int>)
    requires Begun(c) && |c.meshVertices| == 0 && |c.meshIndices| == 0
    ensures var r := PushMeshes(c, vertices, 8, indices).ctx;
            Begun(r) && r.meshVertices == vertices && r.meshIndices == indices
  {
    assert PreviousVertexCount(c.meshVertices, 8) == 0;
  }

  /** After four vertices of stride 8, indices 0, 1, 2 are stored as 4, 5, 6. */
  lemma PushAfterFour(c: Context, vertices: seq<real>)
    requires Begun(c) && |c.meshVertices| == 4 * 8
    ensures PushMeshes(c, vertices, 8, [0, 1, 2]).ctx.meshIndices == c.meshIndices + [4, 5, 6]
  {
    assert PreviousVertexCount(c.meshVertices, 8) == 4;
    var r := PushMeshes(c, vertices, 8, [0, 1, 2]).ctx.meshIndices;
    var n := |c.meshIndices|;
    assert |r| == n + 3 && r[..n] == c.meshIndices;
    assert r[n] == 4 && r[n + 1] == 5 && r[n + 2] == 6;
    assert r == r[..n] + [r[n], r[n + 1], r[n + 2]];
  }

  /** Without 16-bit wrap-around, every pushed index refers to the same vertex it referred to
      within its own batch: the rebased index minus the earlier vertex count. */
  lemma PushRebases(c: Context, vertices: seq<real>, stride: int, indices: seq<int>, i: int)
    requires Begun(c) && stride > 0
    requires |c.meshVertices| / stride < INDEX_MODULUS
    requires 0 <= i < |indices| && 0 <= indices[i] && indices[i] + |c.meshVertices| / stride < INDEX_MODULUS
    ensures PushMeshes(c, vertices, stride, indices).ctx.meshIndices[|c.meshIndices| + i]
            == indices[i] + |c.meshVertices| / stride
  {
    var n := |c.meshVertices| / stride;
    Below16(n);
    Below16(indices[i] + n);
    assert PreviousVertexCount(c.meshVertices, stride) == n;
  }

  /** A value that fits in 16 bits is its own truncation. */
  lemma Below16(x: int)
    requires 0 <= x < INDEX_MODULUS
    ensures x % INDEX_MODULUS == x
  {
  }
}

=== FILE: render.dfy ===
/** The renderer's global context: the stacks of begun cameras, viewports, blend functions,
    instancing, mesh and text states, the program registry, the buffer pool and the shared
    scratch buffers. GPU calls are not performed; each one is appended to `log` as an Effect. */
module Render {
  import opened Results
  import opened Geometry
  import opened Resources
  import opened Atlas
  import opened StateStack
  import opened BufferPool

  /** Blend factors, as defined by OpenGL ES 3.0. */
  const GL_ONE: int := 1
  const GL_SRC_ALPHA: int := 0x0302
  const GL_ONE_MINUS_SRC_ALPHA: int := 0x0303

  /** The names the engine registers its built-in programs under. */
  const INSTANCING_PROGRAM_NAME: string := "_IPN_"
  const TEXT_PROGRAM_NAME: string := "_TPN_"
  const LIGHT_PROGRAM_NAME: string := "_LPN_"
  const SPRITE_PROGRAM_NAME: string := "_SPN_"
  const MESH_PROGRAM_NAME: string := "_MPN_"
  const DEFFERED_PROGRAM_NAME: string := "_DPN_"
  const FOG_PROGRAM_NAME: string := "_FPN_"

  /** One instance record is 20 floats; the shared scratch buffer is sized with the record's
      byte size (80) as its element count, so it holds 100000 * 80 floats. */
  const MAX_INSTANCE_COUNT: nat := 100000
  const INSTANCE_FORMAT_COUNT: nat := 20
  const INSTANCE_FORMAT_SIZE: nat := 80
  const SHARE_BUFFER_LENGTH: nat := 8000000

  /** glm::pi<float>(), rounded to the nearest float. */
  const PI: real := 3.14159274

  datatype Viewport = Viewport(x: int, y: int, width: int, height: int)

  datatype BlendFunc = BlendFunc(src: int, dst: int)

  const AlphaBlend: BlendFunc := BlendFunc(GL_SRC_ALPHA, GL_ONE_MINUS_SRC_ALPHA)
  const AdditiveBlend: BlendFunc := BlendFunc(GL_ONE, GL_ONE)

  /** What the non-batched sprite path uploads as uniforms for one quad. */
  datatype Quad = Quad(position: Float2, scale: Float2, size: Int2, offset: Float2,
                       color: Float4, uv: Uv, radians: real)

  datatype AttribPointer = AttribPointer(location: int, count: int, stride: int, offset: int)

  /** The GPU calls the model keeps track of. */
  datatype Effect =
    | BindFrame(frame: Frame)
    | UnbindFrame(frame: Frame)
    | EnableBlend
    | SetViewport(viewport: Viewport)
    | SetBlendFunc(blend: BlendFunc)
    | UseProgram(program: ProgramId)
    | DestroyProgram(program: ProgramId)
    | BindTexture(unit: int, texture: Texture)
    | UnbindTexture(unit: int)
    | SetUniform(program: ProgramId, location: int, data: seq<real>)
    | SetAttribPointer(program: ProgramId, pointer: AttribPointer)
    | DrawSprite(program: ProgramId, quad: Quad)
    | DrawInstanced(program: ProgramId, buffer: nat, records: seq<Float>, count: nat)
    | DrawMesh(program: ProgramId, vertexBuffer: nat, indexBuffer: nat, vertices: seq<real>, indices: seq<int>)

  /** The arguments of one sprite draw; a `None` texture is a null pointer. */
  datatype DrawArgs = DrawArgs(texture: Option<Texture>, texture1: Option<Texture>,
                               texture2: Option<Texture>, texture3: Option<Texture>,
                               sprite: Option<SpriteInfo>, position: Float2, scale: Float2,
                               rotation: real, color: Float4, offset: Float2)

  /** A begun camera. Projection and view matrices are not modelled. */
  datatype Camera = Camera(begun: bool, frame: Frame, tryBatch: bool, batches: seq<DrawArgs>)

  datatype Instancing = Instancing(begun: bool, count: nat, texture: Texture,
                                   texture1: Option<Texture>, texture2: Option<Texture>,
                                   texture3: Option<Texture>)

  datatype TextureSlot = TextureSlot(location: int, texture: Option<Texture>)

  datatype Mesh = Mesh(begun: bool, useProjectionView: bool, program: Option<ProgramId>,
                       textures: seq<TextureSlot>, pointers: seq<AttribPointer>)

  /** A font as the renderer sees it: an identity, the glyph texture and the line height. */
  datatype Font = Font(id: nat, texture: Texture, height: nat)

  /** Each `seq` stack has its top as the last element. `programs` maps a name to a program
      or to a null entry (`None`). `meshVertices`/`meshIndices` are shared by every mesh
      context and `shareBuffer` by every instancing context. */
  datatype Context = Context(
    cameras: seq<Camera>,
    viewports: Stack<Viewport>,
    blends: Stack<BlendFunc>,
    instancing: seq<Instancing>,
    programStack: seq<string>,
    meshes: seq<Mesh>,
    texts: seq<Font>,
    white: Texture,
    programs: map<string, Option<ProgramId>>,
    pool: Pool,
    shareBuffer: seq<Float>,
    meshVertices: seq<real>,
    meshIndices: seq<int>,
    log: seq<Effect>)

  datatype Outcome = Outcome(result: ImrResult, ctx: Context)

  /** A freshly created context; program compilation and registration happen afterwards. */
  function Init(white: Texture): (c: Context)
    ensures |c.cameras| == 0 && |c.instancing| == 0 && |c.meshes| == 0 && |c.texts| == 0
    ensures c.viewports == StateStack.Empty() && c.blends == StateStack.Empty()
    ensures |c.shareBuffer| == SHARE_BUFFER_LENGTH && |c.log| == 0
  {
    Context([], StateStack.Empty(), StateStack.Empty(), [], [], [], [], white, map[], EmptyPool,
            seq(SHARE_BUFFER_LENGTH, _ => Num(0.0)), [], [], [])
  }

  function Emit(c: Context, effects: seq<Effect>): Context {
    c.(log := c.log + effects)
  }

  function Radians(degrees: real): real {
    degrees * PI / 180.0
  }

  /** bind_multi_textures: units 1 to 3 get the given textures; a null one unbinds its unit. */
  function MultiTextures(t1: Option<Texture>, t2: Option<Texture>, t3: Option<Texture>): (effects: seq<Effect>)
    ensures |effects| == 3
    ensures effects[0].BindTexture? <==> t1.Some?
    ensures effects[1].BindTexture? <==> t2.Some?
    ensures effects[2].BindTexture? <==> t3.Some?
    ensures forall i :: 0 <= i < 3 ==> (effects[i].BindTexture? || effects[i].UnbindTexture?) && effects[i].unit == i + 1
    ensures t1.Some? ==> effects[0].texture == t1.value
    ensures t2.Some? ==> effects[1].texture == t2.value
    ensures t3.Some? ==> effects[2].texture == t3.value
  {
    [if t1.Some? then BindTexture(1, t1.value) else UnbindTexture(1),
     if t2.Some? then BindTexture(2, t2.value) else UnbindTexture(2),
     if t3.Some? then BindTexture(3, t3.value) else UnbindTexture(3)]
  }

  /** `CTX->programs[name]`: a lookup that inserts a null entry for a missing name. */
  function LookupProgram(programs: map<string, Option<ProgramId>>, name: string): (r: (Option<ProgramId>, map<string, Option<ProgramId>>))
    ensures name in programs ==> r.0 == programs[name] && r.1 == programs
    ensures name !in programs ==> r.0 == None && r.1 == programs[name := None]
    ensures r.1.Keys == programs.Keys + {name}
  {
    if name in programs then (programs[name], programs) else (None, programs[name := None])
  }

  // ---------------------------------------------------------------- program registry

  /** regist_program: fails with code 1 when the name is already present (even as a null
      entry); otherwise stores the program. */
  function RegistProgram(c: Context, name: string, program: Option<ProgramId>): (o: Outcome)
    ensures Failed(o.result) <==> name in c.programs
    ensures Failed(o.result) ==> o.result == Fail(1, "already exist") && o.ctx == c
    ensures Succeed(o.result) ==> o.result == Ok && o.ctx == c.(programs := c.programs[name := program])
  {
    if name in c.programs then Outcome(Fail(1, "already exist"), c)
    else Outcome(Ok, c.(programs := c.programs[name := program]))
  }

  /** unregist_program: fails with code 1 on an absent name; otherwise destroys the program
      and removes the name. Destroying a null entry dereferences null in the source. */
  function UnregistProgram(c: Context, name: string): (o: Outcome)
    requires name in c.programs ==> c.programs[name].Some?
    ensures Failed(o.result) <==> name !in c.programs
    ensures Failed(o.result) ==> o.result == Fail(1, "not registered program") && o.ctx == c
    ensures Succeed(o.result) ==>
              o.ctx.programs == c.programs - {name}
              && o.ctx.log == c.log + [DestroyProgram(c.programs[name].value)]
              && o.ctx == c.(programs := o.ctx.programs, log := o.ctx.log)
  {
    if name !in c.programs then Outcome(Fail(1, "not registered program"), c)
    else Outcome(Ok, Emit(c.(programs := c.programs - {name}), [DestroyProgram(c.programs[name].value)]))
  }

  function PushProgram(c: Context, name: string): (r: Context)
    ensures r.programStack == c.programStack + [name]
    ensures r == c.(programStack := r.programStack)
  {
    c.(programStack := c.programStack + [name])
  }

  /** pop_program on an empty stack is undefined behaviour in the source. */
  function PopProgram(c: Context): (r: Context)
    requires |c.programStack| > 0
    ensures r.programStack + [c.programStack[|c.programStack| - 1]] == c.programStack
    ensures r == c.(programStack := r.programStack)
  {
    c.(programStack := c.programStack[..|c.programStack| - 1])
  }

  /** Registering then unregistering a fresh name restores the registry and destroys
      exactly the registered program. */
  lemma RegistThenUnregist(c: Context, name: string, p: ProgramId)
    requires name !in c.programs
    ensures var o1 := RegistProgram(c, name, Some(p));
            var o2 := UnregistProgram(o1.ctx, name);
            Succeed(o1.result) && Succeed(o2.result)
            && o2.ctx == c.(log := c.log + [DestroyProgram(p)])
  {
    var o1 := RegistProgram(c, name, Some(p));
    assert o1.ctx.programs - {name} == c.programs;
  }

  /** Looking up an unregistered name leaves a null entry behind, after which registering
      that name fails. */
  lemma LookupBlocksRegist(c: Context, name: string, p: Option<ProgramId>)
    requires name !in c.programs
    ensures var after := c.(programs := LookupProgram(c.programs, name).1);
            RegistProgram(after, name, p).result == Fail(1, "already exist")
  {
  }

  /** push_program then pop_program restores the context exactly. */
  lemma PushPopProgram(c: Context, name: string)
    ensures PopProgram(PushProgram(c, name)) == c
  {
    assert (c.programStack + [name])[..|c.programStack|] == c.programStack;
  }

  // ---------------------------------------------------------------- viewport and blend

  function PushViewport(c: Context, v: Viewport): (r: Context)
    ensures r.viewports == Push(c.viewports, v).stack
    ensures r == c.(viewports := r.viewports, log := r.log)
    ensures r.log == c.log + (if Push(c.viewports, v).applies.Some? then [SetViewport(v)] else [])
  {
    var s := Push(c.viewports, v);
    Emit(c.(viewports := s.stack), if s.applies.Some? then [SetViewport(v)] else [])
  }

  function PopViewport(c: Context): (r: Context)
    requires |c.viewports.items| > 0
    ensures r.viewports == Pop(c.viewports).stack
    ensures r == c.(viewports := r.viewports, log := r.log)
    ensures r.log == c.log + (if Pop(c.viewports).applies.Some? then [SetViewport(Pop(c.viewports).applies.value)] else [])
  {
    var s := Pop(c.viewports);
    Emit(c.(viewports := s.stack), if s.applies.Some? then [SetViewport(s.applies.value)] else [])
  }

  function PushBlendFunc(c: Context, b: BlendFunc): (r: Context)
    ensures r.blends == Push(c.blends, b).stack
    ensures r == c.(blends := r.blends, log := r.log)
    ensures r.log == c.log + (if Push(c.blends, b).applies.Some? then [SetBlendFunc(b)] else [])
  {
    var s := Push(c.blends, b);
    Emit(c.(blends := s.stack), if s.applies.Some? then [SetBlendFunc(b)] else [])
  }

  function PopBlendFunc(c: Context): (r: Context)
    requires |c.blends.items| > 0
    ensures r.blends == Pop(c.blends).stack
    ensures r == c.(blends := r.blends, log := r.log)
    ensures r.log == c.log + (if Pop(c.blends).applies.Some? then [SetBlendFunc(Pop(c.blends).applies.value)] else [])
  {
    var s := Pop(c.blends);
    Emit(c.(blends := s.stack), if s.applies.Some? then [SetBlendFunc(s.applies.value)] else [])
  }

  /** blend::push_addictive pushes (ONE, ONE). */
  function PushAdditive(c: Context): (o: Outcome)
    ensures o.result == Ok
    ensures o.ctx.blends.items == c.blends.items + [AdditiveBlend]
    ensures Coherent(c.blends) ==> Coherent(o.ctx.blends)
  {
    PushCoherent(c.blends, AdditiveBlend);
    Outcome(Ok, PushBlendFunc(c, AdditiveBlend))
  }

  /** blend::pop; popping an empty blend stack is undefined behaviour in the source. */
  function PopBlend(c: Context): (o: Outcome)
    requires |c.blends.items| > 0
    ensures o.result == Ok
    ensures o.ctx.blends.items == c.blends.items[..|c.blends.items| - 1]
    ensures Coherent(c.blends) ==> Coherent(o.ctx.blends)
  {
    PopCoherent(c.blends);
    Outcome(Ok, PopBlendFunc(c))
  }

  // ---------------------------------------------------------------- camera

  /** Every begun camera has its own viewport and blend function underneath it. */
  ghost predicate Nested(c: Context) {
    |c.cameras| <= |c.viewports.items| && |c.cameras| <= |c.blends.items| && AllBegun(c.cameras)
  }

  /** Every camera on the stack is begun, read from the top down. */
  ghost predicate AllBegun(cams: seq<Camera>) {
    |cams| == 0 || (cams[|cams| - 1].begun && AllBegun(cams[..|cams| - 1]))
  }

  function FrameViewport(f: Frame): Viewport {
    Viewport(0, 0, f.width, f.height)
  }

  /** camera::begin: binds the target, pushes a begun camera, a viewport covering the
      target and the alpha blend function, and enables blending. A null target is an
      assertion failure in the source, so a frame is always given. */
  function CameraBegin(c: Context, frame: Frame): (o: Outcome)
    ensures o.result == Ok
    ensures o.ctx.cameras == c.cameras + [Camera(true, frame, false, [])]
    ensures o.ctx.viewports.items == c.viewports.items + [FrameViewport(frame)]
    ensures o.ctx.blends.items == c.blends.items + [AlphaBlend]
    ensures Nested(c) ==> Nested(o.ctx)
    ensures Coherent(c.viewports) && Coherent(c.blends) ==> Coherent(o.ctx.viewports) && Coherent(o.ctx.blends)
  {
    PushCoherent(c.viewports, FrameViewport(frame));
    PushCoherent(c.blends, AlphaBlend);
    var c1 := Emit(c.(cameras := c.cameras + [Camera(true, frame, false, [])]), [BindFrame(frame)]);
    var c2 := PushViewport(c1, FrameViewport(frame));
    var c3 := Emit(c2, [EnableBlend]);
    Outcome(Ok, PushBlendFunc(c3, AlphaBlend))
  }

  /** camera::end: fails with code 1 unless a begun camera is on top; otherwise pops the
      camera, its blend function and its viewport, then unbinds the popped camera's target. */
  function CameraEnd(c: Context): (o: Outcome)
    requires |c.cameras| > 0 && c.cameras[|c.cameras| - 1].begun ==>
               |c.viewports.items| > 0 && |c.blends.items| > 0
    ensures Failed(o.result) <==> |c.cameras| == 0 || !c.cameras[|c.cameras| - 1].begun
    ensures Failed(o.result) ==> o.result == Fail(1, "imr::camera::begin not called") && o.ctx == c
    ensures Succeed(o.result) ==>
              o.result == Ok
              && o.ctx.cameras == c.cameras[..|c.cameras| - 1]
              && o.ctx.viewports.items == c.viewports.items[..|c.viewports.items| - 1]
              && o.ctx.blends.items == c.blends.items[..|c.blends.items| - 1]
              && |o.ctx.log| > 0 && o.ctx.log[|o.ctx.log| - 1] == UnbindFrame(c.cameras[|c.cameras| - 1].frame)
    ensures Nested(c) ==> Nested(o.ctx)
    ensures Coherent(c.viewports) && Coherent(c.blends) ==> Coherent(o.ctx.viewports) && Coherent(o.ctx.blends)
  {
    if |c.cameras| == 0 || !c.cameras[|c.cameras| - 1].begun then
      Outcome(Fail(1, "imr::camera::begin not called"), c)
    else
      PopCoherent(c.viewports);
      PopCoherent(c.blends);
      var top := c.cameras[|c.cameras| - 1];
      var c1 := c.(cameras := c.cameras[..|c.cameras| - 1]);
      var c2 := PopViewport(PopBlendFunc(c1));
      Outcome(Ok, Emit(c2, [UnbindFrame(top.frame)]))
  }

  /** The stacks camera begin and end act on. */
  function Shape(c: Context): (seq<Camera>, seq<Viewport>, seq<BlendFunc>) {
    (c.cameras, c.viewports.items, c.blends.items)
  }

  /** Begin every frame in turn. */
  function BeginAll(c: Context, frames: seq<Frame>): (r: Context)
    ensures |r.cameras| == |c.cameras| + |frames|
    ensures Nested(c) ==> Nested(r)
    decreases |frames|
  {
    if |frames| == 0 then c else BeginAll(CameraBegin(c, frames[0]).ctx, frames[1..])
  }

  /** End the top `n` cameras: exactly the top n entries of each of the three stacks go. */
  function EndN(c: Context, n: nat): (r: Context)
    requires Nested(c) && n <= |c.cameras|
    ensures Nested(r)
    ensures r.cameras == c.cameras[..|c.cameras| - n]
    ensures r.viewports.items == c.viewports.items[..|c.viewports.items| - n]
    ensures r.blends.items == c.blends.items[..|c.blends.items| - n]
    decreases n
  {
    if n == 0 then c
    else
      var c1 := CameraEnd(c).ctx;
      EndPopsAll(c);
      TakeOfTake(c.cameras, |c.cameras| - 1, |c.cameras| - n);
      TakeOfTake(c.viewports.items, |c.viewports.items| - 1, |c.viewports.items| - n);
      TakeOfTake(c.blends.items, |c.blends.items| - 1, |c.blends.items| - n);
      assert |c1.viewports.items| - (n - 1) == |c.viewports.items| - n;
      assert |c1.blends.items| - (n - 1) == |c.blends.items| - n;
      EndN(c1, n - 1)
  }

  /** Ending a camera of a nested context pops one entry off each of the three stacks. */
  lemma EndPopsAll(c: Context)
    requires Nested(c) && |c.cameras| > 0
    ensures Nested(CameraEnd(c).ctx)
    ensures CameraEnd(c).ctx.cameras == c.cameras[..|c.cameras| - 1]
    ensures CameraEnd(c).ctx.viewports.items == c.viewports.items[..|c.viewports.items| - 1]
    ensures CameraEnd(c).ctx.blends.items == c.blends.items[..|c.blends.items| - 1]
  {
    assert c.cameras[|c.cameras| - 1].begun;
  }

  lemma TakeOfTake<T>(s: seq<T>, a: nat, b: nat)
    requires b <= a <= |s|
    ensures s[..a][..b] == s[..b]
  {
  }

  /** Beginning cameras for n frames pushes exactly n entries on each of the three stacks
      and leaves what was below untouched. */
  lemma {:induction false} BeginAllPushes(c: Context, frames: seq<Frame>)
    ensures |BeginAll(c, frames).viewports.items| == |c.viewports.items| + |frames|
    ensures |BeginAll(c, frames).blends.items| == |c.blends.items| + |frames|
    ensures BeginAll(c, frames).cameras[..|c.cameras|] == c.cameras
    ensures BeginAll(c, frames).viewports.items[..|c.viewports.items|] == c.viewports.items
    ensures BeginAll(c, frames).blends.items[..|c.blends.items|] == c.blends.items
    decreases |frames|
  {
    if |frames| > 0 {
      var c1 := CameraBegin(c, frames[0]).ctx;
      BeginAllPushes(c1, frames[1..]);
      var r := BeginAll(c1, frames[1..]);
      assert BeginAll(c, frames) == r;
      TakeOfTake(r.cameras, |c1.cameras|, |c.cameras|);
      TakeOfTake(r.viewports.items, |c1.viewports.items|, |c.viewports.items|);
      TakeOfTake(r.blends.items, |c1.blends.items|, |c.blends.items|);
    }
  }

  /** One begin followed by one end restores the shape. */
  lemma BeginEndShape(c: Context, f: Frame)
    requires Nested(c)
    ensures Shape(CameraEnd(CameraBegin(c, f).ctx).ctx) == Shape(c)
  {
    var c1 := CameraBegin(c, f).ctx;
    EndPopsAll(c1);
    assert c1.cameras[..|c1.cameras| - 1] == c.cameras;
    assert c1.viewports.items[..|c1.viewports.items| - 1] == c.viewports.items;
    assert c1.blends.items[..|c1.blends.items| - 1] == c.blends.items;
  }

  /** N camera begins followed by N ends restore the camera, viewport and blend stacks. */
  lemma BeginsThenEndsRestore(c: Context, frames: seq<Frame>)
    requires Nested(c)
    ensures Shape(EndN(BeginAll(c, frames), |frames|)) == Shape(c)
  {
    RestoresCameras(c, frames);
    RestoresStates(c, frames);
  }

  lemma RestoresCameras(c: Context, frames: seq<Frame>)
    requires Nested(c)
    ensures EndN(BeginAll(c, frames), |frames|).cameras == c.cameras
  {
    var r := BeginAll(c, frames);
    BeginAllPushes(c, frames);
    DropPushed(r.cameras, c.cameras, |frames|);
  }

  lemma RestoresStates(c: Context, frames: seq<Frame>)
    requires Nested(c)
    ensures EndN(BeginAll(c, frames), |frames|).viewports.items == c.viewports.items
    ensures EndN(BeginAll(c, frames), |frames|).blends.items == c.blends.items
  {
    BeginAllPushes(c, frames);
    EndNAfterPushes(BeginAll(c, frames), c, |frames|);
  }

  /** Ending the n cameras begun on top of `c` gives back c's viewport and blend stacks. */
  lemma EndNAfterPushes(r: Context, c: Context, n: nat)
    requires Nested(r) && n <= |r.cameras|
    requires |r.viewports.items| == |c.viewports.items| + n && r.viewports.items[..|c.viewports.items|] == c.viewports.items
    requires |r.blends.items| == |c.blends.items| + n && r.blends.items[..|c.blends.items|] == c.blends.items
    ensures EndN(r, n).viewports.items == c.viewports.items
    ensures EndN(r, n).blends.items == c.blends.items
  {
    DropPushed(r.viewports.items, c.viewports.items, n);
    DropPushed(r.blends.items, c.blends.items, n);
  }

  /** Dropping the n entries pushed on top of a stack gives back the stack below them. */
  lemma DropPushed<T>(s: seq<T>, below: seq<T>, n: nat)
    requires |s| == |below| + n && s[..|below|] == below
    ensures s[..|s| - n] == below
  {
  }
}

=== FILE: results.dfy ===
/** The engine's uniform return value: a success flag, an error code and a message.
    Every fallible operation of the renderer returns one of these. */
module Results {

  datatype Option<+T> = None | Some(value: T)

  datatype ResultType = SuccessType | FailType

  datatype ImrResult = ImrResult(kind: ResultType, errorCode: int, msg: string)

  /** A default-constructed result: success, code 0, empty message. */
  const Ok: ImrResult := ImrResult(SuccessType, 0, "")

  function Fail(code: int, msg: string): ImrResult {
    ImrResult(FailType, code, msg)
  }

  /** succeed: the result type is success. With two result types, a result succeeds
      exactly when it has not failed, and a default-constructed result succeeds. */
  predicate Succeed(r: ImrResult)
    ensures Succeed(r) <==> !Failed(r)
    ensures r == Ok ==> Succeed(r)
  {
    r.kind == SuccessType
  }

  /** failed: the result type is fail. Exactly the results `Fail` builds have failed. */
  predicate Failed(r: ImrResult)
    ensures Failed(r) <==> r == Fail(r.errorCode, r.msg)
  {
    r.kind == FailType
  }

  /** The early-return macro: the enclosing function returns `r` when it failed,
      and otherwise carries on with `rest`. */
  function Propagate(r: ImrResult, rest: ImrResult): (out: ImrResult)
    ensures Failed(r) ==> out == r
    ensures Succeed(r) ==> out == rest
  {
    if r.kind == FailType then r else rest
  }

  /** A run of steps each guarded by the early-return macro, then `rest`. */
  function Chain(steps: seq<ImrResult>, rest: ImrResult): ImrResult {
    if |steps| == 0 then rest else Propagate(steps[0], Chain(steps[1..], rest))
  }

  /** A guarded run returns its first failed step, or `rest` when every step succeeded. */
  lemma {:induction false} ChainFirstFailure(steps: seq<ImrResult>, rest: ImrResult, k: nat)
    requires k <= |steps| && forall i :: 0 <= i < k ==> Succeed(steps[i])
    ensures k < |steps| && Failed(steps[k]) ==> Chain(steps, rest) == steps[k]
    ensures k == |steps| ==> Chain(steps, rest) == rest
    decreases k
  {
    if k > 0 {
      ChainFirstFailure(steps[1..], rest, k - 1);
    }
  }
}

=== FILE: scene.dfy ===
/** The scene manager: one current scene, one scene prepared while the graphics device is
    invalid, the resolution passed to rendering, and the lifecycle calls it makes on scenes.
    A scene is a handle; what a scene does in its callbacks is user code, except that its
    update may switch to another scene, which `react` says (a scene's update switching to
    `react(s)` when that is some scene). The frame clock is not modelled. */
module Scenes {
  import opened Results
  import opened Geometry

  type SceneId = nat

  /** The lifecycle calls made on scenes, in order. */
  datatype SceneCall =
    | Begin(scene: SceneId)
    | End(scene: SceneId)
    | Load(scene: SceneId)
    | Unload(scene: SceneId)
    | UpdateScene(scene: SceneId)
    | RenderScene(scene: SceneId, resolution: Int2)
    | UiScene(scene: SceneId, resolution: Int2)

  /** `managed` holds the scenes whose manager pointer points at this manager. */
  datatype Manager = Manager(deviceValid: bool, scene: Option<SceneId>, prepared: Option<SceneId>,
                             resolution: Int2, managed: set<SceneId>, log: seq<SceneCall>)

  /** What a scene's update does: switch to another scene, or not. */
  type Reaction = SceneId -> Option<SceneId>

  const DEFAULT_RESOLUTION: Int2 := Int2(1024, 720)

  /** A new manager: the device invalid, no current or prepared scene, the default
      resolution. */
  function NewManager(): (m: Manager)
    ensures !m.deviceValid && m.scene == None && m.prepared == None
    ensures m.resolution == Int2(1024, 720) && m.managed == {} && m.log == []
  {
    Manager(false, None, None, DEFAULT_RESOLUTION, {}, [])
  }

  /** Scene changes made from updates come to rest within `fuel` changes starting at `s`.
      A chain that never rests would recurse without end in the source. */
  predicate Settles(react: Reaction, s: SceneId, fuel: nat)
    decreases fuel
  {
    react(s).None? || (fuel > 0 && Settles(react, react(s).value, fuel - 1))
  }

  /** The scene the chain of changes starting at `s` comes to rest on. */
  function Final(react: Reaction, s: SceneId, fuel: nat): (f: SceneId)
    requires Settles(react, s, fuel)
    ensures react(f).None?
    decreases fuel
  {
    if react(s).None? then s else Final(react, react(s).value, fuel - 1)
  }

  /** A scene is where its chain rests exactly when its update does not switch. */
  lemma FinalIsSelf(react: Reaction, s: SceneId, fuel: nat)
    requires Settles(react, s, fuel)
    ensures Final(react, s, fuel) == s <==> react(s).None?
  {
  }

  /** The manager keeps exactly its current scene attached. */
  predicate Attached(m: Manager) {
    m.managed == if m.scene.Some? then {m.scene.value} else {}
  }

  /** What change_scene needs: with the device valid the new scene is a scene (it is
      dereferenced) whose changes come to rest. */
  predicate CanChange(m: Manager, scene: Option<SceneId>, react: Reaction, fuel: nat) {
    m.deviceValid ==> scene.Some? && Settles(react, scene.value, fuel)
  }

  /** change_scene: with the device invalid the scene is only cached as the prepared scene
      (replacing any earlier one). Otherwise the old scene is ended, unloaded and detached,
      the new one attached, loaded and begun, and one update runs at once. */
  function ChangeScene(m: Manager, scene: Option<SceneId>, react: Reaction, fuel: nat): (r: (ImrResult, Manager))
    requires CanChange(m, scene, react, fuel)
    ensures !m.deviceValid ==> r == (ImrResult(SuccessType, 0, "scene cached."), m.(prepared := scene))
    ensures m.deviceValid ==>
              var s := scene.value;
              var prefix := m.log + (if m.scene.Some? then [End(m.scene.value), Unload(m.scene.value)] else [])
                            + [Load(s), Begin(s), UpdateScene(s)];
              r.0 == Ok && r.1.deviceValid && r.1.prepared == m.prepared && r.1.resolution == m.resolution
              && r.1.scene == Some(Final(react, s, fuel))
              && (Attached(m) ==> Attached(r.1))
              && |r.1.log| > |prefix| && r.1.log[..|prefix|] == prefix
              && r.1.log[|r.1.log| - 1] == RenderScene(Final(react, s, fuel), m.resolution)
    decreases fuel, 1
  {
    if !m.deviceValid then (ImrResult(SuccessType, 0, "scene cached."), m.(prepared := scene))
    else
      var ended := if m.scene.Some? then m.log + [End(m.scene.value), Unload(m.scene.value)] else m.log;
      var detached := if m.scene.Some? then m.managed - {m.scene.value} else m.managed;
      var s := scene.value;
      var m1 := m.(scene := scene, managed := detached + {s}, log := ended + [Load(s), Begin(s)]);
      var (_, m2) := OnUpdate(m1, react, fuel);
      assert m1.log + [UpdateScene(s)] == m.log + (if m.scene.Some? then [End(m.scene.value), Unload(m.scene.value)] else [])
                                          + [Load(s), Begin(s), UpdateScene(s)];
      (Ok, m2)
  }

  /** What on_update needs: the current scene's changes come to rest. */
  predicate CanUpdate(m: Manager, react: Reaction, fuel: nat) {
    m.deviceValid && m.scene.Some? ==> Settles(react, m.scene.value, fuel)
  }

  /** on_update: fails with code 1 while the device is invalid. Otherwise the current scene
      updates, and renders only if it is still the current scene afterwards (a switch has
      already updated and rendered the new scene). */
  function OnUpdate(m: Manager, react: Reaction, fuel: nat): (r: (ImrResult, Manager))
    requires CanUpdate(m, react, fuel)
    ensures !m.deviceValid ==> r == (Fail(1, "invalid device"), m)
    ensures m.deviceValid && m.scene.None? ==> r == (Ok, m)
    ensures m.deviceValid && m.scene.Some? ==>
              var s := m.scene.value;
              r.0 == Ok && r.1.deviceValid && r.1.prepared == m.prepared && r.1.resolution == m.resolution
              && r.1.scene == Some(Final(react, s, fuel))
              && (Attached(m) ==> Attached(r.1))
              && |r.1.log| > |m.log| + 1 && r.1.log[..|m.log| + 1] == m.log + [UpdateScene(s)]
              && r.1.log[|r.1.log| - 1] == RenderScene(Final(react, s, fuel), m.resolution)
              && (react(s).None? ==> r.1.log == m.log + [UpdateScene(s), RenderScene(s, m.resolution)])
    decreases fuel, 0
  {
    if !m.deviceValid then (Fail(1, "invalid device"), m)
    else if m.scene.None? then (Ok, m)
    else
      var s := m.scene.value;
      var m1 := m.(log := m.log + [UpdateScene(s)]);
      match react(s)
      case None =>
        (Ok, m1.(log := m1.log + [RenderScene(s, m.resolution)]))
      case Some(t) =>
        var (_, m2) := ChangeScene(m1, Some(t), react, fuel - 1);
        assert m2.log[..|m.log| + 1] == m1.log by {
          assert m2.log[..|m1.log|] == m1.log;
        }
        if m2.scene == Some(s) then (Ok, m2.(log := m2.log + [RenderScene(s, m.resolution)]))
        else (Ok, m2)
  }

  /** An update that switches scenes never renders the scene that switched: the frame's only
      render is the scene the chain comes to rest on. */
  lemma SwitchedSceneNotRendered(m: Manager, react: Reaction, fuel: nat)
    requires m.deviceValid && m.scene.Some? && CanUpdate(m, react, fuel) && react(m.scene.value).Some?
    ensures var r := OnUpdate(m, react, fuel).1;
            r.scene != m.scene && r.log[|r.log| - 1] != RenderScene(m.scene.value, m.resolution)
  {
    FinalIsSelf(react, m.scene.value, fuel);
  }

  /** on_device_reset: the device becomes valid; a prepared scene is switched to and then
      forgotten; otherwise the current scene, if any, reloads its resources. */
  function OnDeviceReset(m: Manager, react: Reaction, fuel: nat): (r: (ImrResult, Manager))
    requires m.prepared.Some? ==> Settles(react, m.prepared.value, fuel)
    ensures r.0 == Ok && r.1.deviceValid && r.1.prepared == None
    ensures m.prepared.Some? ==> r.1 == ChangeScene(m.(deviceValid := true), m.prepared, react, fuel).1.(prepared := None)
    ensures m.prepared.None? ==>
              r.1 == m.(deviceValid := true, log := m.log + if m.scene.Some? then [Load(m.scene.value)] else [])
  {
    var m1 := m.(deviceValid := true);
    if m.prepared.Some? then
      var (_, m2) := ChangeScene(m1, m.prepared, react, fuel);
      (Ok, m2.(prepared := None))
    else if m.scene.Some? then (Ok, m1.(log := m1.log + [Load(m.scene.value)]))
    else (Ok, m1)
  }

  /** on_device_lost: the device becomes invalid and the current scene, if any, unloads its
      resources. */
  function OnDeviceLost(m: Manager): (r: (ImrResult, Manager))
    ensures r.0 == Ok && !r.1.deviceValid
    ensures r.1 == m.(deviceValid := false, log := m.log + if m.scene.Some? then [Unload(m.scene.value)] else [])
  {
    var m1 := m.(deviceValid := false);
    if m.scene.Some? then (Ok, m1.(log := m1.log + [Unload(m.scene.value)])) else (Ok, m1)
  }

  /** on_ui: the current scene, if any, draws its UI at the stored resolution. */
  function OnUi(m: Manager): (r: (ImrResult, Manager))
    ensures r.0 == Ok
    ensures r.1 == m.(log := m.log + if m.scene.Some? then [UiScene(m.scene.value, m.resolution)] else [])
  {
    if m.scene.Some? then (Ok, m.(log := m.log + [UiScene(m.scene.value, m.resolution)])) else (Ok, m)
  }

  /** on_resolution_changed: stores the resolution. */
  function OnResolutionChanged(m: Manager, resolution: Int2): (r: (ImrResult, Manager))
    ensures r == (Ok, m.(resolution := resolution))
  {
    (Ok, m.(resolution := resolution))
  }

  /** The destructor: the current scene, if any, is ended and then unloaded. */
  function Destroy(m: Manager): (calls: seq<SceneCall>)
    ensures m.scene.None? ==> calls == m.log
    ensures m.scene.Some? ==> calls == m.log + [End(m.scene.value), Unload(m.scene.value)]
  {
    if m.scene.Some? then m.log + [End(m.scene.value), Unload(m.scene.value)] else m.log
  }

  /** get_frame_buffer: the current scene's frame buffer, none without a scene. */
  function GetFrameBuffer<F>(m: Manager, frameBuffer: SceneId -> F): (r: Option<F>)
    ensures r.None? <==> m.scene.None?
    ensures m.scene.Some? ==> r == Some(frameBuffer(m.scene.value))
  {
    if m.scene.Some? then Some(frameBuffer(m.scene.value)) else None
  }

  // ---------------------------------------------------------------- lifecycle properties

  /** The device callbacks keep exactly the current scene attached to the manager (a change
      of scene and an update say so in their own contracts). */
  lemma AttachedKept(m: Manager, react: Reaction, fuel: nat)
    requires Attached(m)
    ensures m.prepared.Some? && Settles(react, m.prepared.value, fuel) ==> Attached(OnDeviceReset(m, react, fuel).1)
    ensures m.prepared.None? ==> Attached(OnDeviceReset(m, react, fuel).1)
    ensures Attached(OnDeviceLost(m).1) && Attached(OnUi(m).1)
    ensures forall res :: Attached(OnResolutionChanged(m, res).1)
  {
  }

  /** A scene chosen while the device is invalid is cached, and the next device reset makes
      exactly the change a valid device would have made at once. */
  lemma CachedChangeReplays(m: Manager, s: SceneId, react: Reaction, fuel: nat)
    requires !m.deviceValid && Settles(react, s, fuel)
    ensures var (res, cached) := ChangeScene(m, Some(s), react, fuel);
            res.msg == "scene cached." && cached.scene == m.scene && cached.log == m.log
            && OnDeviceReset(cached, react, fuel).1
               == ChangeScene(m.(deviceValid := true), Some(s), react, fuel).1.(prepared := None)
  {
    var cached := ChangeScene(m, Some(s), react, fuel).1;
    assert cached.(deviceValid := true) == m.(deviceValid := true).(prepared := Some(s));
    ChangePreparedIrrelevant(m.(deviceValid := true), Some(s), s, react, fuel);
  }

  /** A valid-device change does not look at the prepared scene. */
  lemma ChangePreparedIrrelevant(m: Manager, p: Option<SceneId>, s: SceneId, react: Reaction, fuel: nat)
    requires m.deviceValid && Settles(react, s, fuel)
    ensures ChangeScene(m.(prepared := p), Some(s), react, fuel).1
            == ChangeScene(m, Some(s), react, fuel).1.(prepared := p)
  {
    ChangeUpdatePrepared(m, p, Some(s), react, fuel);
  }

  lemma {:induction false} ChangeUpdatePrepared(m: Manager, p: Option<SceneId>, scene: Option<SceneId>,
                                                react: Reaction, fuel: nat)
    requires m.deviceValid && CanChange(m, scene, react, fuel)
    ensures ChangeScene(m.(prepared := p), scene, react, fuel).1 == ChangeScene(m, scene, react, fuel).1.(prepared := p)
    decreases fuel, 1
  {
    var ended := if m.scene.Some? then m.log + [End(m.scene.value), Unload(m.scene.value)] else m.log;
    var detached := if m.scene.Some? then m.managed - {m.scene.value} else m.managed;
    var s := scene.value;
    var m1 := m.(scene := scene, managed := detached + {s}, log := ended + [Load(s), Begin(s)]);
    UpdatePrepared(m1, p, react, fuel);
  }

  /** An update does not look at the prepared scene. */
  lemma {:induction false} UpdatePrepared(m: Manager, p: Option<SceneId>, react: Reaction, fuel: nat)
    requires CanUpdate(m, react, fuel)
    ensures OnUpdate(m.(prepared := p), react, fuel).1 == OnUpdate(m, react, fuel).1.(prepared := p)
    decreases fuel, 0
  {
    if m.deviceValid && m.scene.Some? && react(m.scene.value).Some? {
      var m1 := m.(log := m.log + [UpdateScene(m.scene.value)]);
      assert m.(prepared := p).(log := m1.log) == m1.(prepared := p);
      ChangeUpdatePrepared(m1, p, react(m.scene.value), react, fuel - 1);
    }
  }

  /** Losing the device and getting it back with nothing prepared unloads and reloads the
      current scene, which stays current. */
  lemma LostThenReset(m: Manager, react: Reaction, fuel: nat)
    requires m.scene.Some? && m.prepared.None?
    ensures var r := OnDeviceReset(OnDeviceLost(m).1, react, fuel).1;
            r == m.(deviceValid := true, log := m.log + [Unload(m.scene.value), Load(m.scene.value)])
  {
  }
}

=== FILE: sprite.dfy ===
/** Sprite drawing with optional batching. While a camera tries to batch, draws are queued
    and consecutive draws on the same texture are flushed together: a run of one is drawn
    directly, a longer run as one instanced draw. */
module Sprite {
  import opened Results
  import opened Geometry
  import opened Resources
  import opened Atlas
  import opened Render
  import Inst = Instancing

  function TopCamera(c: Context): Camera
    requires |c.cameras| > 0
  {
    c.cameras[|c.cameras| - 1]
  }

  function SetTopCamera(c: Context, cam: Camera): (r: Context)
    requires |c.cameras| > 0
    ensures |r.cameras| == |c.cameras| && TopCamera(r) == cam
    ensures r.cameras[..|c.cameras| - 1] == c.cameras[..|c.cameras| - 1]
  {
    c.(cameras := c.cameras[|c.cameras| - 1 := cam])
  }

  /** The sprite program is registered and not null: the direct path dereferences it. */
  predicate SpriteProgramReady(c: Context) {
    SPRITE_PROGRAM_NAME in c.programs && c.programs[SPRITE_PROGRAM_NAME].Some?
  }

  /** The quad the direct path draws: the texture (white when null) at its own size and
      full uv rectangle, or the sprite's size, uv rectangle and pivot added to the offset. */
  function QuadOf(white: Texture, a: DrawArgs): (q: Quad)
    ensures a.sprite.None? ==> q.uv == Inst.FullUv && q.offset == a.offset
                               && q.size == TextureSize(if a.texture.Some? then a.texture.value else white)
    ensures a.sprite.Some? ==> q.uv == a.sprite.value.uv && q.size == a.sprite.value.size
                               && q.offset == AddF(a.offset, a.sprite.value.offset)
    ensures q.position == a.position && q.scale == a.scale && q.color == a.color
  {
    var tex := if a.texture.Some? then a.texture.value else white;
    if a.sprite.Some? then
      Quad(a.position, a.scale, a.sprite.value.size, AddF(a.offset, a.sprite.value.offset), a.color,
           a.sprite.value.uv, Radians(a.rotation))
    else
      Quad(a.position, a.scale, TextureSize(tex), a.offset, a.color, Inst.FullUv, Radians(a.rotation))
  }

  /** The direct path of draw: use the sprite program, bind the textures, draw one quad. */
  function DrawDirect(c: Context, a: DrawArgs): (r: Context)
    requires SpriteProgramReady(c)
    ensures var p := c.programs[SPRITE_PROGRAM_NAME].value;
            r.log == c.log + [UseProgram(p), BindTexture(0, if a.texture.Some? then a.texture.value else c.white)]
                     + MultiTextures(a.texture1, a.texture2, a.texture3) + [DrawSprite(p, QuadOf(c.white, a))]
    ensures r == c.(log := r.log)
  {
    var p := c.programs[SPRITE_PROGRAM_NAME].value;
    var tex := if a.texture.Some? then a.texture.value else c.white;
    Emit(c, [UseProgram(p), BindTexture(0, tex)] + MultiTextures(a.texture1, a.texture2, a.texture3)
            + [DrawSprite(p, QuadOf(c.white, a))])
  }

  /** The instancing arguments a queued draw becomes: same sprite and transform, but the
      offset is dropped and secondary textures are not passed. */
  function BatchArgs(a: DrawArgs): Inst.InstanceArgs {
    Inst.InstanceArgs(a.sprite, a.position, a.scale, a.rotation, a.color, Zero2)
  }

  /** The records a run of queued draws produces on texture `tex`, in queue order. */
  function Records(tex: Texture, draws: seq<DrawArgs>): (recs: seq<Float>)
    ensures |recs| == |draws| * INSTANCE_FORMAT_COUNT
  {
    if |draws| == 0 then [] else Inst.RecordOf(tex, BatchArgs(draws[0])) + Records(tex, draws[1..])
  }

  /** Instance every queued draw into the top instancing context. */
  function InstanceAll(c: Context, draws: seq<DrawArgs>): (r: Context)
    requires Inst.Begun(c)
    requires (Inst.TopState(c).count + |draws|) * INSTANCE_FORMAT_COUNT <= |c.shareBuffer|
    ensures Inst.Begun(r) && |r.instancing| == |c.instancing|
    ensures r.instancing[..|c.instancing| - 1] == c.instancing[..|c.instancing| - 1]
    ensures Inst.TopState(r) == Inst.TopState(c).(count := Inst.TopState(c).count + |draws|)
    ensures |r.shareBuffer| == |c.shareBuffer|
    ensures r == c.(shareBuffer := r.shareBuffer, instancing := r.instancing)
    decreases |draws|
  {
    if |draws| == 0 then c
    else InstanceAll(Inst.Instance(c, BatchArgs(draws[0])).ctx, draws[1..])
  }

  /** Instancing a run appends its records right after the records already there. */
  lemma {:induction false} InstanceAllPacks(c: Context, draws: seq<DrawArgs>)
    requires Inst.Begun(c)
    requires (Inst.TopState(c).count + |draws|) * INSTANCE_FORMAT_COUNT <= |c.shareBuffer|
    ensures var n := Inst.TopState(c).count;
            InstanceAll(c, draws).shareBuffer[..(n + |draws|) * INSTANCE_FORMAT_COUNT]
            == c.shareBuffer[..n * INSTANCE_FORMAT_COUNT] + Records(Inst.TopState(c).texture, draws)
    decreases |draws|
  {
    if |draws| > 0 {
      var tex := Inst.TopState(c).texture;
      var c1 := Inst.Instance(c, BatchArgs(draws[0])).ctx;
      InstanceOnePacks(c, draws[0]);
      InstanceAllPacks(c1, draws[1..]);
      var n := Inst.TopState(c).count;
      Concat3(InstanceAll(c1, draws[1..]).shareBuffer, (n + |draws|) * INSTANCE_FORMAT_COUNT,
              c1.shareBuffer[..(n + 1) * INSTANCE_FORMAT_COUNT], c.shareBuffer[..n * INSTANCE_FORMAT_COUNT],
              Inst.RecordOf(tex, BatchArgs(draws[0])), Records(tex, draws[1..]));
    }
  }

  lemma Concat3(buffer: seq<Float>, m: nat, mid: seq<Float>, head: seq<Float>, rec: seq<Float>, rest: seq<Float>)
    requires m <= |buffer| && buffer[..m] == mid + rest && mid == head + rec
    ensures buffer[..m] == head + (rec + rest)
  {
  }

  /** One instanced draw appends its record right after the records already there. */
  lemma InstanceOnePacks(c: Context, d: DrawArgs)
    requires Inst.Begun(c)
    requires (Inst.TopState(c).count + 1) * INSTANCE_FORMAT_COUNT <= |c.shareBuffer|
    ensures var n := Inst.TopState(c).count;
            var c1 := Inst.Instance(c, BatchArgs(d)).ctx;
            Inst.Begun(c1) && Inst.TopState(c1).count == n + 1
            && Inst.TopState(c1).texture == Inst.TopState(c).texture
            && |c1.shareBuffer| == |c.shareBuffer|
            && c1.shareBuffer[..(n + 1) * INSTANCE_FORMAT_COUNT]
               == c.shareBuffer[..n * INSTANCE_FORMAT_COUNT] + Inst.RecordOf(Inst.TopState(c).texture, BatchArgs(d))
  {
    var n := Inst.TopState(c).count;
    var rec := Inst.RecordOf(Inst.TopState(c).texture, BatchArgs(d));
    var c1 := Inst.Instance(c, BatchArgs(d)).ctx;
    assert c1.shareBuffer[..n * INSTANCE_FORMAT_COUNT] == c.shareBuffer[..n * INSTANCE_FORMAT_COUNT];
    assert c1.shareBuffer[n * INSTANCE_FORMAT_COUNT..(n + 1) * INSTANCE_FORMAT_COUNT] == rec;
    assert c1.shareBuffer[..(n + 1) * INSTANCE_FORMAT_COUNT]
           == c1.shareBuffer[..n * INSTANCE_FORMAT_COUNT] + c1.shareBuffer[n * INSTANCE_FORMAT_COUNT..(n + 1) * INSTANCE_FORMAT_COUNT];
  }

  /** What flushing the top camera's queue needs: the sprite program for a run of one, and
      for a longer run room in the shared buffer and an upload its buffer class can hold. */
  predicate CanFlush(c: Context)
    requires |c.cameras| > 0
  {
    var n := |TopCamera(c).batches|;
    (n == 1 ==> SpriteProgramReady(c))
    && (n >= 2 ==> n * INSTANCE_FORMAT_COUNT <= |c.shareBuffer| && n * INSTANCE_FORMAT_SIZE < 0x4000_0000)
  }

  /** The texture a run is instanced on: the first draw's, or white when it is null. */
  function RunTexture(white: Texture, draws: seq<DrawArgs>): Texture
    requires |draws| > 0
  {
    if draws[0].texture.Some? then draws[0].texture.value else white
  }

  /** The instanced path of flush_batching: begin on the first draw's texture, instance
      every draw, end. The results of instance and end are ignored. */
  function FlushInstanced(c: Context, draws: seq<DrawArgs>): (r: Context)
    requires |draws| * INSTANCE_FORMAT_COUNT <= |c.shareBuffer| && |draws| * INSTANCE_FORMAT_SIZE < 0x4000_0000
    requires |c.cameras| > 0 && |draws| >= 2
    ensures r.cameras == c.cameras && r.instancing == c.instancing
    ensures r.programStack == c.programStack && |r.shareBuffer| == |c.shareBuffer|
  {
    var c1 := Inst.Begin(c, draws[0].texture, None, None, None).ctx;
    var c2 := InstanceAll(c1, draws);
    Inst.End(c2).ctx
  }

  /** flush_batching: nothing on an empty queue; a queue of one is drawn directly with
      batching switched off around it; a longer queue goes through one instancing
      begin/instance/end. The queue is emptied in every case. */
  function Flush(c: Context): (o: Outcome)
    requires |c.cameras| > 0 && CanFlush(c)
    ensures o.result == Ok
    ensures |o.ctx.cameras| == |c.cameras| && o.ctx.cameras[..|c.cameras| - 1] == c.cameras[..|c.cameras| - 1]
    ensures TopCamera(o.ctx) == TopCamera(c).(batches := [])
    ensures |TopCamera(c).batches| == 0 ==> o.ctx == c
    ensures |TopCamera(c).batches| == 1 ==>
              o.ctx == SetTopCamera(DrawDirect(c, TopCamera(c).batches[0]), TopCamera(c).(batches := []))
    ensures o.ctx.programStack == c.programStack && |o.ctx.shareBuffer| == |c.shareBuffer|
    ensures o.ctx.instancing == c.instancing
  {
    var cam := TopCamera(c);
    if |cam.batches| == 0 then Outcome(Ok, c)
    else if |cam.batches| == 1 then
      var c1 := DrawDirect(SetTopCamera(c, cam.(tryBatch := false)), cam.batches[0]);
      Outcome(Ok, SetTopCamera(c1, cam.(batches := [])))
    else
      var c1 := FlushInstanced(c, cam.batches);
      Outcome(Ok, SetTopCamera(c1, TopCamera(c1).(batches := [])))
  }

  /** A flush of two or more queued draws ends in one instanced draw whose records are the
      queued draws' records in queue order, when the selected program is registered. */
  lemma FlushDrawsRun(c: Context)
    requires |c.cameras| > 0 && CanFlush(c) && |TopCamera(c).batches| >= 2
    requires var p := Inst.SelectedProgram(c); p in c.programs && c.programs[p].Some?
    ensures var log := Flush(c).ctx.log;
            var draws := TopCamera(c).batches;
            |log| > 0 && log[|log| - 1].DrawInstanced?
            && log[|log| - 1].records == Records(RunTexture(c.white, draws), draws)
            && log[|log| - 1].count == |draws|
  {
    var draws := TopCamera(c).batches;
    var c1 := Inst.Begin(c, draws[0].texture, None, None, None).ctx;
    InstanceAllPacks(c1, draws);
    var c2 := InstanceAll(c1, draws);
    assert Inst.SelectedProgram(c2) == Inst.SelectedProgram(c);
    assert c2.programs == c.programs;
  }

  /** begin_try_batch: fails with code 1 without a camera and with code 2 while draws are
      still queued; otherwise switches batching on. */
  function BeginTryBatch(c: Context): (o: Outcome)
    ensures |c.cameras| == 0 ==> o.result == Fail(1, "no camera contex") && o.ctx == c
    ensures |c.cameras| > 0 && |TopCamera(c).batches| > 0 ==> o.result == Fail(2, "invaid batched data exist") && o.ctx == c
    ensures Succeed(o.result) <==> |c.cameras| > 0 && |TopCamera(c).batches| == 0
    ensures Succeed(o.result) ==> o.ctx == SetTopCamera(c, TopCamera(c).(tryBatch := true))
  {
    if |c.cameras| == 0 then Outcome(Fail(1, "no camera contex"), c)
    else if |TopCamera(c).batches| > 0 then Outcome(Fail(2, "invaid batched data exist"), c)
    else Outcome(Ok, SetTopCamera(c, TopCamera(c).(tryBatch := true)))
  }

  /** A queued draw forces a flush when its texture differs from the last queued one. */
  predicate BreaksRun(cam: Camera, a: DrawArgs) {
    |cam.batches| > 0 && cam.batches[|cam.batches| - 1].texture != a.texture
  }

  /** draw: fails with code 1 without a camera. While batching it flushes the queue first
      exactly when the texture changes, then always enqueues. Otherwise it draws directly. */
  function Draw(c: Context, a: DrawArgs): (o: Outcome)
    requires |c.cameras| > 0 && TopCamera(c).tryBatch && BreaksRun(TopCamera(c), a) ==> CanFlush(c)
    requires |c.cameras| > 0 && !TopCamera(c).tryBatch ==> SpriteProgramReady(c)
    ensures Failed(o.result) <==> |c.cameras| == 0
    ensures Failed(o.result) ==> o.result == Fail(1, "no camera contex") && o.ctx == c
    ensures Succeed(o.result) ==> o.result == Ok && |o.ctx.cameras| == |c.cameras|
    ensures |c.cameras| > 0 && TopCamera(c).tryBatch ==>
              TopCamera(o.ctx) == TopCamera(c).(batches := (if BreaksRun(TopCamera(c), a) then [] else TopCamera(c).batches) + [a])
              && o.ctx.cameras[..|c.cameras| - 1] == c.cameras[..|c.cameras| - 1]
    ensures |c.cameras| > 0 && TopCamera(c).tryBatch && !BreaksRun(TopCamera(c), a) ==>
              o.ctx == SetTopCamera(c, TopCamera(c).(batches := TopCamera(c).batches + [a]))
    ensures |c.cameras| > 0 && !TopCamera(c).tryBatch ==> o.ctx == DrawDirect(c, a)
  {
    if |c.cameras| == 0 then Outcome(Fail(1, "no camera contex"), c)
    else
      var cam := TopCamera(c);
      if cam.tryBatch && BreaksRun(cam, a) then
        var flushed := Flush(c);
        if Failed(flushed.result) then flushed
        else
          var c1 := flushed.ctx;
          Outcome(Ok, SetTopCamera(c1, TopCamera(c1).(batches := TopCamera(c1).batches + [a])))
      else if cam.tryBatch then
        Outcome(Ok, SetTopCamera(c, cam.(batches := cam.batches + [a])))
      else
        Outcome(Ok, DrawDirect(c, a))
  }

  /** A draw whose texture breaks the queued run is exactly a flush of the run followed by
      a queue holding the new draw alone. */
  lemma DrawFlushesFirst(c: Context, a: DrawArgs)
    requires |c.cameras| > 0 && TopCamera(c).tryBatch && BreaksRun(TopCamera(c), a) && CanFlush(c)
    ensures Draw(c, a).ctx == SetTopCamera(Flush(c).ctx, TopCamera(c).(batches := [a]))
  {
    assert TopCamera(Flush(c).ctx).batches + [a] == [a];
  }

  /** When the run a texture change breaks holds two or more draws, the draw's context ends
      with one instanced draw of the run's records in queue order; a run of one is drawn
      directly. Either way the new draw is queued alone. */
  lemma DrawDrawsQueuedRun(c: Context, a: DrawArgs)
    requires |c.cameras| > 0 && TopCamera(c).tryBatch && BreaksRun(TopCamera(c), a) && CanFlush(c)
    requires |TopCamera(c).batches| >= 2 ==> var p := Inst.SelectedProgram(c); p in c.programs && c.programs[p].Some?
    ensures var log := Draw(c, a).ctx.log;
            var draws := TopCamera(c).batches;
            TopCamera(Draw(c, a).ctx).batches == [a]
            && (|draws| >= 2 ==>
                  |log| > 0 && log[|log| - 1].DrawInstanced?
                  && log[|log| - 1].records == Records(RunTexture(c.white, draws), draws)
                  && log[|log| - 1].count == |draws|)
            && (|draws| == 1 ==> log == DrawDirect(c, draws[0]).log)
  {
    DrawFlushesFirst(c, a);
    if |TopCamera(c).batches| >= 2 {
      FlushDrawsRun(c);
    }
  }

  /** end_try_batch: fails with code 1 unless the top camera is batching; otherwise flushes
      and switches batching off. */
  function EndTryBatch(c: Context): (o: Outcome)
    requires |c.cameras| > 0 && TopCamera(c).tryBatch ==> CanFlush(c)
    ensures Failed(o.result) <==> |c.cameras| == 0 || !TopCamera(c).tryBatch
    ensures Failed(o.result) ==> o.result == Fail(1, "no camera contex or didn't try batch") && o.ctx == c
    ensures Succeed(o.result) ==>
              |o.ctx.cameras| == |c.cameras|
              && TopCamera(o.ctx) == TopCamera(c).(batches := [], tryBatch := false)
              && o.ctx.cameras[..|c.cameras| - 1] == c.cameras[..|c.cameras| - 1]
    ensures Succeed(o.result) ==>
              o.ctx == SetTopCamera(Flush(c).ctx, TopCamera(c).(batches := [], tryBatch := false))
  {
    if |c.cameras| == 0 || !TopCamera(c).tryBatch then
      Outcome(Fail(1, "no camera contex or didn't try batch"), c)
    else
      var c1 := Flush(c).ctx;
      Outcome(Ok, SetTopCamera(c1, TopCamera(c1).(tryBatch := false)))
  }

  /** Queued draws on textures A, B, A: the B draw flushes the first A directly, the second
      A flushes B directly, and only the second A stays queued. */
  lemma BatchABA(c: Context, a1: DrawArgs, b: DrawArgs, a2: DrawArgs)
    requires |c.cameras| > 0 && TopCamera(c).tryBatch && |TopCamera(c).batches| == 0
    requires SpriteProgramReady(c)
    requires a1.texture == a2.texture && a1.texture != b.texture
    ensures var o1 := Draw(c, a1);
            var o2 := Draw(o1.ctx, b);
            var o3 := Draw(o2.ctx, a2);
            TopCamera(o3.ctx).batches == [a2]
            && o3.ctx.log == c.log + DrawDirect(c, a1).log[|c.log|..] + DrawDirect(o1.ctx, b).log[|o1.ctx.log|..]
  {
    var o1 := Draw(c, a1);
    assert TopCamera(o1.ctx).batches == [a1];
    var o2 := Draw(o1.ctx, b);
    assert TopCamera(o2.ctx).batches == [b];
    var o3 := Draw(o2.ctx, a2);
    assert o1.ctx.log == c.log;
  }
}

=== FILE: state_stack.dfy ===
/** The apply-on-change render-state stack behind the viewport and blend-function stacks.
    `applied` is the value the GPU currently holds for this state (None before the first
    application); `applies` in a step is the value sent to the GPU by that step, if any. */
module StateStack {
  import opened Results

  datatype Stack<T> = Stack(items: seq<T>, applied: Option<T>)

  datatype Step<T> = Step(stack: Stack<T>, applies: Option<T>)

  function Empty<T>(): Stack<T> {
    Stack([], None)
  }

  function Top<T>(s: Stack<T>): T
    requires |s.items| > 0
  {
    s.items[|s.items| - 1]
  }

  /** The GPU holds the top of every non-empty stack. */
  ghost predicate Coherent<T>(s: Stack<T>) {
    |s.items| > 0 ==> s.applied == Some(Top(s))
  }

  /** push_state: apply the new value when the stack was empty or it differs from the top,
      then push it unconditionally. */
  function Push<T(==)>(s: Stack<T>, v: T): (r: Step<T>)
    ensures r.stack.items == s.items + [v]
    ensures r.applies.Some? <==> (|s.items| == 0 || Top(s) != v)
    ensures r.applies.Some? ==> r.applies.value == v && r.stack.applied == Some(v)
    ensures r.applies.None? ==> r.stack.applied == s.applied
  {
    if |s.items| == 0 || Top(s) != v then Step(Stack(s.items + [v], Some(v)), Some(v))
    else Step(Stack(s.items + [v], s.applied), None)
  }

  /** pop_state: drop the top; if a value remains under it and differs from the dropped one,
      re-apply it. Popping the last value applies nothing. Popping an empty stack is a fatal
      error in the source, hence the precondition. */
  function Pop<T(==)>(s: Stack<T>): (r: Step<T>)
    requires |s.items| > 0
    ensures r.stack.items == s.items[..|s.items| - 1]
    ensures r.applies.Some? <==> (|s.items| > 1 && s.items[|s.items| - 2] != Top(s))
    ensures r.applies.Some? ==> r.applies.value == s.items[|s.items| - 2] && r.stack.applied == r.applies
    ensures r.applies.None? ==> r.stack.applied == s.applied
  {
    var rest := s.items[..|s.items| - 1];
    if |rest| > 0 && rest[|rest| - 1] != Top(s) then Step(Stack(rest, Some(rest[|rest| - 1])), Some(rest[|rest| - 1]))
    else Step(Stack(rest, s.applied), None)
  }

  /** Push keeps the GPU in step with the top of the stack. */
  lemma PushCoherent<T>(s: Stack<T>, v: T)
    ensures Coherent(s) ==> Coherent(Push(s, v).stack)
  {
  }

  /** So does pop: an equal value underneath needs no re-application because the GPU
      already holds it. */
  lemma PopCoherent<T>(s: Stack<T>)
    requires |s.items| > 0
    ensures Coherent(s) ==> Coherent(Pop(s).stack)
  {
  }

  /** A push followed by a pop restores a non-empty coherent stack exactly, including
      the GPU-visible value. */
  lemma PushPopRestores<T>(s: Stack<T>, v: T)
    requires Coherent(s) && |s.items| > 0
    ensures Pop(Push(s, v).stack).stack == s
  {
    var p := Push(s, v).stack;
    assert p.items[..|p.items| - 1] == s.items;
  }

  /** Pushing onto an empty stack always applies; popping back to empty leaves that value
      applied on the GPU. */
  lemma PushPopOnEmpty<T>(s: Stack<T>, v: T)
    requires |s.items| == 0
    ensures Push(s, v).applies == Some(v)
    ensures Pop(Push(s, v).stack).stack == Stack([], Some(v))
  {
  }
}

=== FILE: text.dfy ===
/** Text drawing: a stack of fonts, and `text`, which decodes a UTF-8 string and lays each
    code point's glyph out as one instanced sprite drawn with the text program. Glyph
    metrics come from the font's rasteriser and are a parameter here. */
module Text {
  import opened Results
  import opened Geometry
  import opened Resources
  import opened Render
  import opened Utf8
  import Inst = Instancing

  /** A rasterised glyph: its rectangle in the font's frame texture (x, y, width, height),
      its bearing (left, top) and the pen advance. */
  datatype Glyph = Glyph(texCoords: Int4, bearing: Int2, advance: Float2)

  /** The code point that sends the pen back to the start of a line. */
  const CARRIAGE_RETURN: nat := 13

  /** Where a glyph is drawn relative to the pen: right by its left bearing and up by its
      top bearing. */
  function BearingOffset(g: Glyph): Float2 {
    Float2(g.bearing.x as real, -(g.bearing.y as real))
  }

  /** The number of code points that produce a glyph. */
  function Printable(cps: seq<nat>): (n: nat)
    ensures n <= |cps|
  {
    if |cps| == 0 then 0
    else (if cps[0] == CARRIAGE_RETURN then 0 else 1) + Printable(cps[1..])
  }

  /** One laid-out glyph: its code point and its drawing position. */
  datatype Placement = Placement(cp: nat, position: Float2)

  /** The layout loop: a carriage return moves the pen to x = the start position and
      y = the font height, both absolute; every other code point is placed at the pen plus
      its bearing offset and advances the pen. */
  function Placements(cps: seq<nat>, origin: Float2, pen: Float2, height: nat,
                      glyph: nat -> Glyph): (ps: seq<Placement>)
    ensures |ps| == Printable(cps)
    ensures forall k :: 0 <= k < |ps| ==> ps[k].cp != CARRIAGE_RETURN && ps[k].cp in cps
  {
    if |cps| == 0 then []
    else if cps[0] == CARRIAGE_RETURN then
      Placements(cps[1..], origin, Float2(origin.x, height as real), height, glyph)
    else
      var g := glyph(cps[0]);
      [Placement(cps[0], AddF(pen, BearingOffset(g)))]
        + Placements(cps[1..], origin, AddF(pen, g.advance), height, glyph)
  }

  /** The pen after walking a run of code points without line breaks. */
  function PenAfter(cps: seq<nat>, pen: Float2, glyph: nat -> Glyph): Float2 {
    if |cps| == 0 then pen else PenAfter(cps[1..], AddF(pen, glyph(cps[0]).advance), glyph)
  }

  /** Within a line, the k-th glyph sits at the start pen moved by the advances of the
      glyphs before it, plus its own bearing offset. */
  lemma {:induction false} LineLayout(cps: seq<nat>, origin: Float2, pen: Float2, height: nat,
                                      glyph: nat -> Glyph, k: nat)
    requires CARRIAGE_RETURN !in cps && k < |cps|
    ensures Printable(cps) == |cps|
    ensures Placements(cps, origin, pen, height, glyph)[k]
            == Placement(cps[k], AddF(PenAfter(cps[..k], pen, glyph), BearingOffset(glyph(cps[k]))))
    decreases k
  {
    assert cps[0] in cps;
    NoBreakAllPrintable(cps);
    if k > 0 {
      var next := AddF(pen, glyph(cps[0]).advance);
      assert cps[1..][k - 1] == cps[k];
      LineLayout(cps[1..], origin, next, height, glyph, k - 1);
      assert cps[..k][0] == cps[0] && cps[..k][1..] == cps[1..][..k - 1];
    }
  }

  lemma {:induction false} NoBreakAllPrintable(cps: seq<nat>)
    requires CARRIAGE_RETURN !in cps
    ensures Printable(cps) == |cps|
  {
    if |cps| > 0 {
      assert cps[0] in cps;
      assert forall x :: x in cps[1..] ==> x in cps;
      NoBreakAllPrintable(cps[1..]);
    }
  }

  /** A line break cuts the layout in two: what follows it is laid out from
      (start x, font height) whatever came before, so every line after a break starts at the
      same height and successive lines are drawn over one another. */
  lemma {:induction false} LineBreakSplits(a: seq<nat>, b: seq<nat>, origin: Float2, pen: Float2,
                                           height: nat, glyph: nat -> Glyph)
    ensures Placements(a + [CARRIAGE_RETURN] + b, origin, pen, height, glyph)
            == Placements(a, origin, pen, height, glyph)
               + Placements(b, origin, Float2(origin.x, height as real), height, glyph)
  {
    var t := a + [CARRIAGE_RETURN] + b;
    if |a| == 0 {
      assert t[0] == CARRIAGE_RETURN && t[1..] == b;
    } else {
      assert t[0] == a[0] && t[1..] == a[1..] + [CARRIAGE_RETURN] + b;
      var next := if a[0] == CARRIAGE_RETURN then Float2(origin.x, height as real)
                  else AddF(pen, glyph(a[0]).advance);
      LineBreakSplits(a[1..], b, origin, next, height, glyph);
    }
  }

  /** Two line breaks in a row lay out the same as one. */
  lemma DoubleBreakIsSingle(b: seq<nat>, origin: Float2, pen: Float2, height: nat, glyph: nat -> Glyph)
    ensures Placements([CARRIAGE_RETURN, CARRIAGE_RETURN] + b, origin, pen, height, glyph)
            == Placements([CARRIAGE_RETURN] + b, origin, pen, height, glyph)
  {
    LineBreakSplits([CARRIAGE_RETURN], b, origin, pen, height, glyph);
    LineBreakSplits([], b, origin, pen, height, glyph);
    assert [CARRIAGE_RETURN] + [CARRIAGE_RETURN] + b == [CARRIAGE_RETURN, CARRIAGE_RETURN] + b;
  }

  // ---------------------------------------------------------------- font stack

  /** begin: pushes the font. */
  function Begin(c: Context, font: Font): (o: Outcome)
    ensures o.result == Ok && o.ctx.texts == c.texts + [font]
    ensures o.ctx == c.(texts := o.ctx.texts)
  {
    Outcome(Ok, c.(texts := c.texts + [font]))
  }

  /** end: fails with code 1 on an empty font stack, otherwise pops it. */
  function End(c: Context): (o: Outcome)
    ensures Failed(o.result) <==> |c.texts| == 0
    ensures |c.texts| == 0 ==> o == Outcome(Fail(1, "invalid stack"), c)
    ensures |c.texts| > 0 ==> o.ctx.texts + [c.texts[|c.texts| - 1]] == c.texts
    ensures o.ctx == c.(texts := o.ctx.texts)
  {
    if |c.texts| == 0 then Outcome(Fail(1, "invalid stack"), c)
    else Outcome(Ok, c.(texts := c.texts[..|c.texts| - 1]))
  }

  /** Beginning a font and ending it leaves the context as it was. */
  lemma BeginEndRestores(c: Context, font: Font)
    ensures End(Begin(c, font).ctx) == Outcome(Ok, c)
  {
    assert (c.texts + [font])[..|c.texts|] == c.texts;
  }

  // ---------------------------------------------------------------- text

  /** The instance record of one glyph: drawn at its position, unscaled and unrotated, at
      the glyph's pixel size, sampling the glyph's rectangle of the font texture. */
  function GlyphRecord(tex: Texture, g: Glyph, position: Float2, color: Float4): seq<Float>
  {
    var xy := ToFloat2(Int2(g.texCoords.x, g.texCoords.y));
    var zw := ToFloat2(Int2(g.texCoords.z, g.texCoords.w));
    Inst.Record(position, One2, Radians(0.0), zw, Inst.RectUv(tex, xy, zw), color, Zero2)
  }

  predicate Drawable(c: Context) {
    Inst.Begun(c)
  }

  /** Slot `k` of the shared buffer: the floats of the k-th record. */
  function Slot(buffer: seq<Float>, k: nat): seq<Float>
    requires (k + 1) * INSTANCE_FORMAT_COUNT <= |buffer|
  {
    buffer[k * INSTANCE_FORMAT_COUNT..(k + 1) * INSTANCE_FORMAT_COUNT]
  }

  /** The glyph record of the code point at the head of a run, written by `instance`. */
  function Put(c: Context, g: Glyph, position: Float2, color: Float4): Context
    requires Drawable(c) && Inst.HasRoom(c)
  {
    Inst.InstanceRect(c, ToFloat2(Int2(g.texCoords.x, g.texCoords.y)),
                      ToFloat2(Int2(g.texCoords.z, g.texCoords.w)), Zero2, position,
                      One2, 0.0, color).ctx
  }

  /** The loop body of `text` over the decoded code points: one instance per glyph. Only the
      shared buffer and the top instancing context's count change, and the records already
      written stay. */
  function Run(c: Context, cps: seq<nat>, origin: Float2, pen: Float2, height: nat, color: Float4,
               glyph: nat -> Glyph): (r: Context)
    requires Drawable(c)
    requires (Inst.TopState(c).count + Printable(cps)) * INSTANCE_FORMAT_COUNT <= |c.shareBuffer|
    ensures Drawable(r) && |r.instancing| == |c.instancing| && |r.shareBuffer| == |c.shareBuffer|
    ensures r.instancing == c.instancing[|c.instancing| - 1 :=
              Inst.TopState(c).(count := Inst.TopState(c).count + Printable(cps))]
    ensures r == c.(shareBuffer := r.shareBuffer, instancing := r.instancing)
    ensures var base := Inst.TopState(c).count * INSTANCE_FORMAT_COUNT;
            r.shareBuffer[..base] == c.shareBuffer[..base]
    decreases |cps|
  {
    if |cps| == 0 then c
    else if cps[0] == CARRIAGE_RETURN then
      Run(c, cps[1..], origin, Float2(origin.x, height as real), height, color, glyph)
    else
      var g := glyph(cps[0]);
      var position := AddF(pen, BearingOffset(g));
      RunStep(c, g, position, color, Printable(cps[1..]));
      var c1 := Put(c, g, position, color);
      var r := Run(c1, cps[1..], origin, AddF(pen, g.advance), height, color, glyph);
      PrefixOfPrefix(c.shareBuffer, c1.shareBuffer, r.shareBuffer, Inst.TopState(c).count);
      r
  }

  lemma PrefixOfPrefix(a: seq<Float>, b: seq<Float>, r: seq<Float>, k: nat)
    requires (k + 1) * INSTANCE_FORMAT_COUNT <= |a| == |b| == |r|
    requires a[..k * INSTANCE_FORMAT_COUNT] == b[..k * INSTANCE_FORMAT_COUNT]
    requires b[..(k + 1) * INSTANCE_FORMAT_COUNT] == r[..(k + 1) * INSTANCE_FORMAT_COUNT]
    ensures a[..k * INSTANCE_FORMAT_COUNT] == r[..k * INSTANCE_FORMAT_COUNT]
  {
    assert r[..k * INSTANCE_FORMAT_COUNT] == r[..(k + 1) * INSTANCE_FORMAT_COUNT][..k * INSTANCE_FORMAT_COUNT];
    assert b[..k * INSTANCE_FORMAT_COUNT] == b[..(k + 1) * INSTANCE_FORMAT_COUNT][..k * INSTANCE_FORMAT_COUNT];
  }

  /** From slot `base` on, the buffer holds the glyph records of `ps`, in order. */
  predicate LaysOut(buffer: seq<Float>, base: nat, tex: Texture, ps: seq<Placement>, color: Float4,
                    glyph: nat -> Glyph)
  {
    (base + |ps|) * INSTANCE_FORMAT_COUNT <= |buffer|
    && forall k :: 0 <= k < |ps| ==>
         Slot(buffer, base + k) == GlyphRecord(tex, glyph(ps[k].cp), ps[k].position, color)
  }

  lemma LaysOutCons(buffer: seq<Float>, base: nat, tex: Texture, p: Placement, rest: seq<Placement>,
                    color: Float4, glyph: nat -> Glyph)
    requires LaysOut(buffer, base + 1, tex, rest, color, glyph)
    requires Slot(buffer, base) == GlyphRecord(tex, glyph(p.cp), p.position, color)
    ensures LaysOut(buffer, base, tex, [p] + rest, color, glyph)
  {
    var ps := [p] + rest;
    forall k | 0 <= k < |ps|
      ensures Slot(buffer, base + k) == GlyphRecord(tex, glyph(ps[k].cp), ps[k].position, color)
    {
      if k > 0 {
        assert ps[k] == rest[k - 1] && base + k == (base + 1) + (k - 1);
      }
    }
  }

  /** The records `Run` writes are the glyph records of the layout, in layout order, from
      the slot the top context's count pointed at. */
  lemma {:induction false} RunLaysOut(c: Context, cps: seq<nat>, origin: Float2, pen: Float2, height: nat,
                                      color: Float4, glyph: nat -> Glyph)
    requires Drawable(c)
    requires (Inst.TopState(c).count + Printable(cps)) * INSTANCE_FORMAT_COUNT <= |c.shareBuffer|
    ensures LaysOut(Run(c, cps, origin, pen, height, color, glyph).shareBuffer, Inst.TopState(c).count,
                    Inst.TopState(c).texture, Placements(cps, origin, pen, height, glyph), color, glyph)
    decreases |cps|
  {
    if |cps| == 0 {
    } else if cps[0] == CARRIAGE_RETURN {
      RunLaysOut(c, cps[1..], origin, Float2(origin.x, height as real), height, color, glyph);
    } else {
      var g := glyph(cps[0]);
      var position := AddF(pen, BearingOffset(g));
      var n := Inst.TopState(c).count;
      RunStep(c, g, position, color, Printable(cps[1..]));
      var c1 := Put(c, g, position, color);
      var next := AddF(pen, g.advance);
      var r := Run(c1, cps[1..], origin, next, height, color, glyph);
      assert r == Run(c, cps, origin, pen, height, color, glyph);
      RunLaysOut(c1, cps[1..], origin, next, height, color, glyph);
      assert Inst.TopState(c1).count == n + 1;
      SlotKept(c1.shareBuffer, r.shareBuffer, n);
      LaysOutCons(r.shareBuffer, n, Inst.TopState(c).texture, Placement(cps[0], position),
                  Placements(cps[1..], origin, next, height, glyph), color, glyph);
    }
  }

  /** What writing one glyph record does to the state `Run` tracks. */
  lemma RunStep(c: Context, g: Glyph, position: Float2, color: Float4, rest: nat)
    requires Drawable(c)
    requires (Inst.TopState(c).count + 1 + rest) * INSTANCE_FORMAT_COUNT <= |c.shareBuffer|
    ensures Inst.HasRoom(c)
    ensures var c1 := Put(c, g, position, color);
            c1 == c.(shareBuffer := c1.shareBuffer, instancing := c1.instancing)
            && |c1.instancing| == |c.instancing| && |c1.shareBuffer| == |c.shareBuffer|
            && c1.instancing == c.instancing[|c.instancing| - 1 := Inst.TopState(c1)]
            && Drawable(c1) && Inst.TopState(c1) == Inst.TopState(c).(count := Inst.TopState(c).count + 1)
            && (Inst.TopState(c1).count + rest) * INSTANCE_FORMAT_COUNT <= |c1.shareBuffer|
            && Slot(c1.shareBuffer, Inst.TopState(c).count) == GlyphRecord(Inst.TopState(c).texture, g, position, color)
            && var base := Inst.TopState(c).count * INSTANCE_FORMAT_COUNT;
               c1.shareBuffer[..base] == c.shareBuffer[..base]
  {
  }

  /** Keeping a prefix keeps every slot inside it. */
  lemma SlotKept(a: seq<Float>, b: seq<Float>, k: nat)
    requires (k + 1) * INSTANCE_FORMAT_COUNT <= |a| == |b|
    requires a[..(k + 1) * INSTANCE_FORMAT_COUNT] == b[..(k + 1) * INSTANCE_FORMAT_COUNT]
    ensures Slot(a, k) == Slot(b, k)
  {
    var n := (k + 1) * INSTANCE_FORMAT_COUNT;
    assert Slot(a, k) == a[..n][k * INSTANCE_FORMAT_COUNT..];
    assert Slot(b, k) == b[..n][k * INSTANCE_FORMAT_COUNT..];
  }

  /** What `text` needs of the context: room in the shared buffer for every glyph, and what
      the final instancing `end` needs to draw them. */
  predicate CanText(c: Context, glyphs: nat)
    requires |c.texts| > 0
  {
    glyphs * INSTANCE_FORMAT_COUNT <= |c.shareBuffer| && glyphs * INSTANCE_FORMAT_SIZE < 0x4000_0000
    && (glyphs > 0 && TEXT_PROGRAM_NAME in c.programs && c.programs[TEXT_PROGRAM_NAME].Some?
        ==> |c.cameras| > 0)
  }

  /** The state just before `text` ends instancing: the text program pushed, an
      instancing context begun on the font's texture, and one record per glyph in it. */
  function LaidOut(c: Context, cps: seq<nat>, position: Float2, color: Float4,
                   glyph: nat -> Glyph): (r: Context)
    requires |c.texts| > 0 && CanText(c, Printable(cps))
    ensures Drawable(r) && Inst.TopState(r).count == Printable(cps)
    ensures Inst.TopState(r).texture == c.texts[|c.texts| - 1].texture
    ensures |r.instancing| == |c.instancing| + 1 && r.instancing[..|c.instancing|] == c.instancing
    ensures r.programStack == c.programStack + [TEXT_PROGRAM_NAME]
    ensures |r.shareBuffer| == |c.shareBuffer|
    ensures r == c.(programStack := r.programStack, instancing := r.instancing, shareBuffer := r.shareBuffer)
  {
    var font := c.texts[|c.texts| - 1];
    var c1 := PushProgram(c, TEXT_PROGRAM_NAME);
    var c2 := Inst.Begin(c1, Some(font.texture), None, None, None).ctx;
    var r := Run(c2, cps, position, position, font.height, color, glyph);
    assert r.instancing[..|c.instancing|] == c2.instancing[..|c.instancing|];
    r
  }

  /** text: fails with code 1 on an empty font stack. Otherwise it selects the text
      program, begins instancing on the top font's texture, lays out the decoded string
      starting at `position`, ends instancing (its result ignored) and restores the program
      stack; it always succeeds, and every stack it touched is as it was. */
  function DrawText(c: Context, txt: seq<Byte>, position: Float2, color: Float4,
                    glyph: nat -> Glyph): (o: Outcome)
    requires WellSized(txt)
    requires |c.texts| > 0 ==> CanText(c, Printable(CodePoints(txt)))
    ensures Failed(o.result) <==> |c.texts| == 0
    ensures |c.texts| == 0 ==> o == Outcome(Fail(1, "invalid stack"), c)
    ensures |c.texts| > 0 ==>
              o.ctx.programStack == c.programStack && o.ctx.instancing == c.instancing
              && o.ctx.texts == c.texts && o.ctx.cameras == c.cameras && o.ctx.meshes == c.meshes
              && o.ctx.viewports == c.viewports && o.ctx.blends == c.blends
  {
    if |c.texts| == 0 then Outcome(Fail(1, "invalid stack"), c)
    else
      var c3 := LaidOut(c, CodePoints(txt), position, color, glyph);
      assert Inst.SelectedProgram(c3) == TEXT_PROGRAM_NAME;
      var c4 := Inst.End(c3).ctx;
      Outcome(Ok, PopProgram(c4))
  }

  /** With the text program registered, `text` ends by drawing every glyph of the layout:
      as many instances as laid-out glyphs, the k-th record being the k-th glyph's, at its
      layout position, sampling the top font's texture. */
  lemma TextDrawsLayout(c: Context, txt: seq<Byte>, position: Float2, color: Float4, glyph: nat -> Glyph)
    requires WellSized(txt) && |c.texts| > 0 && CanText(c, Printable(CodePoints(txt)))
    requires TEXT_PROGRAM_NAME in c.programs && c.programs[TEXT_PROGRAM_NAME].Some?
    ensures var o := DrawText(c, txt, position, color, glyph);
            var font := c.texts[|c.texts| - 1];
            var ps := Placements(CodePoints(txt), position, position, font.height, glyph);
            |ps| > 0 ==>
              |o.ctx.log| > 0 && o.ctx.log[|o.ctx.log| - 1].DrawInstanced?
              && o.ctx.log[|o.ctx.log| - 1].program == c.programs[TEXT_PROGRAM_NAME].value
              && o.ctx.log[|o.ctx.log| - 1].count == |ps|
              && |o.ctx.log[|o.ctx.log| - 1].records| == |ps| * INSTANCE_FORMAT_COUNT
              && forall k :: 0 <= k < |ps| ==>
                   Slot(o.ctx.log[|o.ctx.log| - 1].records, k)
                   == GlyphRecord(font.texture, glyph(ps[k].cp), ps[k].position, color)
  {
    var font := c.texts[|c.texts| - 1];
    var cps := CodePoints(txt);
    var c1 := PushProgram(c, TEXT_PROGRAM_NAME);
    var c2 := Inst.Begin(c1, Some(font.texture), None, None, None).ctx;
    RunLaysOut(c2, cps, position, position, font.height, color, glyph);
    var c3 := LaidOut(c, cps, position, color, glyph);
    assert c3 == Run(c2, cps, position, position, font.height, color, glyph);
    assert Inst.SelectedProgram(c3) == TEXT_PROGRAM_NAME;
    ShrinkSlots(c3.shareBuffer, Printable(cps));
  }

  /** The first `n` slots of a buffer are the slots of its first `n` records. */
  lemma ShrinkSlots(buffer: seq<Float>, n: nat)
    requires n * INSTANCE_FORMAT_COUNT <= |buffer|
    ensures forall k :: 0 <= k < n ==> Slot(buffer[..n * INSTANCE_FORMAT_COUNT], k) == Slot(buffer, k)
  {
    forall k | 0 <= k < n
      ensures Slot(buffer[..n * INSTANCE_FORMAT_COUNT], k) == Slot(buffer, k)
    {
      assert (k + 1) * INSTANCE_FORMAT_COUNT <= n * INSTANCE_FORMAT_COUNT;
    }
  }
}

=== FILE: tweener.dfy ===
/** Tweeners: a list of items, each interpolating a value from `from` to `to` over a delay
    and a duration, played once, looped, or ping-ponged back and forth. Times are reals;
    the tweened value is a real. Easing functions and progress callbacks are user code and
    are parameters (function-valued fields); completion callbacks are recorded as events. */
module Tweeners {
  import opened Results

  datatype Mode = Once | Loop | PingPong
  datatype Direction = Forward | Backward

  /** A progress callback: told the eased progress and the interpolated value, it answers
      whether it handled the progress. */
  type ProgressFn = (real, real) -> bool

  datatype Item = Item(from: real, to: real, duration: real, delay: real, elapsed: real,
                       easing: Option<real -> real>, progress: Option<ProgressFn>,
                       hasComplete: bool)

  datatype Tweener = Tweener(pause: bool, items: seq<Item>, mode: Mode,
                             sharedProgress: Option<ProgressFn>, hasSharedComplete: bool,
                             index: int, loopTotal: int, loopCount: int, direction: Direction)

  /** What an update makes the tweener call: the progress callbacks of an item, an item's
      own completion callback, and the tweener's shared completion callback. */
  datatype Event = Progressed(item: nat, t: real, value: real) | ItemCompleted(item: nat) | Completed

  datatype Step = Step(succeeded: bool, tw: Tweener, events: seq<Event>)

  /** A tweener as the class default-constructs it. */
  const Default: Tweener := Tweener(false, [], Once, None, false, 0, 0, 0, Forward)

  // ---------------------------------------------------------------- queries

  /** has_next: the index has not run past the last item. */
  predicate HasNext(tw: Tweener) {
    tw.index < |tw.items|
  }

  /** loop_finish: a positive loop limit has been reached. */
  predicate LoopFinished(tw: Tweener) {
    tw.loopTotal > 0 && tw.loopCount >= tw.loopTotal
  }

  /** finish: a one-shot tweener past its last item, or any tweener whose loop limit is
      reached. */
  predicate Finished(tw: Tweener) {
    (tw.mode == Once && !HasNext(tw)) || LoopFinished(tw)
  }

  /** Without a loop limit a tweener is finished exactly when it is one-shot and past its
      last item; a tweener that is not one-shot is finished exactly when its loop limit is
      reached. */
  lemma FinishedMeans(tw: Tweener)
    ensures tw.loopTotal <= 0 ==> (Finished(tw) <==> tw.mode == Once && tw.index >= |tw.items|)
    ensures tw.mode != Once ==> (Finished(tw) <==> LoopFinished(tw))
  {
  }

  /** The item an update works on, when the index is inside the item list. */
  predicate Playing(tw: Tweener) {
    0 <= tw.index < |tw.items|
  }

  /** What an update needs of the item it works on: a non-zero duration (the progress is
      a float division by it). */
  predicate Steppable(tw: Tweener) {
    Playing(tw) ==> tw.items[tw.index].duration != 0.0
  }

  // ---------------------------------------------------------------- rewind and restart

  function ZeroElapsed(items: seq<Item>): (r: seq<Item>)
    ensures |r| == |items|
    ensures forall i :: 0 <= i < |items| ==> r[i] == items[i].(elapsed := 0.0)
  {
    if |items| == 0 then [] else [items[0].(elapsed := 0.0)] + ZeroElapsed(items[1..])
  }

  /** rewind: every item's elapsed time back to zero, the first item current, playing
      forward. The loop count stays. */
  function Rewind(tw: Tweener): (r: Tweener)
    ensures r == tw.(items := r.items, index := 0, direction := Forward)
    ensures |r.items| == |tw.items|
    ensures forall i :: 0 <= i < |tw.items| ==> r.items[i] == tw.items[i].(elapsed := 0.0)
  {
    tw.(items := ZeroElapsed(tw.items), index := 0, direction := Forward)
  }

  /** restart: a rewind that also forgets the loops played. */
  function Restart(tw: Tweener): (r: Tweener)
    ensures r == Rewind(tw).(loopCount := 0)
    ensures r.loopCount == 0 && r.index == 0 && r.direction == Forward
  {
    Rewind(tw).(loopCount := 0)
  }

  /** Rewinding twice is rewinding once; a restarted tweener is finished only when it is a
      one-shot tweener with no items. */
  lemma RestartUnfinished(tw: Tweener)
    ensures Rewind(Rewind(tw)) == Rewind(tw)
    ensures Finished(Restart(tw)) <==> tw.mode == Once && |tw.items| == 0
  {
    assert Rewind(Rewind(tw)).items == Rewind(tw).items;
  }

  // ---------------------------------------------------------------- one item's step

  /** The item's elapsed time moved forward by dt: the item completes once the elapsed time
      reaches delay plus duration, and is clamped there. */
  function Forth(item: Item, dt: real): (r: (Item, bool))
    ensures r.0 == item.(elapsed := r.0.elapsed)
    ensures r.1 <==> item.elapsed + dt >= item.duration + item.delay
    ensures r.1 ==> r.0.elapsed == item.duration + item.delay
    ensures !r.1 ==> r.0.elapsed == item.elapsed + dt
  {
    var e := item.elapsed + dt;
    var end := item.duration + item.delay;
    (item.(elapsed := if end < e then end else e), e >= end)
  }

  /** The item's elapsed time moved back by dt: the item completes once the elapsed time
      reaches zero, and is clamped there. */
  function Back(item: Item, dt: real): (r: (Item, bool))
    ensures r.0 == item.(elapsed := r.0.elapsed)
    ensures r.1 <==> item.elapsed - dt <= 0.0
    ensures r.1 ==> r.0.elapsed == 0.0
    ensures !r.1 ==> r.0.elapsed == item.elapsed - dt
  {
    var e := item.elapsed - dt;
    (item.(elapsed := if 0.0 > e then 0.0 else e), e <= 0.0)
  }

  /** The eased progress: the easing function applied, or the linear progress when the
      item has none. */
  function Eased(easing: Option<real -> real>, progress: real): real {
    match easing
    case Some(f) => f(progress)
    case None => progress
  }

  /** The eased progress of an item past its delay: the fraction of its duration elapsed
      since the delay, eased. */
  function EasedProgress(item: Item): real
    requires item.duration != 0.0
  {
    Eased(item.easing, (item.elapsed - item.delay) / item.duration)
  }

  /** The value at eased progress t: `from` at 0, `to` at 1, linear in between. */
  function Lerp(from: real, to: real, t: real): (v: real)
    ensures t == 0.0 ==> v == from
    ensures t == 1.0 ==> v == to
  {
    from * (1.0 - t) + to * t
  }

  /** The callbacks told of an item's progress once its delay has passed: the item's own
      and the tweener's shared one are both called (the source ORs them without
      short-circuiting) and the update succeeds when either answers true. */
  function Report(tw: Tweener, i: nat, item: Item): (r: (bool, seq<Event>))
    requires item.duration != 0.0
    ensures item.elapsed < item.delay ==> r == (false, [])
    ensures item.elapsed >= item.delay ==>
              var t := EasedProgress(item);
              var v := Lerp(item.from, item.to, t);
              r.1 == [Progressed(i, t, v)]
              && (r.0 <==> (item.progress.Some? && item.progress.value(t, v))
                           || (tw.sharedProgress.Some? && tw.sharedProgress.value(t, v)))
  {
    if item.elapsed >= item.delay then
      var t := EasedProgress(item);
      var v := Lerp(item.from, item.to, t);
      var own := if item.progress.Some? then item.progress.value(t, v) else false;
      var shared := if tw.sharedProgress.Some? then tw.sharedProgress.value(t, v) else false;
      (own || shared, [Progressed(i, t, v)])
    else (false, [])
  }

  function OwnComplete(item: Item, i: nat): seq<Event> {
    if item.hasComplete then [ItemCompleted(i)] else []
  }

  function SharedComplete(tw: Tweener): seq<Event> {
    if tw.hasSharedComplete then [Completed] else []
  }

  // ---------------------------------------------------------------- the three modes

  /** once_update: the current item moves forward; on completion its callback runs, the
      index moves to the next item and the shared completion callback runs. */
  function OnceUpdate(tw: Tweener, dt: real): (s: Step)
    requires Playing(tw) && Steppable(tw)
    ensures var (item, done) := Forth(tw.items[tw.index], dt);
            s.tw == tw.(items := tw.items[tw.index := item], index := if done then tw.index + 1 else tw.index)
            && (done ==> s.events == Report(tw, tw.index, item).1 + OwnComplete(item, tw.index) + SharedComplete(tw))
            && (!done ==> s.events == Report(tw, tw.index, item).1)
            && s.succeeded == Report(tw, tw.index, item).0
  {
    var i := tw.index;
    var (item, done) := Forth(tw.items[i], dt);
    var (ok, events) := Report(tw, i, item);
    var tw1 := tw.(items := tw.items[i := item]);
    if done then Step(ok, tw1.(index := i + 1), events + OwnComplete(item, i) + SharedComplete(tw))
    else Step(ok, tw1, events)
  }

  /** What becomes of a looping tweener whose current item completed: the index moves on;
      past the last item one more loop is counted, and the tweener either reports its
      completion (loop limit reached) or rewinds. */
  function LoopOn(tw: Tweener): (s: (Tweener, seq<Event>))
    ensures var next := tw.(index := tw.index + 1);
            (HasNext(next) ==> s == (next, []))
            && (!HasNext(next) && LoopFinished(next.(loopCount := tw.loopCount + 1)) ==>
                  s == (next.(loopCount := tw.loopCount + 1), SharedComplete(tw)))
            && (!HasNext(next) && !LoopFinished(next.(loopCount := tw.loopCount + 1)) ==>
                  s == (Rewind(next.(loopCount := tw.loopCount + 1)), []))
  {
    var next := tw.(index := tw.index + 1);
    if HasNext(next) then (next, [])
    else
      var counted := next.(loopCount := tw.loopCount + 1);
      if LoopFinished(counted) then (counted, SharedComplete(tw)) else (Rewind(counted), [])
  }

  /** loop_update as the source writes it: it advances a COPY of the current item, so the
      stored elapsed time never changes and an item completes only within a single update
      whose dt covers its whole delay and duration. */
  function LoopUpdateAsWritten(tw: Tweener, dt: real): (s: Step)
    requires Playing(tw) && Steppable(tw)
    ensures var (item, done) := Forth(tw.items[tw.index], dt);
            (!done ==> s.tw == tw)
            && (done ==> s.tw == LoopOn(tw).0)
            && s.succeeded == Report(tw, tw.index, item).0
  {
    var i := tw.index;
    var (item, done) := Forth(tw.items[i], dt);
    var (ok, events) := Report(tw, i, item);
    if done then
      var (tw2, more) := LoopOn(tw);
      Step(ok, tw2, events + OwnComplete(item, i) + more)
    else Step(ok, tw, events)
  }

  /** loop_update as evidently intended, advancing the stored item as the other two modes
      do: the elapsed time accumulates across updates. */
  function LoopUpdate(tw: Tweener, dt: real): (s: Step)
    requires Playing(tw) && Steppable(tw)
    ensures var (item, done) := Forth(tw.items[tw.index], dt);
            var stored := tw.(items := tw.items[tw.index := item]);
            (!done ==> s.tw == stored)
            && (done ==> s.tw == LoopOn(stored).0)
            && s.succeeded == Report(tw, tw.index, item).0
  {
    var i := tw.index;
    var (item, done) := Forth(tw.items[i], dt);
    var (ok, events) := Report(tw, i, item);
    var tw1 := tw.(items := tw.items[i := item]);
    if done then
      var (tw2, more) := LoopOn(tw1);
      Step(ok, tw2, events + OwnComplete(item, i) + more)
    else Step(ok, tw1, events)
  }

  /** pingpong_update: the current item moves forward or back with the direction. A
      completed forward item passes to the next one, turning back on the last item; a
      completed backward item passes to the previous one, and on reaching the first
      (index 0 or below) the tweener turns forward at item 0 and counts one more loop,
      reporting its completion when the loop limit is reached. */
  function PingPongUpdate(tw: Tweener, dt: real): (s: Step)
    requires Playing(tw) && Steppable(tw)
    ensures var (item, done) := if tw.direction == Forward then Forth(tw.items[tw.index], dt)
                                 else Back(tw.items[tw.index], dt);
            var stored := tw.(items := tw.items[tw.index := item]);
            (!done ==> s.tw == stored)
            && (done && tw.direction == Forward && tw.index + 1 < |tw.items| ==>
                  s.tw == stored.(index := tw.index + 1))
            && (done && tw.direction == Forward && tw.index + 1 >= |tw.items| ==>
                  s.tw == stored.(index := |tw.items| - 1, direction := Backward))
            && (done && tw.direction == Backward && tw.index - 1 > 0 ==>
                  s.tw == stored.(index := tw.index - 1))
            && (done && tw.direction == Backward && tw.index - 1 <= 0 ==>
                  s.tw == stored.(index := 0, direction := Forward, loopCount := tw.loopCount + 1))
            && s.succeeded == Report(tw, tw.index, item).0
  {
    var i := tw.index;
    var (item, done) := if tw.direction == Forward then Forth(tw.items[i], dt) else Back(tw.items[i], dt);
    var (ok, events) := Report(tw, i, item);
    var tw1 := tw.(items := tw.items[i := item]);
    if !done then Step(ok, tw1, events)
    else
      var events := events + OwnComplete(item, i);
      if tw.direction == Forward then
        if i + 1 < |tw.items| then Step(ok, tw1.(index := i + 1), events)
        else Step(ok, tw1.(index := |tw.items| - 1, direction := Backward), events)
      else if i - 1 > 0 then Step(ok, tw1.(index := i - 1), events)
      else
        var counted := tw1.(index := 0, direction := Forward, loopCount := tw.loopCount + 1);
        Step(ok, counted, events + if LoopFinished(counted) then SharedComplete(tw) else [])
  }

  /** update: a paused tweener, or one whose index is outside its items, reports success and
      changes nothing; otherwise the mode's update runs, loop mode as the source writes it. */
  function Update(tw: Tweener, dt: real): (s: Step)
    requires Steppable(tw)
    ensures tw.pause || !Playing(tw) ==> s == Step(true, tw, [])
    ensures !tw.pause && Playing(tw) ==>
              s == match tw.mode
                   case Once => OnceUpdate(tw, dt)
                   case Loop => LoopUpdateAsWritten(tw, dt)
                   case PingPong => PingPongUpdate(tw, dt)
  {
    if tw.pause || !Playing(tw) then Step(true, tw, [])
    else
      match tw.mode
      case Once => OnceUpdate(tw, dt)
      case Loop => LoopUpdateAsWritten(tw, dt)
      case PingPong => PingPongUpdate(tw, dt)
  }

  /** update as evidently intended: the same dispatch, with loop mode advancing the stored
      item. */
  function UpdateIntended(tw: Tweener, dt: real): (s: Step)
    requires Steppable(tw)
    ensures tw.pause || !Playing(tw) ==> s == Step(true, tw, [])
    ensures !tw.pause && Playing(tw) && tw.mode == Loop ==> s == LoopUpdate(tw, dt)
  {
    if tw.pause || !Playing(tw) then Step(true, tw, [])
    else
      match tw.mode
      case Once => OnceUpdate(tw, dt)
      case Loop => LoopUpdate(tw, dt)
      case PingPong => PingPongUpdate(tw, dt)
  }

  /** The two updates differ only in loop mode, and there only while the current item has
      not completed: a completing loop update moves on from the same tweener either way
      (the completed item's time is then either rewound or never read again). */
  lemma UpdatesAgree(tw: Tweener, dt: real)
    requires Steppable(tw)
    ensures tw.mode != Loop ==> UpdateIntended(tw, dt) == Update(tw, dt)
    ensures tw.mode == Loop && !tw.pause && Playing(tw) ==>
              var (item, done) := Forth(tw.items[tw.index], dt);
              var stored := tw.(items := tw.items[tw.index := item]);
              (done ==> UpdateIntended(tw, dt).tw == LoopOn(stored).0 && Update(tw, dt).tw == LoopOn(tw).0)
              && (!done ==> UpdateIntended(tw, dt).tw == stored && Update(tw, dt).tw == tw)
  {
  }

  // ---------------------------------------------------------------- invariants

  /** The shape every tweener keeps: the index never negative and at most one past the last
      item; a ping-pong tweener with items keeps it on an item. */
  predicate InRange(tw: Tweener) {
    0 <= tw.index <= |tw.items|
    && (tw.mode == PingPong && |tw.items| > 0 ==> tw.index < |tw.items|)
  }

  /** An update keeps the index in range, never changes the number of items, the mode or the
      loop limit, and never lowers the loop count. */
  lemma UpdateInRange(tw: Tweener, dt: real)
    requires Steppable(tw) && InRange(tw)
    ensures var r := Update(tw, dt).tw;
            InRange(r) && |r.items| == |tw.items| && r.mode == tw.mode && r.loopTotal == tw.loopTotal
            && tw.loopCount <= r.loopCount <= tw.loopCount + 1
  {
  }

  /** The intended update keeps the same shape. */
  lemma IntendedInRange(tw: Tweener, dt: real)
    requires Steppable(tw) && InRange(tw)
    ensures var r := UpdateIntended(tw, dt).tw;
            InRange(r) && |r.items| == |tw.items| && r.mode == tw.mode && r.loopTotal == tw.loopTotal
            && tw.loopCount <= r.loopCount <= tw.loopCount + 1
  {
  }

  /** A one-shot tweener past its last item is finished, and every later update leaves it
      alone. */
  lemma FinishedOnceStays(tw: Tweener, dt: real)
    requires tw.mode == Once && !HasNext(tw)
    ensures Finished(tw) && Steppable(tw) && Update(tw, dt) == Step(true, tw, [])
  {
  }

  /** A looping tweener's completed pass: when the last item completes and the limit is not
      reached, the tweener is rewound with one more loop counted; when it is reached, the
      shared completion callback runs and the tweener is finished. */
  lemma LoopPassCompletes(tw: Tweener, dt: real)
    requires Playing(tw) && Steppable(tw) && !tw.pause && tw.mode == Loop
    requires tw.index == |tw.items| - 1
    requires tw.items[tw.index].elapsed + dt >= tw.items[tw.index].duration + tw.items[tw.index].delay
    ensures var s := Update(tw, dt);
            s.tw.loopCount == tw.loopCount + 1
            && (LoopFinished(s.tw) ==> Finished(s.tw) && s.events[|s.events| - |SharedComplete(tw)|..] == SharedComplete(tw))
            && (!LoopFinished(s.tw) ==> s.tw.index == 0 && forall i :: 0 <= i < |s.tw.items| ==> s.tw.items[i].elapsed == 0.0)
  {
    var s := Update(tw, dt);
    assert s == LoopUpdateAsWritten(tw, dt);
    var (item, done) := Forth(tw.items[tw.index], dt);
    assert done;
    var counted := tw.(index := tw.index + 1, loopCount := tw.loopCount + 1);
    assert !HasNext(tw.(index := tw.index + 1));
    if LoopFinished(counted) {
      assert s.tw == counted;
      var (ok, events) := Report(tw, tw.index, item);
      assert s.events == events + OwnComplete(item, tw.index) + SharedComplete(tw);
    } else {
      assert s.tw == Rewind(counted);
    }
  }

  /** In ping-pong mode, with two or more items, the backward pass stops at item 1: the
      tweener turns forward at item 0 without playing item 0 backward, and item 0 keeps the
      elapsed time its forward pass left. */
  lemma PingPongSkipsFirstBackward(tw: Tweener, dt: real)
    requires Steppable(tw) && !tw.pause && tw.mode == PingPong && |tw.items| >= 2
    requires tw.index == 1 && tw.direction == Backward && tw.items[1].elapsed - dt <= 0.0
    ensures var r := Update(tw, dt).tw;
            r.index == 0 && r.direction == Forward && r.loopCount == tw.loopCount + 1
            && r.items[0] == tw.items[0]
  {
  }

  // ---------------------------------------------------------------- the loop-mode copy

  /** The loop-mode update as written loses the elapsed time of every update that does not
      complete the item: one item of duration 1 and no delay, updated twice by 0.6, never
      completes, while the evidently intended update completes it on the second update and
      counts the loop. */
  lemma LoopCopyLosesTime()
    ensures var item := Item(0.0, 1.0, 1.0, 0.0, 0.0, None, None, false);
            var tw := Tweener(false, [item], Loop, None, false, 0, 0, 0, Forward);
            var a1 := LoopUpdateAsWritten(tw, 0.6).tw;
            var a2 := LoopUpdateAsWritten(a1, 0.6).tw;
            var c1 := LoopUpdate(tw, 0.6).tw;
            var c2 := LoopUpdate(c1, 0.6).tw;
            a2 == tw && a2.loopCount == 0 && c1.items[0].elapsed == 0.6 && c2.loopCount == 1
  {
  }

  /** As written, a looping item that does not complete forgets the time it was given: the
      whole tweener is left as it was. */
  lemma LoopForgets(tw: Tweener, dt: real)
    requires Playing(tw) && Steppable(tw) && !tw.pause && tw.mode == Loop
    requires tw.items[tw.index].elapsed + dt < tw.items[tw.index].duration + tw.items[tw.index].delay
    ensures Update(tw, dt).tw == tw
  {
  }

  /** With the intended update, a looping item that does not complete keeps the time it was
      given: its stored elapsed time grows by dt, exactly as in the other modes. */
  lemma LoopAccumulates(tw: Tweener, dt: real)
    requires Playing(tw) && Steppable(tw) && !tw.pause && tw.mode == Loop
    requires tw.items[tw.index].elapsed + dt < tw.items[tw.index].duration + tw.items[tw.index].delay
    ensures var r := UpdateIntended(tw, dt).tw;
            r.index == tw.index && r.items[tw.index].elapsed == tw.items[tw.index].elapsed + dt
            && forall i :: 0 <= i < |tw.items| && i != tw.index ==> r.items[i] == tw.items[i]
  {
  }

  // ---------------------------------------------------------------- playing through

  /** No item has a zero duration. */
  predicate NonZeroDurations(items: seq<Item>) {
    forall i :: 0 <= i < |items| ==> items[i].duration != 0.0
  }

  /** An update changes only elapsed times: every item keeps its ends, duration, delay,
      easing and callbacks. */
  lemma UpdateKeepsItems(tw: Tweener, dt: real)
    requires Steppable(tw)
    ensures var r := Update(tw, dt).tw;
            |r.items| == |tw.items|
            && forall i :: 0 <= i < |tw.items| ==> r.items[i] == tw.items[i].(elapsed := r.items[i].elapsed)
  {
  }

  /** A sequence of updates, collecting the events. */
  function Play(tw: Tweener, dts: seq<real>): (r: (Tweener, seq<Event>))
    requires NonZeroDurations(tw.items)
    ensures |r.0.items| == |tw.items|
    decreases |dts|
  {
    if |dts| == 0 then (tw, [])
    else
      var s := Update(tw, dts[0]);
      UpdateKeepsItems(tw, dts[0]);
      var rest := Play(s.tw, dts[1..]);
      (rest.0, s.events + rest.1)
  }

  /** Each item has a positive duration, a non-negative delay, and the two together are at
      most `step`. */
  predicate Covered(items: seq<Item>, step: real) {
    forall i :: 0 <= i < |items| ==>
      items[i].duration > 0.0 && items[i].delay >= 0.0 && items[i].duration + items[i].delay <= step
  }

  /** A one-shot tweener played from item `k` with non-negative elapsed times, one update
      per remaining item, each update long enough to finish any item, completes one item per
      update and then is finished; the shared completion callback runs once per item. */
  lemma {:induction false} OncePlaysThrough(tw: Tweener, dts: seq<real>, step: real)
    requires tw.mode == Once && !tw.pause && 0 <= tw.index && tw.index + |dts| == |tw.items|
    requires Covered(tw.items, step)
    requires forall i :: 0 <= i < |tw.items| ==> tw.items[i].elapsed >= 0.0
    requires forall i :: 0 <= i < |dts| ==> dts[i] >= step
    ensures var (r, events) := Play(tw, dts);
            Finished(r) && r.index == |tw.items|
            && multiset(events)[Completed] == if tw.hasSharedComplete then |dts| else 0
    decreases |dts|
  {
    if |dts| > 0 {
      OnceStep(tw, dts[0], step);
      OncePlaysThrough(Update(tw, dts[0]).tw, dts[1..], step);
    }
  }

  /** One step of `OncePlaysThrough`: an update long enough to finish the current item
      moves to the next one, keeps the items covered with non-negative elapsed times, and
      reports one shared completion when there is a shared callback. */
  lemma OnceStep(tw: Tweener, dt: real, step: real)
    requires tw.mode == Once && !tw.pause && 0 <= tw.index < |tw.items|
    requires Covered(tw.items, step)
    requires forall i :: 0 <= i < |tw.items| ==> tw.items[i].elapsed >= 0.0
    requires dt >= step
    ensures var s := Update(tw, dt);
            s.tw.mode == Once && !s.tw.pause && s.tw.index == tw.index + 1
            && |s.tw.items| == |tw.items| && s.tw.hasSharedComplete == tw.hasSharedComplete
            && Covered(s.tw.items, step)
            && (forall i :: 0 <= i < |s.tw.items| ==> s.tw.items[i].elapsed >= 0.0)
            && multiset(s.events)[Completed] == if tw.hasSharedComplete then 1 else 0
  {
    var s := Update(tw, dt);
    var item := tw.items[tw.index];
    assert Forth(item, dt).1;
    var next := s.tw;
    assert next.index == tw.index + 1;
    assert Covered(next.items, step) by {
      forall i | 0 <= i < |next.items| ensures next.items[i].duration == tw.items[i].duration
                                               && next.items[i].delay == tw.items[i].delay {
      }
    }
  }

  // ---------------------------------------------------------------- building

  /** from_to: appends an item with the given ends, duration, delay, easing and callbacks,
      starting at elapsed zero. */
  function FromTo(items: seq<Item>, from: real, to: real, duration: real, delay: real,
                  easing: Option<real -> real>, progress: Option<ProgressFn>, hasComplete: bool): (r: seq<Item>)
    ensures |r| == |items| + 1 && r[..|items|] == items
    ensures r[|items|] == Item(from, to, duration, delay, 0.0, easing, progress, hasComplete)
  {
    var r := items + [Item(from, to, duration, delay, 0.0, easing, progress, hasComplete)];
    assert r[..|items|] == items;
    r
  }

  /** from_to by easing name: the named easing from the handler table, or none (linear)
      for a name the table does not have. */
  function FromToNamed(items: seq<Item>, from: real, to: real, duration: real, delay: real,
                       handlers: map<string, real -> real>, name: string,
                       progress: Option<ProgressFn>, hasComplete: bool): (r: seq<Item>)
    ensures |r| == |items| + 1 && r[..|items|] == items
    ensures r[|items|].easing == if name in handlers then Some(handlers[name]) else None
  {
    FromTo(items, from, to, duration, delay, if name in handlers then Some(handlers[name]) else None,
           progress, hasComplete)
  }

  /** An easing name the table lacks gives linear progress. */
  lemma UnknownEasingIsLinear(items: seq<Item>, from: real, to: real, duration: real, delay: real,
                              handlers: map<string, real -> real>, name: string,
                              progress: Option<ProgressFn>, hasComplete: bool, p: real)
    requires name !in handlers
    ensures Eased(FromToNamed(items, from, to, duration, delay, handlers, name, progress, hasComplete)[|items|].easing, p) == p
  {
  }

  /** build (through initialize): a new tweener holding the builder's items, with the given
      mode, loop limit and shared callbacks, at the first item with no loops played. */
  function Build(items: seq<Item>, mode: Mode, loopTotal: int, sharedProgress: Option<ProgressFn>,
                 hasSharedComplete: bool): (tw: Tweener)
    ensures tw.items == items && tw.mode == mode && tw.loopTotal == loopTotal
    ensures tw.index == 0 && tw.loopCount == 0 && tw.direction == Forward && !tw.pause
    ensures InRange(tw)
  {
    Default.(items := items, mode := mode, loopTotal := loopTotal, sharedProgress := sharedProgress,
             hasSharedComplete := hasSharedComplete)
  }
}

=== FILE: utf8.dfy ===
/** The UTF-8 decoder of the text renderer. Bytes are integers 0..255; each bit mask of the
    source is written as the arithmetic it amounts to: `b & 0b11111000 == 0b11110000` tests
    that the top five bits are 11110, i.e. `b / 8 == 0x1E`, and `b & 0b00111111` keeps the
    low six bits, i.e. `b % 64`. The source reads `char`, which may be signed, but every mask
    clears the sign-extended bits, so the byte value is what counts. */
module Utf8 {
  type Byte = b: int | 0 <= b < 0x100

  /** The number of bytes the decoder consumes for a lead byte: 4 for 11110xxx, 3 for
      1110xxxx, 2 for 110xxxxx and 1 for everything else (ASCII, stray continuation bytes
      and 11111xxx alike). */
  function Width(b: Byte): (n: nat)
    ensures 1 <= n <= 4
    ensures n == 1 <==> b < 0xC0 || b >= 0xF8
  {
    if b / 8 == 0x1E then 4
    else if b / 16 == 0x0E then 3
    else if b / 32 == 0x06 then 2
    else 1
  }

  /** The low bits of a byte below `m`, a power of two: the source's `b & (m - 1)`. */
  function Low(b: Byte, m: nat): (r: nat)
    requires m > 0
    ensures r < m
  {
    b as int % m
  }

  /** The code point of the sequence at the head of `txt`: the payload bits of the lead byte
      followed by six bits of each following byte. A one-byte sequence keeps the low seven
      bits, so a byte that is not a valid lead loses its top bit. The continuation bytes are
      not checked. */
  function DecodeHead(txt: seq<Byte>): (cp: nat)
    requires |txt| > 0 && Width(txt[0]) <= |txt|
    ensures cp < 0x200000
  {
    var w := Width(txt[0]);
    if w == 4 then Low(txt[0], 8) * 0x40000 + Low(txt[1], 64) * 0x1000 + Low(txt[2], 64) * 0x40 + Low(txt[3], 64)
    else if w == 3 then Low(txt[0], 16) * 0x1000 + Low(txt[1], 64) * 0x40 + Low(txt[2], 64)
    else if w == 2 then Low(txt[0], 32) * 0x40 + Low(txt[1], 64)
    else Low(txt[0], 128)
  }

  /** The decoder stays inside the text: every sequence it starts is complete. A text whose
      last sequence is cut short makes the source read past its end. */
  predicate WellSized(txt: seq<Byte>)
    decreases |txt|
  {
    |txt| == 0 || (Width(txt[0]) <= |txt| && WellSized(txt[Width(txt[0])..]))
  }

  /** The code points the decoding loop produces, in order. */
  function CodePoints(txt: seq<Byte>): (cps: seq<nat>)
    requires WellSized(txt)
    ensures |cps| <= |txt|
    decreases |txt|
  {
    if |txt| == 0 then [] else [DecodeHead(txt)] + CodePoints(txt[Width(txt[0])..])
  }

  /** The decoding of the text from position `i` on starts with the sequence at `i`. */
  lemma Unfold(txt: seq<Byte>, i: nat)
    requires i < |txt| && WellSized(txt[i..])
    ensures txt[i..][0] == txt[i] && i + Width(txt[i]) <= |txt|
    ensures WellSized(txt[i + Width(txt[i])..])
    ensures CodePoints(txt[i..]) == [DecodeHead(txt[i..])] + CodePoints(txt[i + Width(txt[i])..])
  {
    var rest := txt[i..];
    assert rest[0] == txt[i];
    assert rest[Width(txt[i])..] == txt[i + Width(txt[i])..];
  }

  /** One iteration of the decoding loop at position `i`: the code points decoded so far,
      followed by the one at `i`, leave the decoding from the next position to do, `all`
      standing for the decoding of the whole text. */
  lemma Step(txt: seq<Byte>, i: nat, cps: seq<nat>, all: seq<nat>)
    requires i < |txt| && WellSized(txt[i..])
    requires all == cps + CodePoints(txt[i..])
    ensures txt[i..][0] == txt[i] && i + Width(txt[i]) <= |txt|
    ensures WellSized(txt[i + Width(txt[i])..])
    ensures all == (cps + [DecodeHead(txt[i..])]) + CodePoints(txt[i + Width(txt[i])..])
  {
    Unfold(txt, i);
    var head := [DecodeHead(txt[i..])];
    var tail := CodePoints(txt[i + Width(txt[i])..]);
    assert cps + (head + tail) == (cps + head) + tail;
  }

  /** The decoding loop of the text renderer, one sequence per iteration. */
  method Decode(txt: seq<Byte>) returns (cps: seq<nat>)
    requires WellSized(txt)
    ensures cps == CodePoints(txt)
  {
    ghost var all := CodePoints(txt);
    cps := [];
    var i := 0;
    while i < |txt|
      invariant 0 <= i <= |txt|
      invariant WellSized(txt[i..])
      invariant all == cps + CodePoints(txt[i..])
      decreases |txt| - i
    {
      Step(txt, i, cps, all);
      var w := Width(txt[i]);
      cps := cps + [DecodeHead(txt[i..])];
      i := i + w;
    }
    assert txt[i..] == [];
  }

  // ---------------------------------------------------------------- the encoder

  /** A Unicode scalar range value the four-byte form can carry. */
  predicate Encodable(cp: int) {
    0 <= cp < 0x110000
  }

  /** The shortest UTF-8 form of a code point, as section 3 of RFC 3629 lays it out. */
  function Encode(cp: int): (bytes: seq<Byte>)
    requires Encodable(cp)
    ensures 1 <= |bytes| <= 4
  {
    if cp < 0x80 then [cp]
    else if cp < 0x800 then [0xC0 + cp / 0x40, 0x80 + cp % 0x40]
    else if cp < 0x10000 then [0xE0 + cp / 0x1000, 0x80 + (cp / 0x40) % 0x40, 0x80 + cp % 0x40]
    else [0xF0 + cp / 0x40000, 0x80 + (cp / 0x1000) % 0x40, 0x80 + (cp / 0x40) % 0x40, 0x80 + cp % 0x40]
  }

  function EncodeAll(cps: seq<int>): (txt: seq<Byte>)
    requires forall i :: 0 <= i < |cps| ==> Encodable(cps[i])
  {
    if |cps| == 0 then [] else Encode(cps[0]) + EncodeAll(cps[1..])
  }

  lemma Split3(cp: int)
    requires 0 <= cp < 0x10000
    ensures cp == (cp / 0x1000) * 0x1000 + ((cp / 0x40) % 0x40) * 0x40 + cp % 0x40
  {
    var q := cp / 0x40;
    assert cp == q * 0x40 + cp % 0x40;
    assert q == (q / 0x40) * 0x40 + q % 0x40;
    assert q / 0x40 == cp / 0x1000;
  }

  lemma Split4(cp: int)
    requires 0 <= cp < 0x110000
    ensures cp == (cp / 0x40000) * 0x40000 + ((cp / 0x1000) % 0x40) * 0x1000
                  + ((cp / 0x40) % 0x40) * 0x40 + cp % 0x40
  {
    var q := cp / 0x40;
    var q2 := q / 0x40;
    assert cp == q * 0x40 + cp % 0x40;
    assert q == q2 * 0x40 + q % 0x40;
    assert q2 == (q2 / 0x40) * 0x40 + q2 % 0x40;
    assert q2 == cp / 0x1000;
    assert q2 / 0x40 == cp / 0x40000;
  }

  /** The decoder reads one encoded code point back whole: it consumes exactly the bytes of
      the encoding and yields the code point. */
  lemma DecodeEncode(cp: int)
    requires Encodable(cp)
    ensures Width(Encode(cp)[0]) == |Encode(cp)|
    ensures DecodeHead(Encode(cp)) == cp
  {
    if cp < 0x80 {
    } else if cp < 0x800 {
      DecodeEncode2(cp);
    } else if cp < 0x10000 {
      DecodeEncode3(cp);
    } else {
      DecodeEncode4(cp);
    }
  }

  lemma DecodeEncode2(cp: int)
    requires 0x80 <= cp < 0x800
    ensures Width(Encode(cp)[0]) == 2 && DecodeHead(Encode(cp)) == cp
  {
    var q, l := cp / 0x40, cp % 0x40;
    assert Encode(cp) == [0xC0 + q, 0x80 + l];
    assert (0xC0 + q) / 32 == 0x06;
    assert Low(0xC0 + q, 32) == q && Low(0x80 + l, 64) == l;
  }

  lemma DecodeEncode3(cp: int)
    requires 0x800 <= cp < 0x10000
    ensures Width(Encode(cp)[0]) == 3 && DecodeHead(Encode(cp)) == cp
  {
    var q, m, l := cp / 0x1000, (cp / 0x40) % 0x40, cp % 0x40;
    assert Encode(cp) == [0xE0 + q, 0x80 + m, 0x80 + l];
    assert (0xE0 + q) / 16 == 0x0E;
    assert Low(0xE0 + q, 16) == q && Low(0x80 + m, 64) == m && Low(0x80 + l, 64) == l;
    Split3(cp);
  }

  lemma DecodeEncode4(cp: int)
    requires 0x10000 <= cp < 0x110000
    ensures Width(Encode(cp)[0]) == 4 && DecodeHead(Encode(cp)) == cp
  {
    var q, h, m, l := cp / 0x40000, (cp / 0x1000) % 0x40, (cp / 0x40) % 0x40, cp % 0x40;
    assert Encode(cp) == [0xF0 + q, 0x80 + h, 0x80 + m, 0x80 + l];
    assert (0xF0 + q) / 8 == 0x1E;
    assert Low(0xF0 + q, 8) == q && Low(0x80 + h, 64) == h && Low(0x80 + m, 64) == m && Low(0x80 + l, 64) == l;
    Split4(cp);
  }

  /** Decoding a text that starts with a complete sequence decodes that sequence, then the
      rest. */
  lemma {:induction false} CodePointsAppend(head: seq<Byte>, rest: seq<Byte>)
    requires |head| > 0 && Width(head[0]) == |head| && WellSized(rest)
    ensures WellSized(head + rest)
    ensures CodePoints(head + rest) == [DecodeHead(head)] + CodePoints(rest)
  {
    var t := head + rest;
    assert t[0] == head[0];
    assert t[|head|..] == rest;
    assert t[..|head|] == head;
  }

  /** Decoding undoes encoding for any sequence of code points: the decoder of the text
      renderer reads every well-formed UTF-8 text correctly. */
  lemma {:induction false} DecodeEncodeAll(cps: seq<int>)
    requires forall i :: 0 <= i < |cps| ==> Encodable(cps[i])
    ensures WellSized(EncodeAll(cps))
    ensures CodePoints(EncodeAll(cps)) == cps
  {
    if |cps| > 0 {
      DecodeEncodeAll(cps[1..]);
      DecodeEncode(cps[0]);
      CodePointsAppend(Encode(cps[0]), EncodeAll(cps[1..]));
    }
  }

  /** A byte that cannot start a sequence (a stray continuation byte, or 11111xxx) is read
      on its own as its low seven bits. */
  lemma StrayByte(b: Byte)
    requires 0x80 <= b < 0xC0 || 0xF8 <= b
    ensures Width(b) == 1 && DecodeHead([b]) == b - 0x80
  {
  }
}
